=== FILE: README.md ===
# shortn in Dafny

shortn is a URL shortener. This project models its core as pure Dafny functions over immutable data and proves what the code promises.

**API server.** A signed-in user posts a URL.
- Without a custom code, the server inserts a row into the generated-URL table. The short code is the base-62 encoding of the row's identity value, which starts at 10000. The same URL for the same user is never shortened twice: the existing alias is returned.
- With a custom code, the code is checked against `[a-zA-Z0-9_-]{1,30}`. A row is then inserted into the custom-URL table, whose `custom_code` column is unique.
- Both paths warm a Redis entry `kind:code → url` without waiting for it: 1 day for generated codes, 7 days for custom codes.
- Resolving an alias tries Redis first. Otherwise it decodes the code back to a row id or looks the code up.
- Updating changes a custom URL's destination. Deleting removes the row and the Redis entry.
- Around this sit:
  - the error handler, which maps errors to HTTP status codes and bodies;
  - the request logger, which redacts secrets from bodies;
  - two rate-limit policies (the per-user one, as wired, sees no user; see below);
  - pagination metadata for the listing endpoints;
  - the migration-file prefix.

**Browser client.** It keeps a TTL cache of listings in local storage, a store of classified errors, and a cookie map. It checks a URL before sending it and invalidates the cached listing a change affects. It retries a request after a 401 a bounded number of times.

Files:

| file | module | what it models |
|---|---|---|
| `wrappers.dfy` | `Wrappers` | `Option` / `Result` in place of `undefined` and thrown errors |
| `strings.dfy` | `Strings` | JavaScript string helpers: `includes`, `join`, `String(n)`, `padStart`, `trim`, ASCII `toLowerCase` |
| `seqs.dfy` | `Seqs` | SQL `WHERE`, `LIMIT/OFFSET` and `executeTakeFirst` over a table held as a sequence |
| `numbers.dfy` | `Numbers` | `Number.MAX_SAFE_INTEGER` |
| `base62.dfy` | `Base62` | the three copies of the base-62 codec |
| `errors.dfy` | `ShortnErrors` | URL, cache and database error kinds and their status codes |
| `repository.dfy` | `UrlRepository` | both tables, every repository query, and the migrations' constraints |
| `server_cache.dfy` | `ServerCache` | the Redis cache service |
| `engine.dfy` | `UrlEngine` | the URL service as a state machine over (tables, Redis) |
| `engine_props.dfy` | `UrlEngineProperties` | properties relating several engine operations |
| `validators.dfy` | `Validators` | `CustomCodeSchema`, `isUrlValid`, `isShortenedUrlValid`, the redirect server's `isValidUrl` |
| `pagination.dfy` | `Pagination` | the controller's pagination metadata |
| `error_handler.dfy` | `ErrorHandler` | the Fastify error handler |
| `log_plugin.dfy` | `LogPlugin` | payload sanitising, the body-logging filter, log levels |
| `rate_limit.dfy` | `RateLimit`, `GlobalRateLimit` | the two rate-limit plugins |
| `migrations.dfy` | `MigrationPrefix` | `getMigrationPrefix` |
| `client_cache.dfy` | `ClientCache` | the browser's listing cache |
| `client_errors.dfy` | `ClientErrors`, `ErrorStore` | error classification and the error store's reducer |
| `cookies.dfy` | `Cookies` | the cookie store and the `Cookie` header serialisers |
| `client_shorten.dfy` | `ClientShorten` | client pre-validation, request bodies, cache invalidation, `makeRequest` |

How the model is built:
- Tables are sequences in insertion order. The identity sequences are counters in the store.
- `Valid` is the schema:
  - ids strictly increase along each table;
  - generated ids start at 10000 and custom ids at 1;
  - custom codes are unique.

  Every operation that writes preserves it.
- Engine operations return a `Step`: the result, the new state, and the trace of store and cache effects. "Nothing was written" is therefore a statement about the trace.
- These are parameters:
  - the clock;
  - whether Redis is reachable and whether the un-awaited cache write lands;
  - a concurrent request that takes a custom code between the check and the insert;
  - the deployment configuration;
  - the build mode;
  - the server's responses.

## Model

| member | source | states |
|---|---|---|
| Base62.Encode | apps/api/lib/helpers/url.helper.ts:9-21 | 0 encodes as `"0"`; a negative number encodes as `""`; a positive number encodes over the alphabet with no leading `'0'` |
| Base62.Decode | apps/api/lib/helpers/url.helper.ts:23-40 | the result is never negative; `""` and any string with a character outside the alphabet decode to 0 |
| Base62.EncodeLoop | apps/api/lib/helpers/url.helper.ts:9-21 | the source's divide-and-prepend loop computes the same string as the positional definition |
| Base62.DecodeLoop | apps/api/lib/helpers/url.helper.ts:23-40 | the source's multiply-and-add loop, including its early return of 0 on a bad character, computes the same number as the positional definition |
| Base62.DecodeEncode | apps/api/lib/helpers/url.helper.ts:9-40 | decoding inverts encoding for every integer from 0 to 2^53 − 1 |
| Base62.EncodeDecode | apps/api/lib/helpers/url.helper.ts:9-40 | encoding inverts decoding for every non-empty alphabet string without a leading `'0'` whose value is a safe integer |
| Base62.DecodeLeadingZero | apps/api/lib/helpers/url.helper.ts:29-37 | a leading `'0'` never changes the decoded value |
| Base62.DecodeBound | apps/api/lib/helpers/url.helper.ts:29-37 | a code of length n decodes below 62^n |
| Base62.IndexOfIsFirstOccurrence | apps/api/lib/helpers/url.helper.ts:31 | the digit value is the first position of the character in the alphabet, and -1 exactly for characters outside it |
| Base62.EncodeIdRoundTrip | apps/api/lib/helpers/url.helper.ts:9-40 | `decodeId(encodeId(n)) == n` for 0 ≤ n < 2^53 |
| Base62.HelperRoundTrip | apps/api/lib/helpers/base62.helper.ts:5-36 | the same round trip holds for `Base62.encode`/`decode`, which share the alphabet and the algorithm |
| Base62.ConvertRoundTrip | apps/server/lib/helpers/base62.ts:4-35 | the same round trip holds for the redirect server's `convertToBase62`/`convertFromBase62` |
| ShortnErrors.UrlStatusCode | apps/api/lib/errors/url.error.ts:4-62 | among the named kinds, 409 exactly for a taken code, 404 exactly for the two not-found kinds, 403 exactly for the service-account refusal, and 400 otherwise; a bare error keeps its own status, defaulting to 400 |
| ShortnErrors.CacheStatusCode | apps/api/lib/errors/cache.error.ts:3-19 | every named cache error carries 500; a bare cache error defaults to 400 |
| UrlRepository.EmptyStore | apps/api/db/migrations/002_add-url-table.ts:7-13 | an empty database meets the schema's guarantees |
| UrlRepository.InsertGeneratedUrl | apps/api/lib/repositories/url.repository.ts:12-14 | appends exactly one row with a store-assigned id that no existing row has and that is at least 10000; the custom table is untouched |
| UrlRepository.DeleteGeneratedUrl | apps/api/lib/repositories/url.repository.ts:16-18 | removes exactly the rows matching both id and owner, keeps every other row, reports how many went, and keeps the schema |
| UrlRepository.FindGeneratedUrlById | apps/api/lib/repositories/url.repository.ts:20-22 | finds a row with that id, and nothing exactly when no row has it |
| UrlRepository.FindGeneratedUrlByUrl | apps/api/lib/repositories/url.repository.ts:24-31 | matches only rows with both the url and the owner, and finds one whenever one exists |
| UrlRepository.FindAllGeneratedUrlsByUserId | apps/api/lib/repositories/url.repository.ts:33-49 | at most `limit` rows, each owned by the user and matching the search on `url`; entry i is the matching row at position `(page-1)*limit + i` |
| UrlRepository.GeneratedEveryMatchListed | apps/api/lib/repositories/url.repository.ts:33-49 | with `limit ≥ 1`, every owned row matching the search appears on some page |
| UrlRepository.GeneratedPagesDisjoint | apps/api/lib/repositories/url.repository.ts:33-49 | in a valid store, two different pages share no row |
| UrlRepository.CountGeneratedUrlsByUserId | apps/api/lib/repositories/url.repository.ts:51-64 | the count is 0 exactly when no row is owned by the user and matches the search |
| UrlRepository.GeneratedListingMatchesCount | apps/api/lib/repositories/url.repository.ts:33-64 | the listing and the count use the same filter: the page size is the count clipped to the window at offset `(page-1)*limit` |
| UrlRepository.InsertCustomUrl | apps/api/lib/repositories/url.repository.ts:68-70 | fails with a unique violation exactly when some row of any owner holds the code; otherwise appends one row with a fresh id of at least 1 |
| UrlRepository.UpdateCustomUrl | apps/api/lib/repositories/url.repository.ts:72-80 | no result exactly when no row matches id and owner; on success only the supplied fields of that row change and every other row is as before |
| UrlRepository.UpdatePreservesValid | apps/api/db/migrations/005_add-custom-url-table.ts:8-17 | an update that does not collide on the code keeps ids ordered and codes unique |
| UrlRepository.ReplacePreservesValid | apps/api/db/migrations/005_add-custom-url-table.ts:11 | replacing one row by a row with the same id and a code nobody else holds keeps the schema |
| UrlRepository.GeneratedIdsUnique | apps/api/db/migrations/002_add-url-table.ts:7 | in a valid store an id identifies one generated row |
| UrlRepository.CustomIdsUnique | apps/api/db/migrations/005_add-custom-url-table.ts:8 | in a valid store an id identifies one custom row |
| UrlRepository.DeleteCustomUrl | apps/api/lib/repositories/url.repository.ts:82-84 | removes exactly the rows matching both id and owner and keeps every other row |
| UrlRepository.FindCustomUrlById | apps/api/lib/repositories/url.repository.ts:86-93 | finds a row only when both id and owner match |
| UrlRepository.FindCustomUrlByCustomCode | apps/api/lib/repositories/url.repository.ts:95-101 | ignores the owner and yields the url of a row with the code, and nothing exactly when no row has it |
| UrlRepository.FindAllCustomUrlsByUserId | apps/api/lib/repositories/url.repository.ts:103-119 | at most `limit` rows, each owned by the user and matching the search on `url` or `custom_code`; entry i is the matching row at position `(page-1)*limit + i` |
| UrlRepository.CustomEveryMatchListed | apps/api/lib/repositories/url.repository.ts:103-119 | with `limit ≥ 1`, every owned custom row matching the search appears on some page |
| UrlRepository.CustomPagesDisjoint | apps/api/lib/repositories/url.repository.ts:103-119 | in a valid store, two different pages share no custom row |
| UrlRepository.CountCustomUrlsByUserId | apps/api/lib/repositories/url.repository.ts:121-134 | the count is 0 exactly when no owned row matches the search |
| UrlRepository.CustomListingMatchesCount | apps/api/lib/repositories/url.repository.ts:103-134 | the custom listing and its count use the same predicate, so the page size follows from the count |
| UrlRepository.CascadeDeleteUser | apps/api/db/migrations/006_add-user-id-to-url-table.ts:6 | deleting a user removes exactly that user's rows from both tables and keeps the schema |
| ServerCache.Stringify | apps/api/lib/services/cache.service.ts:58 | strings are stored as-is, and numbers, booleans and `undefined` as `String(v)`; `null` and objects take the `JSON.stringify` branch (`typeof null` is `"object"`), so `null` is stored as `"null"` and an object as its JSON text |
| ServerCache.GenerateKey | apps/api/lib/services/cache.service.ts:68-70 | the key is the kind name, a colon, then the caller's key |
| ServerCache.GenerateKeyInjective | apps/api/lib/services/cache.service.ts:6-10 | since no kind name contains `':'`, different (kind, key) pairs never share a Redis key |
| ServerCache.Get | apps/api/lib/services/cache.service.ts:52-54 | fails with a cache service error exactly when Redis is unreachable; otherwise yields the stored string exactly when the key is present and unexpired |
| ServerCache.Set | apps/api/lib/services/cache.service.ts:56-62 | fails when Redis is unreachable or the expiry is not positive; otherwise writes that key only |
| ServerCache.Del | apps/api/lib/services/cache.service.ts:64-66 | fails exactly when Redis is unreachable; otherwise removes that key only and counts 1 exactly when it was live |
| ServerCache.SetThenGet | apps/api/lib/services/cache.service.ts:52-62 | a value set and read back before it expires reads as its stored string |
| ServerCache.SetLeavesOthers | apps/api/lib/services/cache.service.ts:56-62 | a set never changes what another (kind, key) reads |
| ServerCache.DelThenGet | apps/api/lib/services/cache.service.ts:52-66 | after a delete the key reads as absent |
| ServerCache.DelLeavesOthers | apps/api/lib/services/cache.service.ts:64-66 | a delete never changes what another (kind, key) reads |
| UrlEngine.SetQuietly | apps/api/lib/services/url.service.ts:40-45 | the un-awaited write either lands on its own key or changes nothing, and never touches another key |
| UrlEngine.CreateCustomUrl | apps/api/lib/services/url.service.ts:23-48 | the service account is refused before anything else; a taken code gives `CustomCodeAlreadyInUse` with nothing written; success returns the alias built from the code; a database error arises only from a concurrent insert of the same code, after which the rival's row is stored and the identity sequence has advanced twice, once for the rival and once for the rejected insert |
| UrlRepository.RejectCustomInsert | apps/api/db/migrations/005_add-custom-url-table.ts:8-11 | a rejected insert adds no row but draws one identity value, because the identity default is evaluated before the unique check; the schema still holds |
| UrlEngine.CreateGeneratedUrl | apps/api/lib/services/url.service.ts:50-69 | always succeeds; an existing (url, owner) row returns its alias with no insert and no cache write; otherwise one row is appended and its alias encodes the new id |
| UrlEngine.ShortenUrl | apps/api/lib/services/url.service.ts:71-77 | takes the custom branch exactly when the code is truthy; `""` or no code goes to the generated branch, which always succeeds |
| UrlEngine.GetOriginalUrl | apps/api/lib/services/url.service.ts:79-112 | never changes state or writes anything; an unreachable cache fails; a cache hit answers; on a miss, a custom code is looked up by code and a generated code is decoded and looked up by id; no row found gives `InvalidShortenedUrl` |
| UrlEngine.GeneratedViews | apps/api/lib/services/url.service.ts:117-126 | at most `limit` views; view i is built from the matching generated row at position `(page-1)*limit + i`, with its code the base-62 id |
| UrlEngine.CustomViews | apps/api/lib/services/url.service.ts:118-134 | at most `limit` views; view i is built from the matching custom row at position `(page-1)*limit + i` |
| UrlEngine.GetUrlsOfUser | apps/api/lib/services/url.service.ts:114-140 | each half has at most `limit` entries, each built from an owned row of the matching table; entry i of each half is built from the matching row at position `(page-1)*limit + i` |
| UrlEngine.UpdateCustomUrl | apps/api/lib/services/url.service.ts:142-158 | fails with `CustomUrlNotFound`, writing nothing, when the user owns no row with that id; in a valid store an owned row gets the new URL and keeps its code; on success the stored row gets the new URL and `updatedAt`, every other row, the generated table and the id counters are unchanged; the cache is never read or written; the schema holds |
| UrlEngine.UpdateKeepsCode | apps/api/lib/services/url.service.ts:142-158 | an update through the service keeps the custom code `findCustomUrlById` found, in the returned row and in the stored row, which holds the new destination |
| UrlEngine.DeleteUrl | apps/api/lib/services/url.service.ts:160-192 | the table and cache key come from the parsed alias; absence or foreign ownership fails before any write; success removes that row and that key and nothing else; a cache failure surfaces after the row is gone |
| UrlEngineProperties.GeneratedShortenIdempotent | apps/api/lib/services/url.service.ts:50-56 | shortening the same URL twice for the same user returns the same alias, and the second call writes nothing |
| UrlEngineProperties.ShortenIgnoresCacheWrite | apps/api/lib/services/url.service.ts:40-66 | whether the un-awaited cache write lands never changes the result or the tables |
| UrlEngineProperties.ResolveAfterGeneratedShorten | apps/api/lib/services/url.service.ts:50-112 | a freshly generated alias resolves to its URL, whether or not the cache write landed |
| UrlEngineProperties.ResolveAfterCustomShorten | apps/api/lib/services/url.service.ts:23-112 | a freshly created custom alias resolves to its URL |
| UrlEngineProperties.UncachedLowCodeInvalid | apps/api/lib/services/url.service.ts:97-108 | an uncached generated code that decodes below 10000 is an invalid shortened URL |
| UrlEngineProperties.UncachedBadCharInvalid | apps/api/lib/services/url.service.ts:97-108 | an uncached generated code holding a character outside the alphabet is an invalid shortened URL |
| UrlEngineProperties.ResolveAfterGeneratedDelete | apps/api/lib/services/url.service.ts:160-182 | after a generated URL is deleted through its own alias, the alias no longer resolves |
| UrlEngineProperties.ResolveAfterCustomDelete | apps/api/lib/services/url.service.ts:160-192 | after a custom URL is deleted through its own alias, the alias no longer resolves |
| UrlEngineProperties.DeleteTrustsAlias | apps/api/lib/services/url.service.ts:163-171 | deleting an owned custom row through an alias naming another code succeeds, and leaves the row's own cache entry in place |
| UrlEngineProperties.UpdateLeavesStaleCache | apps/api/lib/services/url.service.ts:142-158 | after an update, a cached alias still resolves to its old destination |
| UrlEngineProperties.ListedCodesDecode | apps/api/lib/services/url.service.ts:114-140 | every listed generated code decodes back to its row id |
| Validators.MatchesCodeRegexIff | apps/api/lib/schemas/url.schema.ts:6 | the regex accepts exactly the non-empty strings of `[a-zA-Z0-9_-]` characters |
| Validators.CustomCodeValidIff | apps/api/lib/schemas/url.schema.ts:3-6 | a code is accepted iff it has 1 to 30 characters, all in the class |
| Validators.CustomCodeLengthRejected | apps/api/lib/schemas/url.schema.ts:5-6 | `""` and every string longer than 30 characters are rejected |
| Validators.CustomCodeCharRejected | apps/api/lib/schemas/url.schema.ts:6 | any code holding `.`, `/`, a space or a non-ASCII character is rejected |
| Validators.AcceptedTruthyCodeIsValid | apps/api/lib/controllers/url.controller.ts:25 | a shorten body accepts `""` or a valid code, so a truthy code that reaches the engine is a valid code |
| Validators.IsUrlValidCases | apps/api/lib/helpers/url.helper.ts:42-54 | an unparseable URL is invalid; in local mode any parsed URL is valid; otherwise valid iff the protocol is `https:` and the hostname is non-empty and contains a dot |
| Validators.ShortenedUrlNeedsClientUrl | apps/api/lib/helpers/url.helper.ts:56-62 | a URL accepted as shortened passes the plain URL check and is at least as long as the client URL it contains |
| Validators.ServerRuleIsStrictRule | apps/server/lib/helpers/isValidURL.ts:1-9 | the redirect server's check is the API's rule with no local-mode bypass |
| Pagination.CeilDiv | apps/api/lib/controllers/url.controller.ts:103 | the result is the least n with n·limit ≥ total, and 0 exactly when total is 0 |
| Pagination.Paginate | apps/api/lib/controllers/url.controller.ts:99-121 | `hasNext` iff `page·limit < total`; `hasPrev` iff `page > 1`; page, limit, total, sortBy and sortOrder are echoed; total 0 gives 0 pages and no next page |
| Pagination.PageNextIff | apps/api/lib/controllers/url.controller.ts:103-114 | `page < totalPages` iff `page·limit < total`, so `hasNext` is `page < totalPages` |
| Pagination.GeneratedHasNextIffNextPage | apps/api/lib/controllers/url.controller.ts:99-121 | for the generated listing, `hasNext` holds iff the next page of the listing is non-empty |
| Pagination.CustomHasNextIffNextPage | apps/api/lib/controllers/url.controller.ts:148-170 | for the custom listing, `hasNext` holds iff the next page of the listing is non-empty |
| ErrorHandler.ToDetail | apps/api/lib/plugins/error-handler.plugin.ts:7-18 | the field is `instancePath` without its first character, or `"body"` for an empty field whose message names a null object; a missing message defaults to "Validation failed" |
| ErrorHandler.Handle | apps/api/lib/plugins/error-handler.plugin.ts:5-47 | validation errors give 400 with one detail per item and take precedence; a shortn error gives its own status and message; anything else gives 500 "Internal Server Error" |
| ErrorHandler.HandleStatusKnown | apps/api/lib/plugins/error-handler.plugin.ts:5-47 | with no bare error kinds, every reply status is one of 400, 403, 404, 409, 500 |
| ErrorHandler.CustomCodeRaceIs500 | apps/api/lib/plugins/error-handler.plugin.ts:40-46 | a custom code taken by a concurrent request reaches the client as a 500, not a 409 |
| ErrorHandler.CustomCodeTakenIs409 | apps/api/lib/plugins/error-handler.plugin.ts:29-38 | a code already taken before the check reaches the client as 409 |
| LogPlugin.Sanitize | apps/api/lib/plugins/log.plugin.ts:15-38 | non-objects come back unchanged; arrays and objects keep their length and keys; every sensitive key's value becomes `"[REDACTED]"`; other scalar values are copied |
| LogPlugin.SanitizeClean | apps/api/lib/plugins/log.plugin.ts:15-38 | after sanitising, no sensitive key anywhere holds anything but the redaction marker |
| LogPlugin.SanitizeIsRedaction | apps/api/lib/plugins/log.plugin.ts:15-38 | the result is exactly the payload with every sensitive key's value redacted at any depth, inside arrays and nested objects alike, and shape, keys and scalars otherwise unchanged |
| LogPlugin.SanitizeIdempotent | apps/api/lib/plugins/log.plugin.ts:15-38 | sanitising twice is sanitising once |
| LogPlugin.KeySubstringSensitive | apps/api/lib/plugins/log.plugin.ts:4-27 | a key whose lower-case form contains a listed field, such as `apiKey`, is redacted |
| LogPlugin.BodyLoggingFilter | apps/api/lib/plugins/log.plugin.ts:47 | GET bodies and missing or empty bodies are never logged; POST, PUT and PATCH object bodies are |
| LogPlugin.ResponseLogLevel | apps/api/lib/plugins/log.plugin.ts:60-73 | error iff status ≥ 500, warn iff 400 ≤ status < 500, info otherwise |
| RateLimit.Max | apps/api/lib/plugins/rate-limit.plugin.ts:9-28 | `/` gets the safe-integer maximum before any user attribute is read; a service account gets it too; an API key gets 5000, an access token 2500, anything else 1000 |
| RateLimit.MaxRange | apps/api/lib/plugins/rate-limit.plugin.ts:9-28 | the limit is one of the four constants, never below 1000, and 1000 for anonymous requests |
| RateLimit.Key | apps/api/lib/plugins/rate-limit.plugin.ts:30-36 | `"user-" + id` for a signed-in user, else the IP |
| RateLimit.UserKeysDistinct | apps/api/lib/plugins/rate-limit.plugin.ts:30-36 | two signed-in users share a bucket only when they have the same id |
| RateLimit.OnRequest | apps/api/lib/plugins/rate-limit.plugin.ts:6-8 | on the `onRequest` hook the request carries no user yet |
| RateLimit.AsWired | apps/api/lib/plugins/rate-limit.plugin.ts:6-36 | as wired, every request off `/` gets 1000 per minute in the bucket of its IP, and `/` is unlimited |
| GlobalRateLimit.Key | apps/api/lib/plugins/rateLimit.ts:11-17 | a header starting with `"Bearer "` gives the rest of the header; anything else gives the IP |
| GlobalRateLimit.BearerKeyIsToken | apps/api/lib/plugins/rateLimit.ts:11-15 | `"Bearer " + token` keys on the token itself |
| GlobalRateLimit.NonBearerUsesIp | apps/api/lib/plugins/rateLimit.ts:11-17 | a lower-case `bearer`, a colon instead of the space, or `Basic` credentials all key on the IP |
| MigrationPrefix.Prefix | apps/api/kysely.config.ts:16-20 | digits followed by `"_"`, at least four characters |
| MigrationPrefix.PrefixParses | apps/api/kysely.config.ts:19 | the numeric part parses back to the file count plus one |
| MigrationPrefix.PrefixWidth | apps/api/kysely.config.ts:19 | the prefix is exactly four characters iff the file count is at most 998 |
| MigrationPrefix.PrefixNeverTruncates | apps/api/kysely.config.ts:19 | from 999 files on, the numeric part is longer than three digits and still exact |
| ClientCache.StorageKeysDistinct | apps/client/src/lib/services/cache.service.ts:3-20 | the three kinds use three different storage keys |
| ClientCache.Get | apps/client/src/lib/services/cache.service.ts:22-38 | a missing key reads as null; an expired record reads as null and is removed; a live record reads as its data and storage is untouched |
| ClientCache.Set | apps/client/src/lib/services/cache.service.ts:40-49 | writes a record stamped now, with the default TTL of 300000 ms unless one is given, and leaves every other key alone |
| ClientCache.Remove | apps/client/src/lib/services/cache.service.ts:51-54 | deletes that kind's key only |
| ClientCache.Clear | apps/client/src/lib/services/cache.service.ts:56-64 | removes exactly the keys starting with `api_cache` and keeps the rest unchanged |
| ClientCache.SetThenGet | apps/client/src/lib/services/cache.service.ts:30-48 | a record is read back until its TTL has fully elapsed, including at exactly the TTL |
| ClientCache.SetThenGetExpired | apps/client/src/lib/services/cache.service.ts:30-35 | one millisecond past its TTL the record reads as null and is gone from storage |
| ClientCache.RemoveThenGet | apps/client/src/lib/services/cache.service.ts:51-54 | after a remove that kind misses and the other kinds read as before |
| ClientCache.ClearEmptiesCache | apps/client/src/lib/services/cache.service.ts:56-64 | after a clear every kind misses and the session entry survives |
| ClientCache.ClearRemovesLookalikes | apps/client/src/lib/services/cache.service.ts:60 | the prefix test has no colon, so a clear also removes keys such as `api_cachex` |
| ClientErrors.CreateError | apps/client/src/lib/utils/error-handler.ts:14-36 | severity defaults to MEDIUM, retryable to false and suggestions to `[]`; the given id, type, message and time are kept |
| ClientErrors.ApiErrorToAppError | apps/client/src/lib/utils/error-handler.ts:41-91 | keeps the API message; retryable iff the status is one of 408, 429, 500, 502, 503, 504; a missing or zero status gives type API at MEDIUM |
| ClientErrors.StatusMapping | apps/client/src/lib/utils/error-handler.ts:48-79 | 400 → VALIDATION; 401 → UNAUTHORIZED/HIGH; 403 → FORBIDDEN/HIGH; 404 → NOT_FOUND; 429 → RATE_LIMIT; 500/502/503/504 → API/HIGH; any other status → API/MEDIUM |
| ClientErrors.ClientStatusNotRetryable | apps/client/src/lib/utils/error-handler.ts:88 | a 4xx status other than 408 and 429 is never retryable |
| ClientErrors.NetworkErrorToAppError | apps/client/src/lib/utils/error-handler.ts:96-112 | always NETWORK, MEDIUM and retryable; the Error's message or "Network connection failed"; keeps the original error |
| ClientErrors.UnknownErrorToAppError | apps/client/src/lib/utils/error-handler.ts:117-128 | always UNKNOWN, MEDIUM and not retryable; the Error's message or "An unexpected error occurred" |
| ClientErrors.DisplayMessage | apps/client/src/lib/utils/error-handler.ts:133-145 | the message always ends the display text, and is the whole text exactly when the type is not NETWORK, RATE_LIMIT or UNAUTHORIZED |
| ClientErrors.ToastDuration | apps/client/src/lib/utils/error-handler.ts:150-163 | 0 (stay until dismissed) exactly for CRITICAL |
| ClientErrors.ToastDurationOrdered | apps/client/src/lib/utils/error-handler.ts:150-163 | for any two non-critical severities, the more severe one in `ErrorSeverity` order stays longer, and conversely; only the most severe, CRITICAL, never times out |
| ErrorStore.AddError | apps/client/src/lib/stores/error.store.ts:34-38 | appends at the end, keeps the earlier errors in order, and makes the new error `lastError` |
| ErrorStore.RemoveError | apps/client/src/lib/stores/error.store.ts:62-67 | drops exactly the errors with that id, keeps the rest, and leaves `lastError` alone |
| ErrorStore.ClearErrors | apps/client/src/lib/stores/error.store.ts:72-74 | back to no errors and no `lastError` |
| ErrorStore.RemoveUndoesAdd | apps/client/src/lib/stores/error.store.ts:34-67 | removing an error just added under a fresh id restores the list, while `lastError` still names it |
| ErrorStore.RemoveAbsentId | apps/client/src/lib/stores/error.store.ts:62-67 | removing an id no error carries changes nothing |
| ErrorStore.HandleApiError | apps/client/src/lib/stores/error.store.ts:79-86 | a response without `error` returns null and leaves the state alone; otherwise the classified error is returned and added |
| ErrorStore.HandleNetworkError | apps/client/src/lib/stores/error.store.ts:91-95 | adds and returns a retryable network error |
| ErrorStore.HandleUnknownError | apps/client/src/lib/stores/error.store.ts:100-104 | adds and returns a non-retryable unknown error |
| ErrorStore.CriticalErrors | apps/client/src/lib/stores/error.store.ts:259-261 | contains exactly the CRITICAL errors of the store |
| ErrorStore.AddErrorDerived | apps/client/src/lib/stores/error.store.ts:258-261 | adding an error extends `criticalErrors` by it exactly when it is critical and makes `hasErrors` hold; after a clear neither holds anything |
| Cookies.GetCookie | apps/client/src/lib/stores/cookies.store.ts:16-25 | nothing exactly when no entry has the name; otherwise a value stored under it |
| Cookies.GetCookieMember | apps/client/src/lib/stores/cookies.store.ts:16-25 | in a map with distinct names, `getCookie` returns v exactly when `name=v` is stored |
| Cookies.AddCookie | apps/client/src/lib/stores/cookies.store.ts:40-44 | the name now maps to the value, every other name reads as before, and names stay distinct |
| Cookies.AddCookiesLookup | apps/client/src/lib/stores/cookies.store.ts:46-54 | after `addCookies`, a name carries the value of its last entry in the list, overriding the store; names not in the list keep their values |
| Cookies.PutAllLookup | apps/client/src/lib/stores/cookies.store.ts:48-52 | the reduce assigns in list order, so the last entry with a name wins |
| Cookies.RemoveCookie | apps/client/src/lib/stores/cookies.store.ts:56-61 | the name is gone and every other name reads as before |
| Cookies.Clear | apps/client/src/lib/stores/cookies.store.ts:63 | no name is present afterwards |
| Cookies.RenderCookies | apps/client/src/lib/utils/parse-cookies.server.ts:3-8 | no cookies give `""` and one cookie gives exactly `name=value`; `parseCookies` and `prepareCookieString` are this same function |
| Cookies.RenderSnoc | apps/client/src/lib/utils/parseCookies.ts:3-8 | one more cookie adds exactly `"; "` and its `name=value` at the end, so segments come in input order |
| Cookies.RenderEnds | apps/client/src/lib/utils/parse-cookies.server.ts:4-7 | the header starts with the first segment and ends with the last: no leading or trailing separator |
| Cookies.GetCookieString | apps/client/src/lib/stores/cookies.store.ts:27-38 | an empty store renders as the empty header `""` |
| Cookies.AddNewCookieString | apps/client/src/lib/stores/cookies.store.ts:27-44 | adding a new name to a non-empty store appends `"; name=value"` to its cookie string |
| ClientShorten.MatchHttps | apps/client/src/lib/services/api/url.api.ts:19 | a single left-to-right scan decides `^https:\/\/.+\..+` exactly as the existential reading of the pattern |
| ClientShorten.Validate | apps/client/src/lib/services/api/url.api.ts:15-21 | "Please enter a URL" exactly for blank input; accepted iff non-blank and either in development mode or matching the HTTPS pattern |
| Strings.TrimEmptyIffBlank | apps/client/src/lib/services/api/url.api.ts:15 | `url.trim()` is empty exactly when every character is JavaScript whitespace or a line terminator, so the blank check refuses exactly those URLs |
| ClientShorten.DevModeAcceptsNonBlank | apps/client/src/lib/api/services/url.service.ts:10-16 | in development mode any non-blank URL passes |
| ClientShorten.AcceptedUrlShape | apps/client/src/lib/api/url.service.ts:24-26 | outside development mode, an accepted URL starts with `https://` and has a dot after at least one more character |
| ClientShorten.HttpsPatternNeedsDot | apps/client/src/lib/services/api/url.api.ts:19 | any URL with no dot past the first character after `https://`, other than as its last character, is refused |
| ClientShorten.HttpsPatternUnanchored | apps/client/src/lib/services/api/url.api.ts:19 | the pattern has no end anchor: anything appended to a matching URL still matches |
| ClientShorten.HttpsPatternAcceptsDottedHost | apps/client/src/lib/services/api/url.api.ts:19 | `https://` + a non-empty host + `.` + a non-empty rest matches whenever the host and the character after the dot are not line terminators |
| ClientShorten.TrimmedBody | apps/client/src/lib/api/services/url.service.ts:18-21 | the URL is sent as typed; the code is sent only when not blank, and then trimmed; nothing else is sent |
| ClientShorten.TrimmedCodeHasNoOuterSpace | apps/client/src/lib/api/url.service.ts:28-31 | a code sent by the trimming services never starts or ends with whitespace |
| ClientShorten.UrlOnlyBody | apps/client/src/lib/services/api.ts:96-99 | the body is exactly `{url}` |
| ClientShorten.UrlApiShortenUrl | apps/client/src/lib/services/api/url.api.ts:11-40 | a refused URL sends nothing and leaves the cache; otherwise the payload goes as given, and a success removes the custom listing when the code is truthy and the generated listing otherwise |
| ClientShorten.ShortenInvalidatesOneListing | apps/client/src/lib/services/api/url.api.ts:29-34 | after a successful shorten the affected listing misses and the other reads as before |
| ClientShorten.RefusedLeavesCache | apps/client/src/lib/services/api/url.api.ts:15-17 | a blank URL is refused with "Please enter a URL" whatever the server would say |
| ClientShorten.UpdateInvalidation | apps/client/src/lib/services/api/url.api.ts:90-92 | only a success with data removes the custom listing; anything else keeps the cache |
| ClientShorten.DeleteInvalidation | apps/client/src/lib/services/api/url.api.ts:106-111 | a success removes the listing `isCustom` names; a failure keeps the cache |
| ClientShorten.Shape | apps/client/src/lib/services/api.ts:38-56 | a truthy `error` gives a failure carrying it; no error gives success with `data`; a thrown error gives a failure with its message or "Network error" |
| ClientShorten.MakeRequest | apps/client/src/lib/services/api.ts:12-57 | every fetch but the last met a 401 with retries left; the result is the last reply shaped; the last reply is a 401 only once the retries are used up |
| ClientShorten.AtMostFourFetches | apps/client/src/lib/services/api.ts:33-36 | a call makes at most four fetches |
| ClientShorten.PersistentUnauthorized | apps/client/src/lib/services/api.ts:33-36 | a server that always answers 401 is asked exactly four times, and the fourth reply is returned shaped |
| ClientShorten.SingleFetchWhenAuthorized | apps/client/src/lib/services/api.ts:26-50 | a first reply other than 401 is the only fetch |

## Where the code and its documentation differ

The model follows the code in each case.
- Resolving an alias never writes the cache back after a miss.
- A failed cache read during resolution is not treated as a miss. It propagates as `CacheServiceError`.
- Updating a custom URL does not invalidate its cache entry (`UrlEngineProperties.UpdateLeavesStaleCache`).
- A custom code taken by a concurrent request between the check and the insert is not reported as `CustomCodeAlreadyInUse` (409). The unique violation reaches the error handler as a generic 500 (`ErrorHandler.CustomCodeRaceIs500`).
- In `deleteUrl` the row is deleted before the cache entry. A cache failure is reported after the row is already gone.
- The per-user rate limit reads `request.user`, but it is registered on `onRequest`, before authentication sets it. As wired, every request off `/` is limited to 1000 a minute per IP (`RateLimit.AsWired`).

## Left out

- The service and the repository shown do not agree on method names. The service calls `findUrlByUrl`, `insertUrl`, `findUrlById` and `deleteUrl`, which the repository does not define. The model binds these calls to the repository's `findGeneratedUrlByUrl`, `insertGeneratedUrl`, `findGeneratedUrlById` and `deleteGeneratedUrl`.
- UrlEngine.GetUrlsOfUser, UrlEngine.GeneratedViews and UrlEngine.CustomViews: the page window these members state is not in the cited code.
  - The service's `getUrlsOfUser(userId)` takes no query.
  - It calls `findAllUrlsByUserId(userId)`, which the repository does not define.
  - It passes `userId` as the query argument of `findAllCustomUrlsByUserId`.
  - The controller instead calls `getGeneratedUrlsOfUser(query, userId)` and `getCustomUrlsOfUser(query, userId)`, which are not part of this model. The model's page query stands in for that query, and it reaches the repository's paged listings unchanged.
- The WHATWG URL parser (`new URL`) is not modelled. Its outcome is an input (`Validators.ParsedUrl`): unparseable, or a protocol and a hostname.
- The alias builder and parser (`buildUrl`, `parseShortenedUrl`, `URLSegment`) are not part of this model. They are the function-valued parameter `UrlEngine.AliasCodec`. Lemmas that resolve an alias just built assume parse inverts build.
- Redis, Postgres, `fetch` and `localStorage` are replaced by in-memory maps and sequences. Connection lifecycle, pooling and retries are left out.
- SQL `ORDER BY` is left out: listings keep insertion order. `ILIKE` is an ASCII case-insensitive substring test, and LIKE wildcards inside the search string are not interpreted.
- Floating-point arithmetic is not modelled. `Math.pow` and `Math.floor` are exact integer arithmetic.
- Base62.Decode: values above 2^53 are exact, whereas the source loses precision there. The round trips are stated for 0 ≤ n < 2^53.
- The un-awaited cache write is not scheduled. Whether it lands is a parameter, and the result never depends on it.
- UrlEngine.SetQuietly: a failed un-awaited write is modelled as changing nothing. In the source its rejected promise is unhandled, and under Node's default policy an unhandled rejection ends the process; process lifecycle is outside this model.
- Concurrency is left out except for one case: the concurrent insert that takes a custom code is the parameter `Env.rival`.
- UrlEngine.GetOriginalUrl: both `id` columns are 32-bit `integer`, and the model's ids are unbounded. In the source an uncached generated code decoding to 2^31 or more (from `2LKcb2` upward, such as `zzzzzz`) makes `findUrlById` fail with a Postgres out-of-range error. That error is not a shortn error, so the client gets 500. The model answers `InvalidShortenedUrl` (400) instead.
- UrlEngine.UpdateCustomUrl: a route id of 2^31 or more fails the same way in the source (500). The model answers `CustomUrlNotFound` (404).
- UrlEngine.DeleteUrl: a route id of 2^31 or more fails the same way in the source (500). The model answers `UrlNotFound` or `CustomUrlNotFound` (404).
- UrlRepository.FindGeneratedUrlById and UrlRepository.FindCustomUrlById: an id outside the 32-bit range gives None here, whereas the source query raises a database error.
- UrlRepository.InsertGeneratedUrl and UrlRepository.InsertCustomUrl: the identity sequences stop at 2^31 − 1 in the source, and inserting beyond that fails. The model's counters grow without bound.
- RateLimit.Max and RateLimit.Key are the plugin's callbacks as written. As wired, the plugin runs on the `onRequest` hook, before the `preHandler` that authenticates the caller, so `request.user` is never set when they run (RateLimit.AsWired). Nothing in the server assigns `authenticatedWith` either. The per-user limits and the per-user buckets therefore never apply.
- JSON serialisation of objects is not modelled. The server cache stores an object as its already-rendered JSON text. The client cache keeps record data opaque.
- `toLowerCase` covers ASCII letters only.
- `ClientCache.Get` treats a stored value the cache did not write as null. In the source such a value yields its own `data` property, which is normally `undefined`.
- Pagination.Paginate: `!hasNext` for total 0 is stated only for `page ≥ 0`, because the query schema that bounds `page` is not part of this model.
- Pagination.CeilDiv: requires `limit ≥ 1`. The limit is bounded by the same unshown schema.
- UrlRepository.FindAllGeneratedUrlsByUserId, UrlRepository.FindAllCustomUrlsByUserId and UrlEngine.GetUrlsOfUser require `page ≥ 1` and `limit ≥ 0`. The query schema that enforces these bounds is not part of this model, and SQL rejects a negative `OFFSET` or `LIMIT`.
- Outside the browser the client's `storage` helper returns null from `get`, does nothing on `set`, `remove` and `clear`, and lists no keys. ClientCache models the browser case only.
- Cookies.GetCookie: a name that is an `Object.prototype` member (`constructor`, `toString`) makes `cookies[name]` return the inherited member in the source. The model's map has no prototype, so it returns nothing.
- Property order of JavaScript objects is modelled as insertion order. Integer-like cookie names, which JavaScript lists first, are not treated specially.
- Toasts, console logging, the 30-second auto-removal timer in the error store, and `showToast` are left out.
- `ErrorStore` takes error ids and timestamps as parameters. `generateErrorId` uses the clock and randomness.
- ClientShorten.MakeRequest: re-authentication is assumed to succeed or fail without throwing. A new token is assumed to change only what later fetches meet.
- The client services' `request` plumbing (`base.api.ts`, `service.ts`) is not part of this model. A call's success is a parameter.
- Authentication is left out: JWT, cookie signing, password and API-key hashing, and the auth services and stores.
- Routing, Swagger, CORS, helmet, configuration loading and graceful shutdown are left out.
- The redirect server's random-id controller is left out.
- The other migrations are left out. So are the older duplicate copies of migration 002.

=== FILE: base62.dfy ===
/** The base-62 codec. The repository carries three identical copies of it:
    `UrlHelper.encodeId`/`decodeId`, `Base62.encode`/`decode` and
    `convertToBase62`/`convertFromBase62`. All three share the alphabet and
    the algorithm below; each entry point is named at the end of the module.

    Numbers are unbounded integers here. The source computes with IEEE
    doubles, which agree with this model for values up to
    `MaxSafeInteger`; the round-trip lemmas are stated on that range. */
module Base62 {
  import opened Numbers

  const Base: nat := 62

  const DigitChars: string := "0123456789"
  const UpperChars: string := "ABCDEFGHIJKLMNOPQRSTUVWXYZ"
  const LowerChars: string := "abcdefghijklmnopqrstuvwxyz"

  /** Digits, then upper case, then lower case. */
  const Alphabet: string := DigitChars + UpperChars + LowerChars

  /** The character of digit `d` computed from its range. */
  function DigitChar(d: nat): char
    requires d < Base
  {
    if d < 10 then (d + '0' as int) as char
    else if d < 36 then (d - 10 + 'A' as int) as char
    else (d - 36 + 'a' as int) as char
  }

  /** The alphabet has 62 characters and character `d` is `DigitChar(d)`. */
  lemma AlphabetDigits()
    ensures |Alphabet| == Base
    ensures forall d :: 0 <= d < Base ==> Alphabet[d] == DigitChar(d)
  {
  }

  /** The characters of the alphabet, by range. */
  predicate IsAlphabetChar(c: char) {
    '0' <= c <= '9' || 'A' <= c <= 'Z' || 'a' <= c <= 'z'
  }

  /** `BASE62_ALPHABET.indexOf(c)`: the digit `c` stands for, or -1 when `c`
      is not in the alphabet. `IndexOfIsFirstOccurrence` relates it to the
      alphabet string itself. */
  function IndexOf(c: char): (r: int)
    ensures -1 <= r < Base
    ensures r == -1 <==> !IsAlphabetChar(c)
    ensures r >= 0 ==> DigitChar(r) == c
  {
    if '0' <= c <= '9' then c as int - '0' as int
    else if 'A' <= c <= 'Z' then c as int - 'A' as int + 10
    else if 'a' <= c <= 'z' then c as int - 'a' as int + 36
    else -1
  }

  /** `IndexOf` is JavaScript's `indexOf` on the alphabet string: -1 exactly
      for characters not in it, otherwise the first position holding `c`. */
  lemma IndexOfIsFirstOccurrence(c: char)
    ensures IndexOf(c) == -1 <==> c !in Alphabet
    ensures IndexOf(c) >= 0 ==> Alphabet[IndexOf(c)] == c
    ensures forall j :: 0 <= j < IndexOf(c) ==> Alphabet[j] != c
  {
    AlphabetDigits();
    if c in Alphabet {
      var j :| 0 <= j < |Alphabet| && Alphabet[j] == c;
      assert DigitChar(j) == c;
    }
  }

  /** Looking up digit `d`'s character gives back `d`. */
  lemma IndexOfDigit(d: nat)
    requires d < Base
    ensures IndexOf(DigitChar(d)) == d
  {
  }

  /** Every character of `s` is in the alphabet. */
  predicate OverAlphabet(s: string) {
    forall i :: 0 <= i < |s| ==> IsAlphabetChar(s[i])
  }

  function Pow(b: nat, e: nat): (r: nat)
    ensures b > 0 ==> r > 0
  {
    if e == 0 then 1 else b * Pow(b, e - 1)
  }

  /** The sum of `indexOf(s[i]) * 62^(|s|-1-i)` over all positions, which is
      what `decode`'s loop accumulates when every character is valid. */
  function Positional(s: string): int
    decreases |s|
  {
    if |s| == 0 then 0
    else IndexOf(s[0]) * Pow(Base, |s| - 1) + Positional(s[1..])
  }

  /** The digits `encode`'s loop produces for `n`, most significant first;
      empty for 0. */
  function Digits(n: nat): string
    decreases n
  {
    if n == 0 then "" else Digits(n / Base) + [DigitChar(n % Base)]
  }

  /** `encode`: `"0"` for 0, `""` for negative input, otherwise the base-62
      digits without a leading zero. */
  function Encode(n: int): (s: string)
    ensures n == 0 ==> s == "0"
    ensures n < 0 ==> s == ""
    ensures n > 0 ==> |s| > 0 && OverAlphabet(s) && s[0] != '0'
  {
    if n == 0 then "0"
    else if n < 0 then ""
    else
      DigitsShape(n);
      Digits(n)
  }

  /** `decode`: 0 for the empty string and for any string with a character
      outside the alphabet, otherwise the positional value. */
  function Decode(s: string): (r: int)
    ensures r >= 0
    ensures s == "" ==> r == 0
    ensures !OverAlphabet(s) ==> r == 0
  {
    if s == "" || !OverAlphabet(s) then 0
    else
      PositionalNonNegative(s);
      Positional(s)
  }

  // ---------------------------------------------------------------------
  // The two loops of the source, step for step.

  /** `encode` as written: repeatedly prepend `ALPHABET[num % 62]` and
      divide by 62. */
  method EncodeLoop(num: int) returns (result: string)
    ensures result == Encode(num)
  {
    if num == 0 {
      return "0";
    }
    if num < 0 {
      return "";
    }
    result := "";
    var n: nat := num;
    while n > 0
      invariant Digits(n) + result == Digits(num)
      decreases n
    {
      AlphabetDigits();
      assert Digits(n) == Digits(n / Base) + [Alphabet[n % Base]];
      result := [Alphabet[n % Base]] + result;
      n := n / Base;
    }
  }

  /** `decode` as written: scan left to right, return 0 at the first
      character outside the alphabet, otherwise add
      `index * 62^(length - 1 - i)`. */
  method DecodeLoop(str: string) returns (result: int)
    ensures result == Decode(str)
  {
    if str == "" {
      return 0;
    }
    result := 0;
    var i := 0;
    while i < |str|
      invariant 0 <= i <= |str|
      invariant forall j :: 0 <= j < i ==> IsAlphabetChar(str[j])
      invariant result + Positional(str[i..]) == Positional(str)
    {
      IndexOfIsFirstOccurrence(str[i]);
      var index := IndexOf(str[i]);
      if index == -1 {
        return 0;
      }
      assert str[i..][1..] == str[i + 1..];
      result := result + index * Pow(Base, |str| - 1 - i);
      i := i + 1;
    }
    assert str[i..] == "";
  }

  // ---------------------------------------------------------------------
  // Facts about the digits.

  /** `Digits(n)` is over the alphabet, and non-empty without a leading
      `'0'` when `n > 0`. */
  lemma {:induction false} DigitsShape(n: nat)
    ensures OverAlphabet(Digits(n))
    ensures n > 0 ==> |Digits(n)| > 0 && Digits(n)[0] != '0'
    decreases n
  {
    if n > 0 {
      DigitsShape(n / Base);
      if n / Base == 0 {
        assert Digits(n) == [DigitChar(n)];
      }
    }
  }

  /** Positional value of an alphabet string is non-negative. */
  lemma {:induction false} PositionalNonNegative(s: string)
    requires OverAlphabet(s)
    ensures Positional(s) >= 0
    decreases |s|
  {
    if |s| > 0 {
      PositionalNonNegative(s[1..]);
    }
  }

  /** Appending a digit multiplies the value by 62 and adds the digit. */
  lemma {:induction false} PositionalSnoc(s: string, c: char)
    ensures Positional(s + [c]) == Positional(s) * Base + IndexOf(c)
    decreases |s|
  {
    if |s| > 0 {
      assert (s + [c])[1..] == s[1..] + [c];
      PositionalSnoc(s[1..], c);
      var w := Pow(Base, |s| - 1);
      assert Pow(Base, |s|) == Base * w;
      calc {
        Positional(s + [c]);
        IndexOf(s[0]) * (Base * w) + Positional(s[1..]) * Base + IndexOf(c);
        { assert IndexOf(s[0]) * (Base * w) == (IndexOf(s[0]) * w) * Base; }
        (IndexOf(s[0]) * w + Positional(s[1..])) * Base + IndexOf(c);
      }
    }
  }

  /** A leading `'0'` contributes nothing to the positional value. */
  lemma PositionalLeadingZero(s: string)
    ensures Positional("0" + s) == Positional(s)
  {
  }

  /** The digits of `n` have positional value `n`. */
  lemma {:induction false} PositionalDigits(n: nat)
    ensures Positional(Digits(n)) == n
    decreases n
  {
    if n > 0 {
      PositionalDigits(n / Base);
      PositionalSnoc(Digits(n / Base), DigitChar(n % Base));
      IndexOfDigit(n % Base);
    }
  }

  /** A non-empty alphabet string without a leading `'0'` has a positive
      value. */
  lemma {:induction false} PositionalPositive(s: string)
    requires OverAlphabet(s) && |s| > 0 && s[0] != '0'
    ensures Positional(s) > 0
  {
    assert IndexOf(s[0]) > 0;
    PositionalNonNegative(s[1..]);
  }

  /** Re-encoding the value of a canonical alphabet string gives the string
      back. */
  lemma {:induction false} DigitsPositional(s: string)
    requires OverAlphabet(s) && |s| > 0 && s[0] != '0'
    ensures Positional(s) > 0 && Digits(Positional(s)) == s
    decreases |s|
  {
    PositionalPositive(s);
    var t := s[..|s| - 1];
    var c := s[|s| - 1];
    assert s == t + [c];
    PositionalSnoc(t, c);
    var v := Positional(s);
    var d := IndexOf(c);
    assert 0 <= d < Base;
    if |t| == 0 {
      assert Positional(t) == 0;
      assert v == d;
      assert Digits(v) == Digits(0) + [DigitChar(d)];
    } else {
      DigitsPositional(t);
      PositionalNonNegative(t);
      assert v / Base == Positional(t) && v % Base == d;
    }
  }

  // ---------------------------------------------------------------------
  // The laws of the codec.

  /** Decoding an encoding gives back the number. */
  lemma DecodeEncode(n: int)
    requires 0 <= n <= MaxSafeInteger
    ensures Decode(Encode(n)) == n
  {
    if n == 0 {
      assert Positional("0") == IndexOf('0') * Pow(Base, 0) + Positional("");
    } else {
      DigitsShape(n);
      PositionalDigits(n);
    }
  }

  /** Encoding the decoding of a canonical code gives back the code. */
  lemma EncodeDecode(s: string)
    requires OverAlphabet(s) && |s| > 0 && s[0] != '0'
    requires Decode(s) <= MaxSafeInteger
    ensures Encode(Decode(s)) == s
  {
    DigitsPositional(s);
  }

  /** Leading zeros are ignored by `decode`. */
  lemma DecodeLeadingZero(s: string)
    ensures Decode("0" + s) == Decode(s)
  {
    PositionalLeadingZero(s);
    if !OverAlphabet(s) {
      var i :| 0 <= i < |s| && !IsAlphabetChar(s[i]);
      assert ("0" + s)[i + 1] == s[i];
    } else {
      assert OverAlphabet("0" + s) by {
        forall i | 0 <= i < |"0" + s| ensures IsAlphabetChar(("0" + s)[i]) {
          if i > 0 { assert ("0" + s)[i] == s[i - 1]; }
        }
      }
    }
  }

  /** A code of at most `k` characters decodes below `62^k`. */
  lemma {:induction false} DecodeBound(s: string)
    ensures Decode(s) < Pow(Base, |s|)
  {
    if s != "" && OverAlphabet(s) {
      PositionalBound(s);
    }
  }

  lemma {:induction false} PositionalBound(s: string)
    requires OverAlphabet(s)
    ensures Positional(s) < Pow(Base, |s|)
    decreases |s|
  {
    if |s| > 0 {
      var t := s[..|s| - 1];
      var c := s[|s| - 1];
      assert s == t + [c];
      PositionalSnoc(t, c);
      PositionalBound(t);
      assert Positional(t) <= Pow(Base, |t|) - 1;
      assert Pow(Base, |s|) == Base * Pow(Base, |t|);
    }
  }

  // ---------------------------------------------------------------------
  // The three entry points of the source.

  /** `UrlHelper.encodeId` */
  function EncodeId(num: int): string { Encode(num) }

  /** `UrlHelper.decodeId` */
  function DecodeId(str: string): int { Decode(str) }

  /** `Base62.encode` */
  function HelperEncode(num: int): string { Encode(num) }

  /** `Base62.decode` */
  function HelperDecode(str: string): int { Decode(str) }

  /** `convertToBase62` */
  function ConvertToBase62(num: int): string { Encode(num) }

  /** `convertFromBase62` */
  function ConvertFromBase62(str: string): int { Decode(str) }

  /** `decodeId(encodeId(n)) == n` on the safe-integer range. */
  lemma EncodeIdRoundTrip(n: int)
    requires 0 <= n <= MaxSafeInteger
    ensures DecodeId(EncodeId(n)) == n
  {
    DecodeEncode(n);
  }

  /** `Base62.decode(Base62.encode(n)) == n` on the safe-integer range. */
  lemma HelperRoundTrip(n: int)
    requires 0 <= n <= MaxSafeInteger
    ensures HelperDecode(HelperEncode(n)) == n
  {
    DecodeEncode(n);
  }

  /** `convertFromBase62(convertToBase62(n)) == n` on the safe-integer range. */
  lemma ConvertRoundTrip(n: int)
    requires 0 <= n <= MaxSafeInteger
    ensures ConvertFromBase62(ConvertToBase62(n)) == n
  {
    DecodeEncode(n);
  }
}

=== FILE: client_cache.dfy ===
/** The browser's API response cache (`services/cache.service.ts`): one
    record per cache kind in local storage under `api_cache:<kind>`, each
    with the time it was written and a time-to-live in milliseconds.

    Local storage is a map from key to stored value; a value the cache did
    not write is `Foreign`. The clock is a parameter. */
module ClientCache {
  import opened Wrappers
  import Strings

  /** `CacheKind` of the client. */
  datatype CacheKind = GeneratedUrls | CustomUrls | ApiKeys

  function KindName(k: CacheKind): string {
    match k
    case GeneratedUrls => "generated_urls"
    case CustomUrls => "custom_urls"
    case ApiKeys => "api_keys"
  }

  /** `StorageKind.API_CACHE_PREFIX` */
  const ApiCachePrefix: string := "api_cache"

  /** `StorageKind.AUTH_USER` */
  const AuthUserKey: string := "shortn_session"

  /** `DEFAULT_TTL`: five minutes. */
  const DefaultTtl: int := 5 * 60 * 1000

  /** A parsed local-storage value: a cache record with opaque data, or
      anything else. */
  datatype Stored = Record(timestamp: int, ttl: int, data: string) | Foreign(text: string)

  type Storage = map<string, Stored>

  /** `generateKey` */
  function StorageKey(k: CacheKind): (key: string)
    ensures Strings.IsPrefix(ApiCachePrefix + ":", key)
  {
    ApiCachePrefix + ":" + KindName(k)
  }

  /** The three kinds occupy three distinct storage keys. */
  lemma StorageKeysDistinct(a: CacheKind, b: CacheKind)
    requires a != b
    ensures StorageKey(a) != StorageKey(b)
  {
  }

  /** `Date.now() - timestamp > ttl`: strictly older than its time-to-live. */
  predicate Expired(r: Stored, now: int)
    requires r.Record?
  {
    now - r.timestamp > r.ttl
  }

  /** What `get` returns and the storage it leaves behind. */
  datatype Read = Read(data: Option<string>, storage: Storage)

  /** `get`: a missing key reads as null; an expired record reads as null
      and is removed. A value the cache did not write has no `timestamp` or
      `ttl`, the expiry test compares `NaN` and fails, and its `data` is
      `undefined`, which reads as null here too. */
  function Get(s: Storage, k: CacheKind, now: int): (r: Read)
    ensures StorageKey(k) !in s ==> r == Read(None, s)
    ensures StorageKey(k) in s && s[StorageKey(k)].Record? && Expired(s[StorageKey(k)], now) ==>
              r == Read(None, s - {StorageKey(k)})
    ensures StorageKey(k) in s && s[StorageKey(k)].Record? && !Expired(s[StorageKey(k)], now) ==>
              r == Read(Some(s[StorageKey(k)].data), s)
    ensures r.data.Some? ==> r.storage == s
  {
    var key := StorageKey(k);
    if key !in s then Read(None, s)
    else match s[key]
      case Foreign(_) => Read(None, s)
      case Record(_, _, data) =>
        if Expired(s[key], now) then Read(None, s - {key}) else Read(Some(data), s)
  }

  /** `set`, with the default time-to-live when none is given. */
  function Set(s: Storage, k: CacheKind, data: string, ttl: Option<int>, now: int): (r: Storage)
    ensures StorageKey(k) in r
    ensures r[StorageKey(k)] == Record(now, if ttl.Some? then ttl.value else DefaultTtl, data)
    ensures forall key | key != StorageKey(k) :: (key in r <==> key in s) && (key in s ==> r[key] == s[key])
  {
    s[StorageKey(k) := Record(now, if ttl.Some? then ttl.value else DefaultTtl, data)]
  }

  /** `remove` */
  function Remove(s: Storage, k: CacheKind): (r: Storage)
    ensures StorageKey(k) !in r
    ensures forall key | key != StorageKey(k) :: (key in r <==> key in s) && (key in s ==> r[key] == s[key])
  {
    s - {StorageKey(k)}
  }

  /** `clear`: every key beginning with `api_cache` goes, whatever wrote
      it; the test has no colon. */
  function Clear(s: Storage): (r: Storage)
    ensures forall key :: key in r <==> key in s && !Strings.IsPrefix(ApiCachePrefix, key)
    ensures forall key | key in r :: r[key] == s[key]
  {
    map key | key in s && !Strings.IsPrefix(ApiCachePrefix, key) :: s[key]
  }

  /** A record is read back until its time-to-live has fully elapsed,
      including at exactly `ttl` milliseconds. */
  lemma SetThenGet(s: Storage, k: CacheKind, data: string, ttl: Option<int>, now: int, later: int)
    requires later - now <= (if ttl.Some? then ttl.value else DefaultTtl)
    ensures Get(Set(s, k, data, ttl, now), k, later).data == Some(data)
  {
  }

  /** One millisecond later it is gone, and removed from storage. */
  lemma SetThenGetExpired(s: Storage, k: CacheKind, data: string, ttl: Option<int>, now: int, later: int)
    requires later - now > (if ttl.Some? then ttl.value else DefaultTtl)
    ensures Get(Set(s, k, data, ttl, now), k, later).data == None
    ensures StorageKey(k) !in Get(Set(s, k, data, ttl, now), k, later).storage
  {
  }

  /** After `remove`, that kind reads as null and the other kinds read as
      before. */
  lemma RemoveThenGet(s: Storage, k: CacheKind, other: CacheKind, now: int)
    requires other != k
    ensures Get(Remove(s, k), k, now).data == None
    ensures Get(Remove(s, k), other, now).data == Get(s, other, now).data
  {
  }

  /** After `clear` no kind reads anything, and the session entry survives. */
  lemma ClearEmptiesCache(s: Storage, k: CacheKind, now: int)
    ensures Get(Clear(s), k, now).data == None
    ensures AuthUserKey in s ==> AuthUserKey in Clear(s) && Clear(s)[AuthUserKey] == s[AuthUserKey]
  {
    assert Strings.IsPrefix(ApiCachePrefix, StorageKey(k));
    assert AuthUserKey[0] != ApiCachePrefix[0];
  }

  /** Because the prefix test has no colon, `clear` also removes a key such
      as `api_cachex` that the cache never wrote. */
  lemma ClearRemovesLookalikes(s: Storage, suffix: string)
    requires ApiCachePrefix + suffix in s
    ensures ApiCachePrefix + suffix !in Clear(s)
  {
  }
}

=== FILE: client_errors.dfy ===
/** The browser's error classification (`utils/error-handler.ts` and
    `types/error.types.ts`): API responses, network failures and unexpected
    exceptions become one `AppError` shape with a type, a severity, a retry
    hint and suggestions. Error ids and timestamps come from the clock and
    from randomness, so they are parameters here. */
module ClientErrors {
  import opened Wrappers

  datatype ErrorType =
    | Api | Network | Validation | Auth | Unauthorized | Forbidden
    | NotFound | RateLimit | Unknown | Client

  datatype Severity = Low | Medium | High | Critical

  /** What a caller threw: an `Error` instance with its message, or any
      other value. */
  datatype Thrown = ErrorInstance(message: string) | OtherValue

  datatype ErrorContext = ErrorContext(
    source: Option<string>,
    action: Option<string>,
    statusCode: Option<int>,
    originalError: Option<Thrown>)

  const NoContext: ErrorContext := ErrorContext(None, None, None, None)

  datatype AppError = AppError(
    id: string,
    kind: ErrorType,
    severity: Severity,
    message: string,
    description: Option<string>,
    context: Option<ErrorContext>,
    timestamp: int,
    retryable: bool,
    suggestions: seq<string>)

  /** The optional fields a caller of `createError` may supply. */
  datatype ErrorOptions = ErrorOptions(
    severity: Option<Severity>,
    description: Option<string>,
    context: Option<ErrorContext>,
    retryable: Option<bool>,
    suggestions: Option<seq<string>>)

  /** The body of a failed API response. */
  datatype ApiErrorBody = ApiErrorBody(message: string)

  /** `createError`. Every severity value is a non-empty string and every
      array is truthy, so the `||` defaults apply exactly when the option is
      absent. */
  function CreateError(id: string, now: int, kind: ErrorType, message: string, o: ErrorOptions): (e: AppError)
    ensures e.id == id && e.timestamp == now && e.kind == kind && e.message == message
    ensures e.severity == (if o.severity.Some? then o.severity.value else Medium)
    ensures e.retryable <==> o.retryable == Some(true)
    ensures e.suggestions == (if o.suggestions.Some? then o.suggestions.value else [])
    ensures e.description == o.description && e.context == o.context
  {
    AppError(id, kind, o.severity.GetOr(Medium), message, o.description, o.context,
             now, o.retryable.GetOr(false), o.suggestions.GetOr([]))
  }

  /** A status code is truthy when present and non-zero. */
  predicate StatusTruthy(status: Option<int>) {
    status.Some? && status.value != 0
  }

  /** The status codes worth retrying. */
  predicate RetryableStatus(code: int) {
    code in {408, 429, 500, 502, 503, 504}
  }

  /** The type, severity and suggestions the status switch picks. */
  datatype Classified = Classified(kind: ErrorType, severity: Severity, suggestions: seq<string>)

  function Classify(status: Option<int>): (c: Classified)
    ensures !StatusTruthy(status) ==> c.kind == Api && c.severity == Medium && c.suggestions == []
  {
    if !StatusTruthy(status) then Classified(Api, Medium, [])
    else match status.value
      case 400 => Classified(Validation, Medium, ["Please check your input and try again."])
      case 401 => Classified(Unauthorized, High, ["Please log in again."])
      case 403 => Classified(Forbidden, High, ["You may need additional permissions."])
      case 404 => Classified(NotFound, Medium, ["The requested resource could not be found."])
      case 429 => Classified(RateLimit, Medium, ["Please wait a moment before trying again."])
      case 500 => ServerIssue
      case 502 => ServerIssue
      case 503 => ServerIssue
      case 504 => ServerIssue
      case _ => Classified(Api, Medium, [])
  }

  const ServerIssue: Classified :=
    Classified(Api, High, ["This appears to be a server issue. Please try again later."])

  /** `apiErrorToAppError`: the status code comes from the context. */
  function ApiErrorToAppError(id: string, now: int, body: ApiErrorBody, context: Option<ErrorContext>): (e: AppError)
    ensures e.message == body.message && e.id == id && e.timestamp == now
    ensures var status := if context.Some? then context.value.statusCode else None;
            && (e.retryable <==> StatusTruthy(status) && RetryableStatus(status.value))
            && (!StatusTruthy(status) ==> e.kind == Api && e.severity == Medium)
    ensures e.context == Some(context.GetOr(NoContext))
  {
    var status := if context.Some? then context.value.statusCode else None;
    var c := Classify(status);
    CreateError(id, now, c.kind, body.message,
      ErrorOptions(Some(c.severity), None, Some(context.GetOr(NoContext)),
                   Some(StatusTruthy(status) && RetryableStatus(status.value)), Some(c.suggestions)))
  }

  /** The status table: the type and severity each listed status maps to;
      every other status keeps the API type at medium severity. */
  lemma StatusMapping(id: string, now: int, body: ApiErrorBody, ctx: ErrorContext)
    ensures var e := ApiErrorToAppError(id, now, body, Some(ctx));
            var s := ctx.statusCode;
            && (s == Some(400) ==> e.kind == Validation && e.severity == Medium)
            && (s == Some(401) ==> e.kind == Unauthorized && e.severity == High)
            && (s == Some(403) ==> e.kind == Forbidden && e.severity == High)
            && (s == Some(404) ==> e.kind == NotFound && e.severity == Medium)
            && (s == Some(429) ==> e.kind == RateLimit && e.severity == Medium && e.retryable)
            && (s.Some? && s.value in {500, 502, 503, 504} ==> e.kind == Api && e.severity == High && e.retryable)
            && (s.Some? && s.value !in {400, 401, 403, 404, 429, 500, 502, 503, 504} ==>
                  e.kind == Api && e.severity == Medium)
  {
  }

  /** A 4xx status other than 408 and 429 is never retried. */
  lemma ClientStatusNotRetryable(id: string, now: int, body: ApiErrorBody, ctx: ErrorContext)
    requires ctx.statusCode.Some? && 400 <= ctx.statusCode.value < 500
    requires ctx.statusCode.value !in {408, 429}
    ensures !ApiErrorToAppError(id, now, body, Some(ctx)).retryable
  {
  }

  /** `networkErrorToAppError`: always a retryable network error. */
  function NetworkErrorToAppError(id: string, now: int, error: Thrown, context: Option<ErrorContext>): (e: AppError)
    ensures e.kind == Network && e.severity == Medium && e.retryable
    ensures e.message == if error.ErrorInstance? then error.message else "Network connection failed"
    ensures |e.suggestions| == 3
    ensures e.context.Some? && e.context.value.originalError == Some(error)
  {
    var base := context.GetOr(NoContext);
    CreateError(id, now, Network,
      if error.ErrorInstance? then error.message else "Network connection failed",
      ErrorOptions(Some(Medium), None, Some(base.(originalError := Some(error))), Some(true),
        Some(["Check your internet connection.",
              "Try refreshing the page.",
              "The server might be temporarily unavailable."])))
  }

  /** `unknownErrorToAppError`: an unknown error, never retryable. */
  function UnknownErrorToAppError(id: string, now: int, error: Thrown, context: Option<ErrorContext>): (e: AppError)
    ensures e.kind == Unknown && e.severity == Medium && !e.retryable
    ensures e.message == if error.ErrorInstance? then error.message else "An unexpected error occurred"
    ensures |e.suggestions| == 2
    ensures e.context.Some? && e.context.value.originalError == Some(error)
  {
    var base := context.GetOr(NoContext);
    CreateError(id, now, Unknown,
      if error.ErrorInstance? then error.message else "An unexpected error occurred",
      ErrorOptions(Some(Medium), None, Some(base.(originalError := Some(error))), None,
        Some(["Try refreshing the page.", "If the problem persists, please contact support."])))
  }

  /** The prefix `getErrorDisplayMessage` puts before the message, if any. */
  function DisplayPrefix(kind: ErrorType): string {
    match kind
    case Network => "Connection failed. "
    case RateLimit => "Too many requests. "
    case Unauthorized => "Authentication required. "
    case _ => ""
  }

  /** `getErrorDisplayMessage`: the message, after a prefix for network,
      rate-limit and unauthorised errors. */
  function DisplayMessage(e: AppError): (m: string)
    ensures |m| >= |e.message| && m[|m| - |e.message|..] == e.message
    ensures m == e.message <==> e.kind !in {Network, RateLimit, Unauthorized}
  {
    DisplayPrefix(e.kind) + e.message
  }

  /** `getToastDuration`, in milliseconds; zero means the toast stays until
      dismissed. */
  function ToastDuration(s: Severity): (ms: nat)
    ensures ms == 0 <==> s == Critical
  {
    match s
    case Low => 3000
    case Medium => 5000
    case High => 8000
    case Critical => 0
  }

  /** The position of a severity in `ErrorSeverity`, least severe first. */
  function Rank(s: Severity): nat {
    match s
    case Low => 0
    case Medium => 1
    case High => 2
    case Critical => 3
  }

  /** Among the severities that time out, a more severe error stays longer,
      and a longer toast means a more severe error; a critical one never
      times out. */
  lemma ToastDurationOrdered(s: Severity, t: Severity)
    ensures s != Critical && t != Critical ==> (Rank(s) < Rank(t) <==> ToastDuration(s) < ToastDuration(t))
    ensures ToastDuration(s) == 0 <==> Rank(s) == 3
  {
  }
}

/** The error store's reducer (`stores/error.store.ts`): the list of live
    errors and the most recent one. Toasts, console output and the 30-second
    auto-removal timer are left out. */
module ErrorStore {
  import opened Wrappers
  import Seqs
  import opened ClientErrors

  datatype ErrorState = ErrorState(errors: seq<AppError>, lastError: Option<AppError>)

  /** `initialState` */
  const Initial: ErrorState := ErrorState([], None)

  /** `addError` */
  function AddError(st: ErrorState, e: AppError): (r: ErrorState)
    ensures |r.errors| == |st.errors| + 1 && r.errors[|st.errors|] == e
    ensures r.errors[..|st.errors|] == st.errors
    ensures r.lastError == Some(e)
  {
    ErrorState(st.errors + [e], Some(e))
  }

  function KeepUnless(id: string): AppError -> bool {
    (e: AppError) => e.id != id
  }

  /** `removeError`: keeps `lastError` even when it is the removed one. */
  function RemoveError(st: ErrorState, id: string): (r: ErrorState)
    ensures forall e | e in r.errors :: e.id != id && e in st.errors
    ensures forall e | e in st.errors && e.id != id :: e in r.errors
    ensures r.lastError == st.lastError
  {
    ErrorState(Seqs.Filter(st.errors, KeepUnless(id)), st.lastError)
  }

  /** `clearErrors` */
  function ClearErrors(st: ErrorState): (r: ErrorState)
    ensures r.errors == [] && r.lastError.None?
  {
    Initial
  }

  /** Removing an error just added under a fresh id restores the list,
      although `lastError` still names it. */
  lemma {:induction false} RemoveUndoesAdd(st: ErrorState, e: AppError)
    requires forall i | 0 <= i < |st.errors| :: st.errors[i].id != e.id
    ensures RemoveError(AddError(st, e), e.id).errors == st.errors
    ensures RemoveError(AddError(st, e), e.id).lastError == Some(e)
  {
    Seqs.FilterSnoc(st.errors, e, KeepUnless(e.id));
    Seqs.FilterKeepsAll(st.errors, KeepUnless(e.id));
  }

  /** Removing an id nobody carries changes nothing. */
  lemma RemoveAbsentId(st: ErrorState, id: string)
    requires forall i | 0 <= i < |st.errors| :: st.errors[i].id != id
    ensures RemoveError(st, id) == st
  {
    Seqs.FilterKeepsAll(st.errors, KeepUnless(id));
  }

  /** What a `handle*` call returns and the state it leaves. */
  datatype Handled = Handled(error: Option<AppError>, state: ErrorState)

  /** `handleApiError`: a response without `error` is ignored. */
  function HandleApiError(st: ErrorState, response: Option<ApiErrorBody>, context: Option<ErrorContext>,
                          id: string, now: int): (r: Handled)
    ensures response.None? <==> r.error.None?
    ensures response.None? ==> r.state == st
    ensures response.Some? ==>
              && r.error == Some(ApiErrorToAppError(id, now, response.value, context))
              && r.state == AddError(st, r.error.value)
  {
    if response.None? then Handled(None, st)
    else
      var e := ApiErrorToAppError(id, now, response.value, context);
      Handled(Some(e), AddError(st, e))
  }

  /** `handleNetworkError` */
  function HandleNetworkError(st: ErrorState, error: Thrown, context: Option<ErrorContext>,
                              id: string, now: int): (r: Handled)
    ensures r.error.Some? && r.error.value.kind == Network && r.error.value.retryable
    ensures r.state == AddError(st, r.error.value)
  {
    var e := NetworkErrorToAppError(id, now, error, context);
    Handled(Some(e), AddError(st, e))
  }

  /** `handleUnknownError` */
  function HandleUnknownError(st: ErrorState, error: Thrown, context: Option<ErrorContext>,
                              id: string, now: int): (r: Handled)
    ensures r.error.Some? && r.error.value.kind == Unknown && !r.error.value.retryable
    ensures r.state == AddError(st, r.error.value)
  {
    var e := UnknownErrorToAppError(id, now, error, context);
    Handled(Some(e), AddError(st, e))
  }

  /** The derived `hasErrors` store. */
  predicate HasErrors(st: ErrorState) {
    |st.errors| > 0
  }

  function IsCritical(): AppError -> bool {
    (e: AppError) => e.severity == Critical
  }

  /** The derived `criticalErrors` store. */
  function CriticalErrors(st: ErrorState): (r: seq<AppError>)
    ensures forall e | e in r :: e in st.errors && e.severity == Critical
    ensures forall e | e in st.errors && e.severity == Critical :: e in r
  {
    Seqs.Filter(st.errors, IsCritical())
  }

  /** Adding an error appends it to the critical list exactly when it is
      critical, and adding any error makes `hasErrors` hold. */
  lemma AddErrorDerived(st: ErrorState, e: AppError)
    ensures CriticalErrors(AddError(st, e)) ==
              CriticalErrors(st) + (if e.severity == Critical then [e] else [])
    ensures HasErrors(AddError(st, e))
    ensures !HasErrors(ClearErrors(st)) && CriticalErrors(ClearErrors(st)) == []
  {
    Seqs.FilterSnoc(st.errors, e, IsCritical());
  }
}

=== FILE: client_shorten.dfy ===
/** The browser side of shortening: the checks every client service runs
    before it sends a URL, the request bodies they build, which cached
    listing a successful call invalidates (`services/api/url.api.ts`), and
    the 401-retry and result shaping of `makeRequest` (`services/api.ts`).
    The build mode and the server's responses are parameters. */
module ClientShorten {
  import opened Wrappers
  import Strings
  import ClientCache
  import ClientErrors

  const EnterUrlMessage: string := "Please enter a URL"
  const HttpsUrlMessage: string := "Please enter a valid URL (starting with https://)"
  const HttpsScheme: string := "https://"

  /** A character the regular-expression `.` matches. */
  predicate AnyChar(c: char) {
    !Strings.IsLineTerminator(c)
  }

  /** `s` matches `^https:\/\/.+\..+`: after the scheme, at least one
      character, a literal dot, and at least one more character, none of
      them a line terminator. The pattern is not anchored at the end. */
  predicate MatchesHttpsPattern(s: string) {
    Strings.IsPrefix(HttpsScheme, s) && exists d | 8 < d < |s| - 1 :: SplitsAt(s, d)
  }

  /** The pattern's `.+\..+` can put its literal dot at index `d`. */
  predicate SplitsAt(s: string, d: int) {
    && 8 < d < |s| - 1
    && s[d] == '.'
    && AnyChar(s[d + 1])
    && forall k | 8 <= k < d :: AnyChar(s[k])
  }

  /** `url.match(/^https:\/\/.+\..+/)` as a single left-to-right scan. */
  method MatchHttps(s: string) returns (b: bool)
    ensures b <==> MatchesHttpsPattern(s)
  {
    if !Strings.IsPrefix(HttpsScheme, s) {
      return false;
    }
    var i := 8;
    while i < |s| - 1
      invariant 8 <= i <= |s|
      invariant forall k | 8 <= k < i :: AnyChar(s[k])
      invariant forall d | 8 < d < i :: !SplitsAt(s, d)
    {
      if i > 8 && s[i] == '.' && AnyChar(s[i + 1]) {
        assert SplitsAt(s, i);
        return true;
      }
      if !AnyChar(s[i]) {
        return false;
      }
      i := i + 1;
    }
    return false;
  }

  /** The pre-request check every client shorten runs: a blank URL is
      refused, and outside development mode so is one that does not match
      the HTTPS pattern. */
  function Validate(url: string, devMode: bool): (r: Result<(), string>)
    ensures r.Err? ==> r.error in {EnterUrlMessage, HttpsUrlMessage}
    ensures r.Err? && r.error == EnterUrlMessage <==> Strings.Trim(url) == ""
    ensures r.Ok? <==> Strings.Trim(url) != "" && (devMode || MatchesHttpsPattern(url))
  {
    if Strings.Trim(url) == "" then Err(EnterUrlMessage)
    else if !devMode && !MatchesHttpsPattern(url) then Err(HttpsUrlMessage)
    else Ok(())
  }

  /** In development mode only blank URLs are refused. */
  lemma DevModeAcceptsNonBlank(url: string)
    requires exists i | 0 <= i < |url| :: !Strings.IsJsWhitespace(url[i])
    ensures Validate(url, true).Ok?
  {
  }

  /** Every URL the production check accepts starts with the HTTPS scheme
      and has a dot after at least one more character. */
  lemma AcceptedUrlShape(url: string)
    requires Validate(url, false).Ok?
    ensures Strings.IsPrefix(HttpsScheme, url)
    ensures exists d | |HttpsScheme| < d < |url| - 1 :: url[d] == '.'
  {
  }

  /** A URL with no dot past the first character after the scheme never
      matches, nor does one whose only such dots are last. */
  lemma HttpsPatternNeedsDot(s: string)
    requires forall d | |HttpsScheme| < d < |s| - 1 :: s[d] != '.'
    ensures !MatchesHttpsPattern(s)
  {
  }

  /** The pattern is not anchored at the end: whatever follows a matching
      URL, the whole still matches. */
  lemma {:induction false} HttpsPatternUnanchored(s: string, t: string)
    requires MatchesHttpsPattern(s)
    ensures MatchesHttpsPattern(s + t)
  {
    var d :| 8 < d < |s| - 1 && SplitsAt(s, d);
    assert (s + t)[..|HttpsScheme|] == s[..|HttpsScheme|];
    assert SplitsAt(s + t, d);
  }

  /** `https://` followed by a non-empty host, a dot and a non-empty rest,
      none of them holding a line terminator, matches. */
  lemma {:induction false} HttpsPatternAcceptsDottedHost(host: string, rest: string)
    requires host != [] && rest != []
    requires forall k | 0 <= k < |host| :: AnyChar(host[k])
    requires AnyChar(rest[0])
    ensures MatchesHttpsPattern(HttpsScheme + host + "." + rest)
  {
    var s := HttpsScheme + host + "." + rest;
    var d := |HttpsScheme| + |host|;
    assert s[..|HttpsScheme|] == HttpsScheme;
    assert s[d] == '.' && s[d + 1] == rest[0];
    forall k | 8 <= k < d ensures AnyChar(s[k]) {
      assert s[k] == host[k - 8];
    }
    assert SplitsAt(s, d);
  }

  /** The JSON body of a shorten request; an absent `customCode` is not
      sent at all. */
  datatype ShortenBody = ShortenBody(url: string, customCode: Option<string>)

  /** The body built by `shorten` in both `api/services/url.service.ts` and
      `api/url.service.ts`: the URL as typed, and the code only when it is
      not blank, then trimmed. */
  function TrimmedBody(url: string, customCode: Option<string>): (b: ShortenBody)
    ensures b.url == url
    ensures b.customCode.Some? <==> customCode.Some? && Strings.Trim(customCode.value) != ""
    ensures b.customCode.Some? ==> b.customCode.value == Strings.Trim(customCode.value)
  {
    if customCode.Some? && Strings.Trim(customCode.value) != "" then
      ShortenBody(url, Some(Strings.Trim(customCode.value)))
    else ShortenBody(url, None)
  }

  /** A code sent by the trimming services never starts or ends with
      whitespace. */
  lemma TrimmedCodeHasNoOuterSpace(url: string, customCode: Option<string>)
    ensures var b := TrimmedBody(url, customCode);
            b.customCode.Some? ==>
              && !Strings.IsJsWhitespace(b.customCode.value[0])
              && !Strings.IsJsWhitespace(b.customCode.value[|b.customCode.value| - 1])
  {
  }

  /** `shortenUrl` in `services/api.ts` sends the URL alone. */
  function UrlOnlyBody(url: string): (b: ShortenBody)
    ensures b.url == url && b.customCode.None?
  {
    ShortenBody(url, None)
  }

  /** `payload.customCode` is truthy: present and non-empty. */
  predicate CodeTruthy(customCode: Option<string>) {
    customCode.Some? && customCode.value != ""
  }

  /** The listing a shorten invalidates: custom URLs when a code was
      given, generated URLs otherwise. */
  function ShortenedKind(customCode: Option<string>): ClientCache.CacheKind {
    if CodeTruthy(customCode) then ClientCache.CustomUrls else ClientCache.GeneratedUrls
  }

  /** The outcome of `shortenUrl` in `services/api/url.api.ts`: refused
      before any request, or sent with this body and leaving this cache. */
  datatype UrlApiShorten =
    | Refused(message: string)
    | Sent(body: ShortenBody, cache: ClientCache.Storage)

  /** `shortenUrl` in `services/api/url.api.ts`. The payload is sent as
      given, untrimmed; `success` is the server's verdict. */
  function UrlApiShortenUrl(cache: ClientCache.Storage, url: string, customCode: Option<string>,
                            devMode: bool, success: bool): (r: UrlApiShorten)
    ensures r.Refused? <==> Validate(url, devMode).Err?
    ensures r.Refused? ==> r.message == Validate(url, devMode).error
    ensures r.Sent? ==> r.body == ShortenBody(url, customCode)
    ensures r.Sent? && !success ==> r.cache == cache
    ensures r.Sent? && success ==> r.cache == ClientCache.Remove(cache, ShortenedKind(customCode))
  {
    var v := Validate(url, devMode);
    if v.Err? then Refused(v.error)
    else
      Sent(ShortenBody(url, customCode),
           if success then ClientCache.Remove(cache, ShortenedKind(customCode)) else cache)
  }

  /** `updateCustomUrl` in `services/api/url.api.ts`: a success with data
      invalidates the custom listing. */
  function UpdateInvalidation(cache: ClientCache.Storage, success: bool, hasData: bool): (r: ClientCache.Storage)
    ensures success && hasData ==> r == ClientCache.Remove(cache, ClientCache.CustomUrls)
    ensures !(success && hasData) ==> r == cache
  {
    if success && hasData then ClientCache.Remove(cache, ClientCache.CustomUrls) else cache
  }

  /** `deleteUrl` in `services/api/url.api.ts`: a success invalidates the
      listing the caller says the URL belonged to. */
  function DeleteInvalidation(cache: ClientCache.Storage, success: bool, isCustom: bool): (r: ClientCache.Storage)
    ensures success ==> r == ClientCache.Remove(cache, if isCustom then ClientCache.CustomUrls else ClientCache.GeneratedUrls)
    ensures !success ==> r == cache
  {
    if !success then cache
    else if isCustom then ClientCache.Remove(cache, ClientCache.CustomUrls)
    else ClientCache.Remove(cache, ClientCache.GeneratedUrls)
  }

  /** After a successful shorten the affected listing is read afresh from
      the server, and the other listing stays cached exactly as before. */
  lemma ShortenInvalidatesOneListing(cache: ClientCache.Storage, url: string, customCode: Option<string>,
                                     devMode: bool, other: ClientCache.CacheKind, now: int)
    requires Validate(url, devMode).Ok?
    requires other != ShortenedKind(customCode)
    ensures var r := UrlApiShortenUrl(cache, url, customCode, devMode, true);
            && r.Sent?
            && ClientCache.Get(r.cache, ShortenedKind(customCode), now).data.None?
            && ClientCache.Get(r.cache, other, now).data == ClientCache.Get(cache, other, now).data
  {
    ClientCache.RemoveThenGet(cache, ShortenedKind(customCode), other, now);
  }

  /** Refusal happens before any request, so a refused shorten cannot
      change the cache. */
  lemma RefusedLeavesCache(cache: ClientCache.Storage, url: string, customCode: Option<string>,
                           devMode: bool, success: bool)
    requires Strings.Trim(url) == ""
    ensures UrlApiShortenUrl(cache, url, customCode, devMode, success) == Refused(EnterUrlMessage)
  {
  }

  /** The `error` field of a JSON response: an object, or some other JSON
      value (its truthiness is all that matters). */
  datatype ErrorField = ErrorObject(message: string) | ErrorOther(truthy: bool)

  /** What the server's reply parsed to: `Unparsable` is a body whose
      `json()` throws, with that exception's message. */
  datatype Body = Json(error: Option<ErrorField>, data: Option<string>) | Unparsable(message: string)

  /** One `fetch`: a reply with a status, or a rejection. */
  datatype Attempt = Reply(status: int, body: Body) | Rejected(reason: ClientErrors.Thrown)

  /** What `makeRequest` resolves to. */
  datatype ApiResult = Success(data: Option<string>) | Failure(error: ErrorFailure)

  /** The `error` of a failed result: the server's field, or a message. */
  datatype ErrorFailure = ServerError(field: ErrorField) | Message(text: string)

  predicate ErrorTruthy(e: Option<ErrorField>) {
    e.Some? && (e.value.ErrorObject? || e.value.truthy)
  }

  /** The result shaping of one non-retried attempt. */
  function Shape(a: Attempt): (r: ApiResult)
    ensures a.Rejected? ==> r == Failure(Message(
              if a.reason.ErrorInstance? then a.reason.message else "Network error"))
    ensures a.Reply? && a.body.Json? ==>
              (r.Success? <==> !ErrorTruthy(a.body.error))
              && (r.Success? ==> r.data == a.body.data)
              && (r.Failure? ==> r.error == ServerError(a.body.error.value))
  {
    if a.Rejected? then
      Failure(Message(if a.reason.ErrorInstance? then a.reason.message else "Network error"))
    else if a.body.Unparsable? then Failure(Message(a.body.message))
    else if ErrorTruthy(a.body.error) then Failure(ServerError(a.body.error.value))
    else Success(a.body.data)
  }

  /** How many re-authentications `makeRequest` allows. */
  const MaxRetries: nat := 3

  predicate Unauthorized(a: Attempt) {
    a.Reply? && a.status == 401
  }

  /** The result of a call and how many fetches it made. */
  datatype Call = Call(result: ApiResult, fetches: nat)

  /** `makeRequest` from retry count `retries`: `fetchAt(k)` is what the
      `k`-th fetch of this call chain meets. A 401 with retries left
      re-authenticates (its outcome is ignored) and tries again. */
  function MakeRequest(fetchAt: nat -> Attempt, retries: nat): (c: Call)
    ensures c.fetches >= 1
    ensures retries <= MaxRetries ==> c.fetches <= MaxRetries + 1 - retries
    ensures forall k | retries <= k < retries + c.fetches - 1 :: Unauthorized(fetchAt(k)) && k < MaxRetries
    ensures c.result == Shape(fetchAt(retries + c.fetches - 1))
    ensures retries + c.fetches - 1 < MaxRetries ==> !Unauthorized(fetchAt(retries + c.fetches - 1))
    decreases if retries < MaxRetries then MaxRetries - retries else 0
  {
    if Unauthorized(fetchAt(retries)) && retries < MaxRetries then
      var rest := MakeRequest(fetchAt, retries + 1);
      Call(rest.result, rest.fetches + 1)
    else Call(Shape(fetchAt(retries)), 1)
  }

  /** A call makes at most four fetches. */
  lemma AtMostFourFetches(fetchAt: nat -> Attempt)
    ensures MakeRequest(fetchAt, 0).fetches <= 4
  {
  }

  /** A server that always answers 401 is asked exactly four times, and the
      fourth reply is shaped like any other. */
  lemma PersistentUnauthorized(fetchAt: nat -> Attempt)
    requires forall k: nat :: Unauthorized(fetchAt(k))
    ensures MakeRequest(fetchAt, 0).fetches == 4
    ensures MakeRequest(fetchAt, 0).result == Shape(fetchAt(3))
  {
  }

  /** A first reply that is not a 401 is the only fetch. */
  lemma SingleFetchWhenAuthorized(fetchAt: nat -> Attempt)
    requires !Unauthorized(fetchAt(0))
    ensures MakeRequest(fetchAt, 0) == Call(Shape(fetchAt(0)), 1)
  {
  }
}

=== FILE: cookies.dfy ===
/** The browser cookie store (`stores/cookies.store.ts`) and the cookie
    header serialiser shared by `utils/parse-cookies.server.ts` and
    `utils/parseCookies.ts`.

    The store is a JavaScript object from cookie name to value. It is
    modelled as its entries in property order: a name appears at most once,
    assigning an existing name keeps its position, and a new name goes to
    the end. */
module Cookies {
  import opened Wrappers
  import Seqs
  import Strings

  datatype Cookie = Cookie(name: string, value: string)

  type CookieMap = seq<Cookie>

  function CookieName(c: Cookie): string {
    c.name
  }

  /** No name appears twice: the shape of an object's entries. */
  predicate DistinctNames(m: CookieMap) {
    Seqs.KeysDistinct(m, CookieName)
  }

  /** The position of `name` in `m`, or -1. */
  function NameIndex(m: CookieMap, name: string): (i: int)
    ensures -1 <= i < |m|
    ensures i >= 0 ==> m[i].name == name && forall j | 0 <= j < i :: m[j].name != name
    ensures i < 0 ==> forall j | 0 <= j < |m| :: m[j].name != name
    decreases |m|
  {
    if |m| == 0 then -1
    else if m[0].name == name then 0
    else
      var k := NameIndex(m[1..], name);
      if k < 0 then -1 else k + 1
  }

  /** Two maps that agree on where `x` occurs give `x` the same index. */
  lemma FirstIndexAgree(m: CookieMap, r: CookieMap, x: string)
    requires |m| <= |r|
    requires forall j | 0 <= j < |m| :: (m[j].name == x) == (r[j].name == x)
    requires forall j | |m| <= j < |r| :: r[j].name != x
    ensures NameIndex(r, x) == NameIndex(m, x)
  {
  }

  /** `getCookie`: the value stored under `name`, or `undefined`. */
  function GetCookie(m: CookieMap, name: string): (r: Option<string>)
    ensures r.None? <==> forall j | 0 <= j < |m| :: m[j].name != name
    ensures r.Some? ==> Cookie(name, r.value) in m
  {
    var i := NameIndex(m, name);
    if i < 0 then None else Some(m[i].value)
  }

  /** In a map with distinct names, `getCookie` finds exactly the stored
      entry. */
  lemma GetCookieMember(m: CookieMap, name: string, value: string)
    requires DistinctNames(m)
    ensures GetCookie(m, name) == Some(value) <==> Cookie(name, value) in m
  {
  }

  /** Property assignment `m[c.name] = c.value`. */
  function Put(m: CookieMap, c: Cookie): (r: CookieMap)
    ensures NameIndex(m, c.name) < 0 ==> r == m + [c]
    ensures NameIndex(m, c.name) >= 0 ==> |r| == |m|
    ensures DistinctNames(m) ==> DistinctNames(r)
    ensures GetCookie(r, c.name) == Some(c.value)
    ensures forall x | x != c.name :: GetCookie(r, x) == GetCookie(m, x)
  {
    var i := NameIndex(m, c.name);
    if i < 0 then
      AppendIndexes(m, c);
      m + [c]
    else
      UpdateIndexes(m, c, i);
      m[i := c]
  }

  /** A name's first occurrence is where it occurs with none before it. */
  lemma NameIndexAt(m: CookieMap, x: string, i: int)
    requires 0 <= i < |m| && m[i].name == x
    requires forall j | 0 <= j < i :: m[j].name != x
    ensures NameIndex(m, x) == i
  {
  }

  /** A new name goes to the end; every other name stays where it was. */
  lemma AppendIndexes(m: CookieMap, c: Cookie)
    requires NameIndex(m, c.name) < 0
    ensures NameIndex(m + [c], c.name) == |m|
    ensures forall x | x != c.name :: NameIndex(m + [c], x) == NameIndex(m, x)
  {
    NameIndexAt(m + [c], c.name, |m|);
    forall x | x != c.name ensures NameIndex(m + [c], x) == NameIndex(m, x) {
      AppendKeepsIndex(m, c, x);
    }
  }

  /** An existing name keeps its place, and so does every other name. */
  lemma UpdateIndexes(m: CookieMap, c: Cookie, i: int)
    requires 0 <= i < |m| && i == NameIndex(m, c.name)
    ensures NameIndex(m[i := c], c.name) == i
    ensures forall x | x != c.name :: NameIndex(m[i := c], x) == NameIndex(m, x)
  {
    NameIndexAt(m[i := c], c.name, i);
    forall x | x != c.name ensures NameIndex(m[i := c], x) == NameIndex(m, x) {
      UpdateKeepsIndex(m, c, i, x);
    }
  }

  lemma AppendKeepsIndex(m: CookieMap, c: Cookie, x: string)
    requires x != c.name
    ensures NameIndex(m + [c], x) == NameIndex(m, x)
  {
    FirstIndexAgree(m, m + [c], x);
  }

  lemma UpdateKeepsIndex(m: CookieMap, c: Cookie, i: int, x: string)
    requires 0 <= i < |m| && m[i].name == c.name && x != c.name
    ensures NameIndex(m[i := c], x) == NameIndex(m, x)
  {
    var r := m[i := c];
    forall j | 0 <= j < |m| ensures (m[j].name == x) == (r[j].name == x) {
      if j != i {
        assert r[j] == m[j];
      }
    }
    FirstIndexAgree(m, r, x);
  }

  /** `addCookie` */
  function AddCookie(m: CookieMap, c: Cookie): (r: CookieMap)
    ensures DistinctNames(m) ==> DistinctNames(r)
    ensures GetCookie(r, c.name) == Some(c.value)
    ensures forall x | x != c.name :: GetCookie(r, x) == GetCookie(m, x)
  {
    Put(m, c)
  }

  /** Assigning each of `cs` in turn. */
  function PutAll(m: CookieMap, cs: seq<Cookie>): (r: CookieMap)
    ensures DistinctNames(m) ==> DistinctNames(r)
    decreases |cs|
  {
    if |cs| == 0 then m else Put(PutAll(m, cs[..|cs| - 1]), cs[|cs| - 1])
  }

  /** `addCookies`: the list is first reduced into a fresh object, which is
      then spread over the current one. */
  function AddCookies(m: CookieMap, cs: seq<Cookie>): (r: CookieMap)
    ensures DistinctNames(m) ==> DistinctNames(r)
  {
    PutAll(m, PutAll([], cs))
  }

  /** The value of the last entry of `cs` named `x`: the reference meaning
      of "a later entry wins". */
  function LastValue(cs: seq<Cookie>, x: string): (r: Option<string>)
    ensures r.Some? ==> Cookie(x, r.value) in cs
    ensures r.None? <==> forall j | 0 <= j < |cs| :: cs[j].name != x
    decreases |cs|
  {
    if |cs| == 0 then None
    else if cs[|cs| - 1].name == x then Some(cs[|cs| - 1].value)
    else LastValue(cs[..|cs| - 1], x)
  }

  /** After assigning `cs`, a name carries its last value in `cs`, and any
      other name keeps its earlier value. */
  lemma {:induction false} PutAllLookup(m: CookieMap, cs: seq<Cookie>, x: string)
    ensures GetCookie(PutAll(m, cs), x) ==
              if LastValue(cs, x).Some? then LastValue(cs, x) else GetCookie(m, x)
    decreases |cs|
  {
    if |cs| > 0 {
      PutAllLookup(m, cs[..|cs| - 1], x);
    }
  }

  /** In a map with distinct names, the last entry named `x` is the only
      one, which is what `getCookie` finds. */
  lemma {:induction false} LastValueIsLookup(n: CookieMap, x: string)
    requires DistinctNames(n)
    ensures LastValue(n, x) == GetCookie(n, x)
    decreases |n|
  {
  }

  /** `addCookies`: among the new entries the last one with a name wins,
      the new entries override the current ones, and names not among them
      keep their values. */
  lemma AddCookiesLookup(m: CookieMap, cs: seq<Cookie>, x: string)
    ensures GetCookie(AddCookies(m, cs), x) ==
              if LastValue(cs, x).Some? then LastValue(cs, x) else GetCookie(m, x)
  {
    var n := PutAll([], cs);
    assert DistinctNames([]);
    PutAllLookup([], cs, x);
    PutAllLookup(m, n, x);
    LastValueIsLookup(n, x);
  }

  function HasOtherName(name: string): Cookie -> bool {
    (c: Cookie) => c.name != name
  }

  /** `removeCookie`: drops the property by rest destructuring. */
  function RemoveCookie(m: CookieMap, name: string): (r: CookieMap)
    ensures GetCookie(r, name).None?
    ensures DistinctNames(m) ==> DistinctNames(r)
    ensures DistinctNames(m) ==> forall x | x != name :: GetCookie(r, x) == GetCookie(m, x)
  {
    var r := Seqs.Filter(m, HasOtherName(name));
    Seqs.FilterKeysDistinct(m, HasOtherName(name), CookieName);
    RemoveKeepsOthers(m, name, r);
    r
  }

  lemma RemoveKeepsOthers(m: CookieMap, name: string, r: CookieMap)
    requires r == Seqs.Filter(m, HasOtherName(name))
    requires DistinctNames(m) ==> DistinctNames(r)
    ensures DistinctNames(m) ==> forall x | x != name :: GetCookie(r, x) == GetCookie(m, x)
  {
  }

  /** `clear` */
  function Clear(): (r: CookieMap)
    ensures forall x :: GetCookie(r, x).None?
  {
    []
  }

  /** One cookie as it appears in a `Cookie` header. */
  function Segment(c: Cookie): string {
    c.name + "=" + c.value
  }

  function Segments(cs: seq<Cookie>): (r: seq<string>)
    ensures |r| == |cs| && forall i | 0 <= i < |cs| :: r[i] == Segment(cs[i])
  {
    seq(|cs|, i requires 0 <= i < |cs| => Segment(cs[i]))
  }

  /** The `Cookie` header both serialisers build from `getAll()`, and what
      `getCookieString` builds from the store's entries. */
  function RenderCookies(cs: seq<Cookie>): (r: string)
    ensures |cs| == 0 ==> r == ""
    ensures |cs| == 1 ==> r == cs[0].name + "=" + cs[0].value
  {
    Strings.Join(Segments(cs), "; ")
  }

  /** `getCookieString` */
  function GetCookieString(m: CookieMap): (r: string)
    ensures |m| == 0 ==> r == ""
  {
    RenderCookies(m)
  }

  /** One more cookie adds exactly one separator and its segment at the
      end: segments come in input order. */
  lemma RenderSnoc(cs: seq<Cookie>, c: Cookie)
    requires |cs| > 0
    ensures RenderCookies(cs + [c]) == RenderCookies(cs) + "; " + Segment(c)
  {
    assert Segments(cs + [c]) == Segments(cs) + [Segment(c)];
    Strings.JoinSnoc(Segments(cs), Segment(c), "; ");
  }

  /** The header begins with the first segment and ends with the last: there
      is no leading or trailing separator. */
  lemma RenderEnds(cs: seq<Cookie>)
    requires |cs| > 0
    ensures Strings.IsPrefix(Segment(cs[0]), RenderCookies(cs))
    ensures var r := RenderCookies(cs); var l := Segment(cs[|cs| - 1]);
            |l| <= |r| && r[|r| - |l|..] == l
  {
    Strings.JoinEnds(Segments(cs), "; ");
  }

  /** Adding a cookie under a new name to a non-empty store appends its
      segment to `getCookieString`; other names keep their place. */
  lemma AddNewCookieString(m: CookieMap, c: Cookie)
    requires |m| > 0 && GetCookie(m, c.name).None?
    ensures GetCookieString(AddCookie(m, c)) == GetCookieString(m) + "; " + Segment(c)
  {
    RenderSnoc(m, c);
  }
}

=== FILE: engine.dfy ===
/** The shortening engine (`services/url.service.ts`): shorten, resolve,
    list, update and delete, as steps over the two tables and the Redis
    cache.

    Every operation takes the current `State` and an `Env` and returns a
    `Step`: the result, the next state and the calls it made to the store
    and the cache, in order. The environment says whether Redis is
    reachable, whether an un-awaited cache write lands before the next
    request, the current time, and whether a concurrent request inserts the
    same custom code between the availability check and the insert.

    The alias format is not part of this model: `buildUrl` and
    `parseShortenedUrl` are the two functions of an `AliasCodec` parameter. */
module UrlEngine {
  import opened Wrappers
  import opened ShortnErrors
  import Base62
  import Seqs
  import R = UrlRepository
  import C = ServerCache

  /** Seconds a freshly generated alias stays cached: one day. */
  const GeneratedUrlExpiry: int := 60 * 60 * 24

  /** Seconds a freshly created custom alias stays cached: seven days. */
  const CustomUrlExpiry: int := 60 * 60 * 24 * 7

  /** What `parseShortenedUrl` returns. */
  datatype ParsedAlias = ParsedAlias(shortCode: string, isCustom: bool)

  /** `buildUrl(code, segment)`, where the flag says `URLSegment.CUSTOM` was
      passed, and `parseShortenedUrl`. */
  datatype AliasCodec = AliasCodec(build: (string, bool) -> string, parse: string -> ParsedAlias)

  /** The law the engine's callers rely on; stated as an assumption on the
      codec wherever it is needed, never proved. */
  ghost predicate ParseInvertsBuild(codec: AliasCodec) {
    forall code, custom :: codec.parse(codec.build(code, custom)) == ParsedAlias(code, custom)
  }

  datatype Config = Config(serviceAccountEmail: string)

  datatype User = User(id: int, email: string)

  /** A request racing for the same custom code. */
  datatype Rival = Rival(url: string, userId: int)

  datatype Env = Env(up: bool, setLands: bool, now: int, rival: Option<Rival>)

  datatype State = State(store: R.Store, redis: C.Redis)

  /** A call the engine makes to the store or the cache. */
  datatype Effect = StoreRead | StoreWrite | CacheRead | CacheWrite | CacheDelete

  datatype Step<T> = Step(result: Result<T, Failure>, state: State, effects: seq<Effect>)

  /** `getUrlsOfUser`'s view of a generated row. */
  datatype GeneratedView = GeneratedView(id: int, originalUrl: string, shortenedUrl: string, shortCode: string, createdAt: int)

  /** The view of a custom row returned by `getUrlsOfUser` and `updateCustomUrl`. */
  datatype CustomView = CustomView(id: int, originalUrl: string, shortenedUrl: string, customCode: string, createdAt: int)

  datatype UserUrls = UserUrls(urls: seq<GeneratedView>, customUrls: seq<CustomView>)

  /** `if (cachedUrl)`: a hit is a non-empty string. */
  predicate CacheHit(v: Result<Option<string>, CacheError>) {
    v.Ok? && v.value.Some? && v.value.value != ""
  }

  function KindFor(isCustom: bool): C.CacheKind {
    if isCustom then C.CustomUrl else C.GeneratedUrl
  }

  /** An un-awaited `cache.set`: its promise is never observed, so a failure
      leaves the cache as it was and never reaches the caller's result. A
      rejected promise nobody handles is an unhandled rejection, which under
      Node's default policy ends the process; that is outside this model. */
  function SetQuietly(redis: C.Redis, env: Env, kind: C.CacheKind, code: string, url: string, expiry: int)
    : (r: C.Redis)
    requires expiry > 0
    ensures env.up && env.setLands ==> C.GenerateKey(kind, code) in r
                                       && r[C.GenerateKey(kind, code)] == C.Entry(url, Some(env.now + expiry))
    ensures !(env.up && env.setLands) ==> r == redis
    ensures forall k | k != C.GenerateKey(kind, code) :: (k in r <==> k in redis) && (k in redis ==> r[k] == redis[k])
  {
    if env.setLands then
      match C.Set(redis, kind, code, C.Str(url), Some(expiry), env.up, env.now)
      case Ok(r) => r
      case Err(_) => redis
    else redis
  }

  // ------------------------------------------------------------------
  // Shorten.

  /** `createCustomUrl`. When a rival request inserts the same code between
      the check and the insert, the rival's row lands and the losing insert
      still draws an identity value before the unique check rejects it. */
  function CreateCustomUrl(st: State, env: Env, cfg: Config, codec: AliasCodec, url: string, user: User, code: string)
    : (r: Step<string>)
    ensures user.email == cfg.serviceAccountEmail ==>
              r == Step(Err(Url(CannotCreateCustomUrlWithServiceAccount)), st, [])
    ensures user.email != cfg.serviceAccountEmail && R.FindCustomUrlByCustomCode(st.store, code).Some? ==>
              r == Step(Err(Url(CustomCodeAlreadyInUse)), st, [StoreRead])
    ensures r.result.Ok? <==> user.email != cfg.serviceAccountEmail
                              && R.FindCustomUrlByCustomCode(st.store, code).None? && env.rival.None?
    ensures r.result.Ok? ==> r.result.value == codec.build(code, true)
                             && r.effects == [StoreRead, StoreWrite, CacheWrite]
                             && exists x | x in r.state.store.customUrls ::
                                  x.customCode == code && x.url == url && x.userId == user.id
    ensures r.result.Err? && r.result.error.Database? ==> r.result.error.db == UniqueViolation && env.rival.Some?
    ensures r.result.Err? && r.result.error.Database? ==>
              && r.state.store.customUrls
                 == st.store.customUrls + [R.CustomUrl(st.store.nextCustomUrlId, env.rival.value.userId, env.rival.value.url,
                                                       code, env.now, env.now)]
              && r.state.store.nextCustomUrlId == st.store.nextCustomUrlId + 2
    ensures r.state.store.urls == st.store.urls
    ensures R.Valid(st.store) ==> R.Valid(r.state.store)
  {
    if user.email == cfg.serviceAccountEmail then
      Step(Err(Url(CannotCreateCustomUrlWithServiceAccount)), st, [])
    else if R.FindCustomUrlByCustomCode(st.store, code).Some? then
      Step(Err(Url(CustomCodeAlreadyInUse)), st, [StoreRead])
    else
      var store := match env.rival
        case Some(rv) =>
          var ins := R.InsertCustomUrl(st.store, rv.url, code, rv.userId, env.now);
          if ins.Ok? then ins.value.store else R.RejectCustomInsert(st.store)
        case None => st.store;
      match R.InsertCustomUrl(store, url, code, user.id, env.now)
      case Err(e) => Step(Err(Database(e)), st.(store := R.RejectCustomInsert(store)), [StoreRead, StoreWrite])
      case Ok(ins) =>
        assert C.CustomUrl != C.Refresh;
        var redis := SetQuietly(st.redis, env, C.CustomUrl, code, url, CustomUrlExpiry);
        assert ins.store.customUrls[|ins.store.customUrls| - 1] in ins.store.customUrls;
        Step(Ok(codec.build(code, true)), State(ins.store, redis), [StoreRead, StoreWrite, CacheWrite])
  }

  /** `createGeneratedUrl` */
  function CreateGeneratedUrl(st: State, env: Env, codec: AliasCodec, url: string, userId: int)
    : (r: Step<string>)
    ensures r.result.Ok?
    ensures R.FindGeneratedUrlByUrl(st.store, url, userId).Some? ==>
              r == Step(Ok(codec.build(Base62.EncodeId(R.FindGeneratedUrlByUrl(st.store, url, userId).value.id), false)),
                        st, [StoreRead])
    ensures R.FindGeneratedUrlByUrl(st.store, url, userId).None? ==>
              && r.state.store.urls == st.store.urls + [R.GeneratedUrl(st.store.nextUrlId, url, userId, env.now)]
              && r.result.value == codec.build(Base62.EncodeId(st.store.nextUrlId), false)
              && r.effects == [StoreRead, StoreWrite, CacheWrite]
    ensures r.state.store.customUrls == st.store.customUrls
    ensures R.Valid(st.store) ==> R.Valid(r.state.store)
  {
    match R.FindGeneratedUrlByUrl(st.store, url, userId)
    case Some(row) =>
      Step(Ok(codec.build(Base62.EncodeId(row.id), false)), st, [StoreRead])
    case None =>
      var ins := R.InsertGeneratedUrl(st.store, url, userId, env.now);
      var code := Base62.EncodeId(ins.id);
      var redis := SetQuietly(st.redis, env, C.GeneratedUrl, code, url, GeneratedUrlExpiry);
      Step(Ok(codec.build(code, false)), State(ins.store, redis), [StoreRead, StoreWrite, CacheWrite])
  }

  /** `if (customCode)`: a present, non-empty code. */
  predicate Truthy(customCode: Option<string>) {
    customCode.Some? && customCode.value != ""
  }

  /** `shortenUrl`: the custom path exactly when the code is truthy. */
  function ShortenUrl(st: State, env: Env, cfg: Config, codec: AliasCodec, url: string, user: User, customCode: Option<string>)
    : (r: Step<string>)
    ensures !Truthy(customCode) ==> r.result.Ok? && r.state.store.customUrls == st.store.customUrls
    ensures Truthy(customCode) ==> r.state.store.urls == st.store.urls
    ensures Truthy(customCode) && r.result.Ok? ==> r.result.value == codec.build(customCode.value, true)
    ensures R.Valid(st.store) ==> R.Valid(r.state.store)
  {
    if Truthy(customCode) then CreateCustomUrl(st, env, cfg, codec, url, user, customCode.value)
    else CreateGeneratedUrl(st, env, codec, url, user.id)
  }

  // ------------------------------------------------------------------
  // Resolve.

  /** `getOriginalUrl`: the cache first, then the table the alias names.
      Nothing is written, not even a re-warm of the cache after a miss. */
  function GetOriginalUrl(st: State, env: Env, codec: AliasCodec, alias: string): (r: Step<string>)
    ensures r.state == st
    ensures StoreWrite !in r.effects && CacheWrite !in r.effects && CacheDelete !in r.effects
    ensures !env.up ==> r.result == Err(Cache(CacheServiceError))
    ensures var p := codec.parse(alias);
            var cached := C.Get(st.redis, KindFor(p.isCustom), p.shortCode, env.up, env.now);
            CacheHit(cached) ==> r == Step(Ok(cached.value.value), st, [CacheRead])
    ensures var p := codec.parse(alias);
            var cached := C.Get(st.redis, KindFor(p.isCustom), p.shortCode, env.up, env.now);
            cached.Ok? && !CacheHit(cached) ==>
              && r.effects == [CacheRead, StoreRead]
              && (p.isCustom ==> r.result == (match R.FindCustomUrlByCustomCode(st.store, p.shortCode)
                                                case Some(u) => Ok(u)
                                                case None => Err(Url(InvalidShortenedUrl))))
              && (!p.isCustom ==> r.result == (match R.FindGeneratedUrlById(st.store, Base62.DecodeId(p.shortCode))
                                                 case Some(row) => Ok(row.url)
                                                 case None => Err(Url(InvalidShortenedUrl))))
  {
    var p := codec.parse(alias);
    var cached := C.Get(st.redis, KindFor(p.isCustom), p.shortCode, env.up, env.now);
    if cached.Err? then Step(Err(Cache(cached.error)), st, [CacheRead])
    else if CacheHit(cached) then Step(Ok(cached.value.value), st, [CacheRead])
    else if p.isCustom then
      match R.FindCustomUrlByCustomCode(st.store, p.shortCode)
      case None => Step(Err(Url(InvalidShortenedUrl)), st, [CacheRead, StoreRead])
      case Some(u) => Step(Ok(u), st, [CacheRead, StoreRead])
    else
      match R.FindGeneratedUrlById(st.store, Base62.DecodeId(p.shortCode))
      case None => Step(Err(Url(InvalidShortenedUrl)), st, [CacheRead, StoreRead])
      case Some(row) => Step(Ok(row.url), st, [CacheRead, StoreRead])
  }

  // ------------------------------------------------------------------
  // Listing and update.

  function ViewGenerated(codec: AliasCodec, row: R.GeneratedUrl): GeneratedView {
    var code := Base62.EncodeId(row.id);
    GeneratedView(row.id, row.url, codec.build(code, false), code, row.createdAt)
  }

  function ViewCustom(codec: AliasCodec, row: R.CustomUrl): CustomView {
    CustomView(row.id, row.url, codec.build(row.customCode, true), row.customCode, row.createdAt)
  }

  /** Each row of a page with its alias, in page order. */
  function ViewsOfGenerated(codec: AliasCodec, rows: seq<R.GeneratedUrl>): (r: seq<GeneratedView>)
    ensures |r| == |rows|
    ensures forall i | 0 <= i < |r| :: r[i] == ViewGenerated(codec, rows[i])
    ensures forall v | v in r :: exists x | x in rows :: v == ViewGenerated(codec, x)
  {
    assert forall i | 0 <= i < |rows| :: rows[i] in rows;
    seq(|rows|, i requires 0 <= i < |rows| => ViewGenerated(codec, rows[i]))
  }

  function ViewsOfCustom(codec: AliasCodec, rows: seq<R.CustomUrl>): (r: seq<CustomView>)
    ensures |r| == |rows|
    ensures forall i | 0 <= i < |r| :: r[i] == ViewCustom(codec, rows[i])
    ensures forall v | v in r :: exists x | x in rows :: v == ViewCustom(codec, x)
  {
    assert forall i | 0 <= i < |rows| :: rows[i] in rows;
    seq(|rows|, i requires 0 <= i < |rows| => ViewCustom(codec, rows[i]))
  }

  /** The generated half of `getUrlsOfUser`: one page of the user's
      generated rows, each with its code and alias. */
  function GeneratedViews(st: State, codec: AliasCodec, q: R.UrlQuery, userId: int): (r: seq<GeneratedView>)
    requires q.page >= 1 && q.limit >= 0
    ensures |r| <= q.limit
    ensures forall v | v in r :: exists x | x in st.store.urls ::
              x.userId == userId && v.id == x.id && v.originalUrl == x.url
              && v.shortCode == Base62.EncodeId(x.id) && v.shortenedUrl == codec.build(v.shortCode, false)
    ensures forall i | 0 <= i < |r| ::
              && 0 <= (q.page - 1) * q.limit + i < |R.GeneratedMatching(st.store, userId, q.search)|
              && r[i] == ViewGenerated(codec, R.GeneratedMatching(st.store, userId, q.search)[(q.page - 1) * q.limit + i])
  {
    ViewsOfGenerated(codec, R.FindAllGeneratedUrlsByUserId(st.store, q, userId))
  }

  /** The custom half of `getUrlsOfUser`. */
  function CustomViews(st: State, codec: AliasCodec, q: R.UrlQuery, userId: int): (r: seq<CustomView>)
    requires q.page >= 1 && q.limit >= 0
    ensures |r| <= q.limit
    ensures forall v | v in r :: exists x | x in st.store.customUrls ::
              x.userId == userId && v.id == x.id && v.originalUrl == x.url
              && v.customCode == x.customCode && v.shortenedUrl == codec.build(x.customCode, true)
    ensures forall i | 0 <= i < |r| ::
              && 0 <= (q.page - 1) * q.limit + i < |R.CustomMatching(st.store, userId, q.search)|
              && r[i] == ViewCustom(codec, R.CustomMatching(st.store, userId, q.search)[(q.page - 1) * q.limit + i])
  {
    ViewsOfCustom(codec, R.FindAllCustomUrlsByUserId(st.store, q, userId))
  }

  /** `getUrlsOfUser`: one page of each table, each row with its alias.
      The service method takes no query; the page query here stands in for
      the one the controller passes to its per-table listing calls. */
  function GetUrlsOfUser(st: State, codec: AliasCodec, q: R.UrlQuery, userId: int): (r: UserUrls)
    requires q.page >= 1 && q.limit >= 0
    ensures |r.urls| <= q.limit && |r.customUrls| <= q.limit
    ensures forall v | v in r.urls :: exists x | x in st.store.urls ::
              x.userId == userId && v.id == x.id && v.originalUrl == x.url
              && v.shortCode == Base62.EncodeId(x.id) && v.shortenedUrl == codec.build(v.shortCode, false)
    ensures forall v | v in r.customUrls :: exists x | x in st.store.customUrls ::
              x.userId == userId && v.id == x.id && v.originalUrl == x.url
              && v.customCode == x.customCode && v.shortenedUrl == codec.build(x.customCode, true)
    ensures forall i | 0 <= i < |r.urls| ::
              && 0 <= (q.page - 1) * q.limit + i < |R.GeneratedMatching(st.store, userId, q.search)|
              && r.urls[i] == ViewGenerated(codec, R.GeneratedMatching(st.store, userId, q.search)[(q.page - 1) * q.limit + i])
    ensures forall i | 0 <= i < |r.customUrls| ::
              && 0 <= (q.page - 1) * q.limit + i < |R.CustomMatching(st.store, userId, q.search)|
              && r.customUrls[i] == ViewCustom(codec, R.CustomMatching(st.store, userId, q.search)[(q.page - 1) * q.limit + i])
  {
    var urls := GeneratedViews(st, codec, q, userId);
    var customUrls := CustomViews(st, codec, q, userId);
    UserUrls(urls, customUrls)
  }

  /** `updateCustomUrl`: only the destination changes; the code and the
      cache are left alone. */
  function UpdateCustomUrl(st: State, env: Env, codec: AliasCodec, id: int, userId: int, url: string)
    : (r: Step<CustomView>)
    ensures R.FindCustomUrlById(st.store, id, userId).None? ==>
              r == Step(Err(Url(CustomUrlNotFound)), st, [StoreRead])
    ensures r.state.redis == st.redis
    ensures CacheWrite !in r.effects && CacheDelete !in r.effects && CacheRead !in r.effects
    ensures R.Valid(st.store) ==> R.Valid(r.state.store)
    ensures R.Valid(st.store) && R.FindCustomUrlById(st.store, id, userId).Some? ==>
              && r.result.Ok?
              && r.result.value.id == id && r.result.value.originalUrl == url
              && r.result.value.customCode == R.FindCustomUrlById(st.store, id, userId).value.customCode
              && r.result.value.shortenedUrl == codec.build(r.result.value.customCode, true)
    ensures R.Valid(st.store) && R.FindCustomUrlById(st.store, id, userId).Some? ==>
              && r.effects == [StoreRead, StoreWrite]
              && r.state.store.urls == st.store.urls
              && r.state.store.nextUrlId == st.store.nextUrlId
              && r.state.store.nextCustomUrlId == st.store.nextCustomUrlId
              && |r.state.store.customUrls| == |st.store.customUrls|
              && forall i | 0 <= i < |st.store.customUrls| ::
                   r.state.store.customUrls[i]
                   == (var x := st.store.customUrls[i];
                       if x.id == id && x.userId == userId then x.(url := url, updatedAt := env.now) else x)
  {
    match R.FindCustomUrlById(st.store, id, userId)
    case None => Step(Err(Url(CustomUrlNotFound)), st, [StoreRead])
    case Some(row) =>
      if row.userId != userId then Step(Err(Url(CustomUrlNotFound)), st, [StoreRead])
      else
        match R.UpdateCustomUrl(st.store, id, userId, R.CustomUrlPatch(Some(url), None), env.now)
        case Err(e) => Step(Err(Database(e)), st, [StoreRead, StoreWrite])
        case Ok(upd) =>
          UpdateKeepsCode(st.store, id, userId, url, env.now, row);
          Step(Ok(ViewCustom(codec, upd.row)), st.(store := upd.store), [StoreRead, StoreWrite])
  }

  /** The row the update rewrites is the one `findCustomUrlById` found. */
  lemma UpdateKeepsCode(store: R.Store, id: int, userId: int, url: string, now: int, row: R.CustomUrl)
    requires R.FindCustomUrlById(store, id, userId) == Some(row)
    requires R.UpdateCustomUrl(store, id, userId, R.CustomUrlPatch(Some(url), None), now).Ok?
    ensures R.Valid(store) ==>
              R.UpdateCustomUrl(store, id, userId, R.CustomUrlPatch(Some(url), None), now).value.row.customCode == row.customCode
    ensures R.Valid(store) ==>
              var after := R.UpdateCustomUrl(store, id, userId, R.CustomUrlPatch(Some(url), None), now).value.store;
              forall i | 0 <= i < |store.customUrls| && store.customUrls[i].id == id && store.customUrls[i].userId == userId ::
                after.customUrls[i].customCode == row.customCode && after.customUrls[i].url == url
  {
  }

  // ------------------------------------------------------------------
  // Delete.

  /** `deleteUrl`: the table and the cache key come from the parsed alias,
      never from the row; nothing checks that the two agree. A cache failure
      surfaces after the row is already gone. */
  function DeleteUrl(st: State, env: Env, codec: AliasCodec, id: int, userId: int, alias: string)
    : (r: Step<()>)
    ensures var p := codec.parse(alias);
            p.isCustom && R.FindCustomUrlById(st.store, id, userId).None? ==>
              r == Step(Err(Url(CustomUrlNotFound)), st, [StoreRead])
    ensures var p := codec.parse(alias);
            var found := R.FindGeneratedUrlById(st.store, id);
            !p.isCustom && (found.None? || found.value.userId != userId) ==>
              r == Step(Err(Url(UrlNotFound)), st, [StoreRead])
    ensures r.effects == [StoreRead] || r.effects == [StoreRead, StoreWrite, CacheDelete]
    ensures r.effects == [StoreRead] ==> r.result.Err? && r.result.error.Url? && r.state == st
    ensures r.result.Ok? || r.result.error.Cache? ==> r.effects == [StoreRead, StoreWrite, CacheDelete]
    ensures r.result.Err? && r.result.error.Cache? ==> !env.up && r.state.redis == st.redis
    ensures r.result.Ok? ==> env.up
    ensures var p := codec.parse(alias);
            r.result.Ok? ==> C.GenerateKey(KindFor(p.isCustom), p.shortCode) !in r.state.redis
                             && forall k | k != C.GenerateKey(KindFor(p.isCustom), p.shortCode) ::
                                  (k in r.state.redis <==> k in st.redis)
                                  && (k in st.redis ==> r.state.redis[k] == st.redis[k])
    ensures var p := codec.parse(alias);
            p.isCustom && StoreWrite in r.effects ==>
              && r.state.store.urls == st.store.urls
              && (forall x | x in r.state.store.customUrls :: x in st.store.customUrls && !(x.id == id && x.userId == userId))
              && (forall x | x in st.store.customUrls && !(x.id == id && x.userId == userId) :: x in r.state.store.customUrls)
    ensures var p := codec.parse(alias);
            !p.isCustom && StoreWrite in r.effects ==>
              && r.state.store.customUrls == st.store.customUrls
              && (forall x | x in r.state.store.urls :: x in st.store.urls && !(x.id == id && x.userId == userId))
              && (forall x | x in st.store.urls && !(x.id == id && x.userId == userId) :: x in r.state.store.urls)
    ensures R.Valid(st.store) ==> R.Valid(r.state.store)
  {
    var p := codec.parse(alias);
    var kind := KindFor(p.isCustom);
    var deleted :=
      if p.isCustom then
        match R.FindCustomUrlById(st.store, id, userId)
        case None => Err(Url(CustomUrlNotFound))
        case Some(row) =>
          if row.userId != userId then Err(Url(CustomUrlNotFound))
          else Ok(R.DeleteCustomUrl(st.store, id, userId).store)
      else
        match R.FindGeneratedUrlById(st.store, id)
        case None => Err(Url(UrlNotFound))
        case Some(row) =>
          if row.userId != userId then Err(Url(UrlNotFound))
          else Ok(R.DeleteGeneratedUrl(st.store, id, userId).store);
    match deleted
    case Err(e) => Step(Err(e), st, [StoreRead])
    case Ok(store) =>
      match C.Del(st.redis, kind, p.shortCode, env.up, env.now)
      case Err(e) => Step(Err(Cache(e)), State(store, st.redis), [StoreRead, StoreWrite, CacheDelete])
      case Ok(removed) => Step(Ok(()), State(store, removed.redis), [StoreRead, StoreWrite, CacheDelete])
  }
}

=== FILE: engine_props.dfy ===
/** Properties of the shortening engine that relate several operations:
    idempotent generation, resolving what was just shortened, the codes that
    can never resolve, deletion, and the stale cache an update leaves. */
module UrlEngineProperties {
  import opened Wrappers
  import opened ShortnErrors
  import opened UrlEngine
  import Base62
  import Numbers
  import Seqs
  import R = UrlRepository
  import C = ServerCache

  /** Shortening the same URL for the same user twice yields the same alias,
      and the second call only reads. */
  lemma {:induction false} GeneratedShortenIdempotent(st: State, env1: Env, env2: Env, codec: AliasCodec, url: string, userId: int)
    ensures var r1 := CreateGeneratedUrl(st, env1, codec, url, userId);
            var r2 := CreateGeneratedUrl(r1.state, env2, codec, url, userId);
            r2.result == r1.result && r2.state == r1.state && r2.effects == [StoreRead]
  {
  }

  /** Whether the un-awaited cache write fails, lands or is still in flight
      never changes what shortening returns or what it stores. */
  lemma ShortenIgnoresCacheWrite(st: State, env: Env, cfg: Config, codec: AliasCodec, url: string, user: User,
                                 customCode: Option<string>, up: bool, setLands: bool)
    ensures var r1 := ShortenUrl(st, env, cfg, codec, url, user, customCode);
            var r2 := ShortenUrl(st, env.(up := up, setLands := setLands), cfg, codec, url, user, customCode);
            r1.result == r2.result && r1.state.store == r2.state.store && r1.effects == r2.effects
  {
  }

  /** A freshly generated alias resolves to its URL, whether or not the
      cache write landed, as long as nothing stale sat under its key. */
  lemma ResolveAfterGeneratedShorten(st: State, env: Env, env2: Env, codec: AliasCodec, url: string, userId: int)
    requires ParseInvertsBuild(codec)
    requires R.Valid(st.store) && st.store.nextUrlId <= Numbers.MaxSafeInteger
    requires R.FindGeneratedUrlByUrl(st.store, url, userId).None?
    requires C.GenerateKey(C.GeneratedUrl, Base62.EncodeId(st.store.nextUrlId)) !in st.redis
    requires env2.up
    ensures var r1 := CreateGeneratedUrl(st, env, codec, url, userId);
            GetOriginalUrl(r1.state, env2, codec, r1.result.value).result == Ok(url)
  {
    var r1 := CreateGeneratedUrl(st, env, codec, url, userId);
    var id := st.store.nextUrlId;
    var code := Base62.EncodeId(id);
    assert codec.parse(codec.build(code, false)) == ParsedAlias(code, false);
    Base62.EncodeIdRoundTrip(id);
    var row := R.GeneratedUrl(id, url, userId, env.now);
    assert row in r1.state.store.urls;
    var found := R.FindGeneratedUrlById(r1.state.store, id);
    R.GeneratedIdsUnique(r1.state.store, found.value, row);
  }

  /** A freshly created custom alias resolves to its URL under the same
      conditions. */
  lemma ResolveAfterCustomShorten(st: State, env: Env, env2: Env, cfg: Config, codec: AliasCodec, url: string,
                                  user: User, code: string)
    requires ParseInvertsBuild(codec)
    requires R.Valid(st.store)
    requires C.GenerateKey(C.CustomUrl, code) !in st.redis
    requires CreateCustomUrl(st, env, cfg, codec, url, user, code).result.Ok?
    requires env2.up
    ensures var r1 := CreateCustomUrl(st, env, cfg, codec, url, user, code);
            GetOriginalUrl(r1.state, env2, codec, r1.result.value).result == Ok(url)
  {
  }

  /** An uncached generated code that decodes below the first identity value
      can never resolve: no row has such an id. */
  lemma UncachedLowCodeInvalid(st: State, env: Env, codec: AliasCodec, alias: string)
    requires R.Valid(st.store) && env.up
    requires !codec.parse(alias).isCustom
    requires !CacheHit(C.Get(st.redis, C.GeneratedUrl, codec.parse(alias).shortCode, true, env.now))
    requires Base62.DecodeId(codec.parse(alias).shortCode) < R.GeneratedIdStart
    ensures GetOriginalUrl(st, env, codec, alias).result == Err(Url(InvalidShortenedUrl))
  {
  }

  /** In particular an uncached generated code with any character outside
      the alphabet yields `InvalidShortenedUrl`, since it decodes to 0. */
  lemma UncachedBadCharInvalid(st: State, env: Env, codec: AliasCodec, alias: string, i: int)
    requires R.Valid(st.store) && env.up
    requires !codec.parse(alias).isCustom
    requires !CacheHit(C.Get(st.redis, C.GeneratedUrl, codec.parse(alias).shortCode, true, env.now))
    requires 0 <= i < |codec.parse(alias).shortCode| && !Base62.IsAlphabetChar(codec.parse(alias).shortCode[i])
    ensures GetOriginalUrl(st, env, codec, alias).result == Err(Url(InvalidShortenedUrl))
  {
  }

  /** After a generated URL is deleted through its own alias, that alias no
      longer resolves. */
  lemma ResolveAfterGeneratedDelete(st: State, env: Env, env2: Env, codec: AliasCodec, id: int, userId: int, alias: string)
    requires R.Valid(st.store) && 0 <= id <= Numbers.MaxSafeInteger
    requires codec.parse(alias) == ParsedAlias(Base62.EncodeId(id), false)
    requires DeleteUrl(st, env, codec, id, userId, alias).result.Ok?
    requires env2.up
    ensures GetOriginalUrl(DeleteUrl(st, env, codec, id, userId, alias).state, env2, codec, alias).result
            == Err(Url(InvalidShortenedUrl))
  {
    var r := DeleteUrl(st, env, codec, id, userId, alias);
    Base62.EncodeIdRoundTrip(id);
    var gone := R.FindGeneratedUrlById(st.store, id).value;
    var found := R.FindGeneratedUrlById(r.state.store, id);
    if found.Some? {
      R.GeneratedIdsUnique(st.store, found.value, gone);
    }
  }

  /** After a custom URL is deleted through an alias naming its own code,
      that alias no longer resolves. */
  lemma ResolveAfterCustomDelete(st: State, env: Env, env2: Env, codec: AliasCodec, id: int, userId: int, alias: string)
    requires R.Valid(st.store)
    requires codec.parse(alias).isCustom
    requires R.FindCustomUrlById(st.store, id, userId).Some?
    requires codec.parse(alias).shortCode == R.FindCustomUrlById(st.store, id, userId).value.customCode
    requires DeleteUrl(st, env, codec, id, userId, alias).result.Ok?
    requires env2.up
    ensures GetOriginalUrl(DeleteUrl(st, env, codec, id, userId, alias).state, env2, codec, alias).result
            == Err(Url(InvalidShortenedUrl))
  {
  }

  /** `deleteUrl` trusts the alias: given the id of one custom row and the
      alias of another code, it deletes the row and evicts the other code's
      cache entry, leaving the deleted row's own entry resolvable. */
  lemma DeleteTrustsAlias(st: State, env: Env, codec: AliasCodec, id: int, userId: int, alias: string, ownCode: string)
    requires env.up && codec.parse(alias).isCustom
    requires R.FindCustomUrlById(st.store, id, userId).Some?
    requires ownCode == R.FindCustomUrlById(st.store, id, userId).value.customCode
    requires codec.parse(alias).shortCode != ownCode
    requires CacheHit(C.Get(st.redis, C.CustomUrl, ownCode, true, env.now))
    ensures var r := DeleteUrl(st, env, codec, id, userId, alias);
            && r.result.Ok?
            && (forall x | x in r.state.store.customUrls :: !(x.id == id && x.userId == userId))
            && C.Get(r.state.redis, C.CustomUrl, ownCode, true, env.now) == C.Get(st.redis, C.CustomUrl, ownCode, true, env.now)
  {
  }

  /** Updating a custom URL leaves its cached destination in place, so a
      resolve that hits the cache still returns the old URL. */
  lemma UpdateLeavesStaleCache(st: State, env: Env, env2: Env, codec: AliasCodec, id: int, userId: int, url: string, alias: string)
    requires env2.up && codec.parse(alias).isCustom
    requires CacheHit(C.Get(st.redis, C.CustomUrl, codec.parse(alias).shortCode, true, env2.now))
    ensures var r := UpdateCustomUrl(st, env, codec, id, userId, url);
            GetOriginalUrl(r.state, env2, codec, alias).result == GetOriginalUrl(st, env2, codec, alias).result
  {
  }

  /** Every listed generated row carries a short code that decodes back to
      its id. */
  lemma ListedCodesDecode(st: State, codec: AliasCodec, q: R.UrlQuery, userId: int)
    requires q.page >= 1 && q.limit >= 0
    requires R.Valid(st.store) && st.store.nextUrlId <= Numbers.MaxSafeInteger + 1
    ensures forall v | v in GetUrlsOfUser(st, codec, q, userId).urls :: Base62.DecodeId(v.shortCode) == v.id
  {
    forall v | v in GetUrlsOfUser(st, codec, q, userId).urls
      ensures Base62.DecodeId(v.shortCode) == v.id
    {
      var x :| x in st.store.urls && x.userId == userId && v.id == x.id && v.originalUrl == x.url
               && v.shortCode == Base62.EncodeId(x.id) && v.shortenedUrl == codec.build(v.shortCode, false);
      Base62.EncodeIdRoundTrip(x.id);
    }
  }
}

=== FILE: error_handler.dfy ===
/** The API's error handler (`plugins/error-handler.plugin.ts`): how a
    thrown error becomes a status code and a response body. */
module ErrorHandler {
  import opened Wrappers
  import opened ShortnErrors
  import Strings
  import E = UrlEngine
  import R = UrlRepository

  /** One item of a schema validation failure. */
  datatype ValidationItem = ValidationItem(instancePath: string, message: Option<string>)

  /** A thrown error: the `validation` array Fastify attaches to schema
      failures, if any, and the failure behind it, if it is one the model
      knows. A `Url` or `Cache` failure is a `ShortnError`; a `Database`
      failure, or none, is any other error. */
  datatype Thrown = Thrown(validation: Option<seq<ValidationItem>>, failure: Option<Failure>)

  datatype Detail = Detail(field: string, message: string)

  datatype ErrorBody = ErrorBody(message: string, details: Option<seq<Detail>>)

  /** The reply: status code and the body's `error` object; `success` is
      always false. */
  datatype Reply = Reply(status: int, error: ErrorBody)

  const ValidationFailed: string := "Validation failed"

  const InternalServerError: string := "Internal Server Error"

  const NullBodyMessage: string := "expected object, received null"

  predicate IsShortnError(f: Failure) {
    f.Url? || f.Cache?
  }

  /** `instancePath.substring(1)` */
  function DropLeadingChar(s: string): (r: string)
    ensures |s| > 0 ==> r == s[1..]
    ensures |s| == 0 ==> r == ""
  {
    if |s| == 0 then "" else s[1..]
  }

  /** The detail reported for one validation item. */
  function ToDetail(item: ValidationItem): (d: Detail)
    ensures item.message.Some? && item.message.value != "" ==> d.message == item.message.value
    ensures item.message.None? || item.message.value == "" ==> d.message == ValidationFailed
    ensures DropLeadingChar(item.instancePath) != "" ==> d.field == DropLeadingChar(item.instancePath)
    ensures DropLeadingChar(item.instancePath) == "" ==>
              (d.field == "body" <==> item.message.Some? && Strings.Contains(item.message.value, NullBodyMessage))
    ensures d.field == "" || d.field == "body" || d.field == DropLeadingChar(item.instancePath)
  {
    var path := DropLeadingChar(item.instancePath);
    var field :=
      if path == "" && item.message.Some? && Strings.Contains(item.message.value, NullBodyMessage) then "body"
      else path;
    var message := if item.message.Some? && item.message.value != "" then item.message.value else ValidationFailed;
    Detail(field, message)
  }

  /** The handler. `clientUrl` feeds the one message that names it. */
  function Handle(e: Thrown, clientUrl: string): (r: Reply)
    ensures e.validation.Some? ==>
              && r.status == 400 && r.error.message == ValidationFailed
              && r.error.details.Some? && |r.error.details.value| == |e.validation.value|
              && forall i | 0 <= i < |e.validation.value| :: r.error.details.value[i] == ToDetail(e.validation.value[i])
    ensures e.validation.None? && e.failure.Some? && e.failure.value.Url? ==>
              r == Reply(UrlStatusCode(e.failure.value.url), ErrorBody(UrlMessage(e.failure.value.url, clientUrl), None))
    ensures e.validation.None? && e.failure.Some? && e.failure.value.Cache? ==>
              r == Reply(CacheStatusCode(e.failure.value.cache), ErrorBody(CacheMessage(e.failure.value.cache), None))
    ensures e.validation.None? && (e.failure.None? || !IsShortnError(e.failure.value)) ==>
              r == Reply(500, ErrorBody(InternalServerError, None))
  {
    if e.validation.Some? then
      var items := e.validation.value;
      Reply(400, ErrorBody(ValidationFailed, Some(seq(|items|, i requires 0 <= i < |items| => ToDetail(items[i])))))
    else if e.failure.Some? && e.failure.value.Url? then
      Reply(UrlStatusCode(e.failure.value.url), ErrorBody(UrlMessage(e.failure.value.url, clientUrl), None))
    else if e.failure.Some? && e.failure.value.Cache? then
      Reply(CacheStatusCode(e.failure.value.cache), ErrorBody(CacheMessage(e.failure.value.cache), None))
    else
      Reply(500, ErrorBody(InternalServerError, None))
  }

  /** A status code outside 400..599 never comes from the handler unless an
      error class was built with one. */
  lemma HandleStatusKnown(e: Thrown, clientUrl: string)
    requires e.failure.Some? && e.failure.value.Url? ==> !e.failure.value.url.Other?
    requires e.failure.Some? && e.failure.value.Cache? ==> !e.failure.value.cache.OtherCacheError?
    ensures Handle(e, clientUrl).status in {400, 403, 404, 409, 500}
  {
  }

  /** Losing the race for a free custom code: the rival's row lands between
      the availability check and the insert, the insert violates the unique
      constraint, and the client receives a 500 rather than the 409 of
      `CustomCodeAlreadyInUse`. */
  lemma CustomCodeRaceIs500(st: E.State, env: E.Env, cfg: E.Config, codec: E.AliasCodec, url: string,
                            user: E.User, code: string, clientUrl: string)
    requires user.email != cfg.serviceAccountEmail
    requires R.FindCustomUrlByCustomCode(st.store, code).None?
    requires env.rival.Some?
    ensures var r := E.CreateCustomUrl(st, env, cfg, codec, url, user, code);
            && r.result == Err(Database(UniqueViolation))
            && Handle(Thrown(None, Some(r.result.error)), clientUrl) == Reply(500, ErrorBody(InternalServerError, None))
  {
  }

  /** Without the race, the same request is a 409. */
  lemma CustomCodeTakenIs409(st: E.State, env: E.Env, cfg: E.Config, codec: E.AliasCodec, url: string,
                             user: E.User, code: string, clientUrl: string)
    requires user.email != cfg.serviceAccountEmail
    requires R.FindCustomUrlByCustomCode(st.store, code).Some?
    ensures var r := E.CreateCustomUrl(st, env, cfg, codec, url, user, code);
            Handle(Thrown(None, Some(r.result.error)), clientUrl).status == 409
  {
  }
}

=== FILE: errors.dfy ===
/** The error classes the URL engine throws, with the HTTP status code and
    message each one carries (`errors/url.error.ts`, `errors/cache.error.ts`,
    `errors/base.error.ts`). */
module ShortnErrors {
  import opened Wrappers

  /** `UrlError` and its subclasses. `Other` is a plain `new UrlError(...)`,
      whose status code defaults to 400. */
  datatype UrlError =
    | InvalidUrl
    | InvalidShortenedUrl
    | CustomCodeAlreadyInUse
    | UrlNotFound
    | CustomUrlNotFound
    | InvalidUrlProtocol
    | InvalidShortenedUrlDomain
    | InvalidCustomCode
    | CannotCreateCustomUrlWithServiceAccount
    | Other(message: string, statusCode: Option<int>)

  /** `CacheError` and its subclasses; status code defaults to 400. */
  datatype CacheError =
    | CacheConnectionError
    | CacheServiceError
    | OtherCacheError(message: string, statusCode: Option<int>)

  /** Errors raised by the database driver: a unique-constraint violation,
      and Kysely's `NoResultError` from `executeTakeFirstOrThrow`. Neither is
      a `ShortnError`. */
  datatype DbError = UniqueViolation | NoResult

  /** Anything the engine can throw. */
  datatype Failure =
    | Url(url: UrlError)
    | Cache(cache: CacheError)
    | Database(db: DbError)

  /** The `statusCode` of a URL error. */
  function UrlStatusCode(e: UrlError): (code: int)
    ensures e.Other? ==> code == e.statusCode.GetOr(400)
    ensures !e.Other? ==> (code == 409 <==> e.CustomCodeAlreadyInUse?)
    ensures !e.Other? ==> (code == 404 <==> e.UrlNotFound? || e.CustomUrlNotFound?)
    ensures !e.Other? ==> (code == 403 <==> e.CannotCreateCustomUrlWithServiceAccount?)
    ensures !e.Other? ==> code in {400, 403, 404, 409}
  {
    match e
    case CustomCodeAlreadyInUse => 409
    case UrlNotFound => 404
    case CustomUrlNotFound => 404
    case CannotCreateCustomUrlWithServiceAccount => 403
    case Other(_, status) => status.GetOr(400)
    case _ => 400
  }

  /** The `message` of a URL error; the domain error names the client URL. */
  function UrlMessage(e: UrlError, clientUrl: string): string {
    match e
    case InvalidUrl => "Invalid URL"
    case InvalidShortenedUrl => "Invalid Shortened URL"
    case CustomCodeAlreadyInUse => "Custom code already in use"
    case UrlNotFound => "URL not found"
    case CustomUrlNotFound => "Custom URL not found"
    case InvalidUrlProtocol => "URL must use HTTPS protocol"
    case InvalidShortenedUrlDomain => "URL must be a valid shortened URL from " + clientUrl
    case InvalidCustomCode => "Custom code can only contain letters, numbers, underscores, and hyphens."
    case CannotCreateCustomUrlWithServiceAccount => "Custom URLs cannot be created without authentication."
    case Other(message, _) => message
  }

  /** The `statusCode` of a cache error. */
  function CacheStatusCode(e: CacheError): (code: int)
    ensures !e.OtherCacheError? ==> code == 500
    ensures e.OtherCacheError? ==> code == e.statusCode.GetOr(400)
  {
    match e
    case OtherCacheError(_, status) => status.GetOr(400)
    case _ => 500
  }

  function CacheMessage(e: CacheError): string {
    match e
    case CacheConnectionError => "Unable to connect to cache"
    case CacheServiceError => "Cache service error"
    case OtherCacheError(message, _) => message
  }
}

=== FILE: log_plugin.dfy ===
/** Request logging (`plugins/log.plugin.ts`): redaction of sensitive
    fields in logged bodies, which requests have their body logged, and the
    log level of a response. */
module LogPlugin {
  import opened Wrappers
  import Strings

  /** A JSON-like request body. An object is its entries in
      `Object.entries` order. */
  datatype Payload =
    | JUndefined
    | JNull
    | JBool(b: bool)
    | JNum(n: int)
    | JStr(s: string)
    | JArray(items: seq<Payload>)
    | JObject(entries: seq<Field>)

  datatype Field = Field(key: string, value: Payload)

  const Redacted: string := "[REDACTED]"

  /** `SENSITIVE_FIELDS` */
  const SensitiveFields: seq<string> :=
    ["password", "currentpassword", "newpassword", "token", "accesstoken", "refreshtoken", "apikey", "key"]

  /** `typeof v === "object" && v !== null` */
  predicate IsObject(p: Payload) {
    p.JArray? || p.JObject?
  }

  /** Some listed field occurs in the lower-cased key. */
  predicate IsSensitive(key: string) {
    exists i | 0 <= i < |SensitiveFields| :: Strings.Contains(Strings.AsciiLower(key), SensitiveFields[i])
  }

  /** `sanitizePayload` */
  function Sanitize(p: Payload): (r: Payload)
    ensures !IsObject(p) ==> r == p
    ensures p.JArray? ==> r.JArray? && |r.items| == |p.items|
    ensures p.JObject? ==> r.JObject? && |r.entries| == |p.entries|
                           && forall i | 0 <= i < |p.entries| :: r.entries[i].key == p.entries[i].key
    ensures p.JObject? ==> forall i | 0 <= i < |p.entries| && IsSensitive(p.entries[i].key) ::
                             r.entries[i].value == JStr(Redacted)
    ensures p.JObject? ==> forall i | 0 <= i < |p.entries| && !IsSensitive(p.entries[i].key) && !IsObject(p.entries[i].value) ::
                             r.entries[i].value == p.entries[i].value
    decreases p
  {
    match p
    case JArray(items) =>
      JArray(seq(|items|, i requires 0 <= i < |items| => Sanitize(items[i])))
    case JObject(entries) =>
      JObject(seq(|entries|, i requires 0 <= i < |entries| => SanitizeField(entries[i])))
    case _ => p
  }

  /** One entry of an object: redacted, sanitised recursively, or copied. */
  function SanitizeField(f: Field): (r: Field)
    ensures r.key == f.key
    decreases f
  {
    if IsSensitive(f.key) then Field(f.key, JStr(Redacted))
    else if IsObject(f.value) then Field(f.key, Sanitize(f.value))
    else f
  }

  /** No value under a sensitive key survives, at any depth: every entry of
      every object in the result either has a non-sensitive key or holds
      the redaction marker. */
  predicate Clean(p: Payload)
    decreases p
  {
    match p
    case JArray(items) => forall i | 0 <= i < |items| :: Clean(items[i])
    case JObject(entries) =>
      forall i | 0 <= i < |entries| ::
        if IsSensitive(entries[i].key) then entries[i].value == JStr(Redacted) else Clean(entries[i].value)
    case _ => true
  }

  /** The result of sanitising is clean. */
  lemma {:induction false} SanitizeClean(p: Payload)
    ensures Clean(Sanitize(p))
    decreases p
  {
    match p
    case JArray(items) =>
      forall i | 0 <= i < |items| ensures Clean(Sanitize(p).items[i]) {
        SanitizeClean(items[i]);
      }
    case JObject(entries) =>
      forall i | 0 <= i < |entries| && !IsSensitive(entries[i].key)
        ensures Clean(Sanitize(p).entries[i].value)
      {
        SanitizeClean(entries[i].value);
      }
    case _ =>
  }

  /** `r` is `p` with the value under every sensitive key, at any depth,
      replaced by the redaction marker, and nothing else changed: the same
      shape, the same keys in the same order, the same scalars. */
  predicate RedactionOf(p: Payload, r: Payload)
    decreases p
  {
    match p
    case JArray(items) =>
      && r.JArray? && |r.items| == |items|
      && forall i | 0 <= i < |items| :: RedactionOf(items[i], r.items[i])
    case JObject(entries) =>
      && r.JObject? && |r.entries| == |entries|
      && forall i | 0 <= i < |entries| ::
           && r.entries[i].key == entries[i].key
           && if IsSensitive(entries[i].key) then r.entries[i].value == JStr(Redacted)
              else RedactionOf(entries[i].value, r.entries[i].value)
    case _ => r == p
  }

  /** Sanitising computes the redaction of a payload, and nothing else is
      one: `r` is a redaction of `p` exactly when `r` is `Sanitize(p)`. */
  lemma {:induction false} SanitizeIsRedaction(p: Payload, r: Payload)
    ensures RedactionOf(p, r) <==> r == Sanitize(p)
    decreases p
  {
    match p
    case JArray(items) =>
      var s := Sanitize(p).items;
      forall i | 0 <= i < |items| ensures RedactionOf(items[i], s[i]) {
        assert s[i] == Sanitize(items[i]);
        SanitizeIsRedaction(items[i], s[i]);
      }
      if RedactionOf(p, r) {
        forall i | 0 <= i < |items| ensures r.items[i] == s[i] {
          assert s[i] == Sanitize(items[i]);
          SanitizeIsRedaction(items[i], r.items[i]);
        }
        assert r.items == s;
      }
    case JObject(entries) =>
      var s := Sanitize(p).entries;
      forall i | 0 <= i < |entries| && !IsSensitive(entries[i].key)
        ensures RedactionOf(entries[i].value, s[i].value)
      {
        assert s[i] == SanitizeField(entries[i]);
        SanitizeIsRedaction(entries[i].value, s[i].value);
      }
      if RedactionOf(p, r) {
        forall i | 0 <= i < |entries| ensures r.entries[i] == s[i] {
          assert s[i] == SanitizeField(entries[i]);
          if !IsSensitive(entries[i].key) {
            SanitizeIsRedaction(entries[i].value, r.entries[i].value);
          }
        }
        assert r.entries == s;
      }
    case _ =>
  }

  /** Sanitising twice gives what sanitising once gives. */
  lemma {:induction false} SanitizeIdempotent(p: Payload)
    ensures Sanitize(Sanitize(p)) == Sanitize(p)
    decreases p
  {
    match p
    case JArray(items) =>
      var once := Sanitize(p).items;
      forall i | 0 <= i < |items| ensures Sanitize(once[i]) == once[i] {
        SanitizeIdempotent(items[i]);
      }
      assert Sanitize(Sanitize(p)).items == once;
    case JObject(entries) =>
      var once := Sanitize(p).entries;
      forall i | 0 <= i < |entries| ensures SanitizeField(once[i]) == once[i] {
        var f := entries[i];
        assert once[i] == SanitizeField(f);
        if !IsSensitive(f.key) && IsObject(f.value) {
          SanitizeIdempotent(f.value);
          assert once[i] == Field(f.key, Sanitize(f.value));
        }
      }
      assert Sanitize(Sanitize(p)).entries == once;
    case _ =>
  }

  /** JavaScript truthiness of a request body. */
  predicate Truthy(p: Payload) {
    match p
    case JUndefined => false
    case JNull => false
    case JBool(b) => b
    case JNum(n) => n != 0
    case JStr(s) => s != ""
    case _ => true
  }

  /** The `preHandler` filter: a body is logged only for a write method with
      a truthy body. */
  predicate ShouldLogBody(httpMethod: string, body: Payload) {
    Truthy(body) && httpMethod in ["POST", "PUT", "PATCH"]
  }

  datatype LogLevel = Error | Warn | Info

  /** The level of the response log line. */
  function ResponseLogLevel(status: int): (l: LogLevel)
    ensures l == Error <==> status >= 500
    ensures l == Warn <==> 400 <= status < 500
    ensures l == Info <==> status < 400
  {
    if status >= 500 then Error
    else if status >= 400 then Warn
    else Info
  }

  /** Every key holding `"key"` in any letter case is sensitive, which covers
      `apikey` and every other listed field ending in it. */
  lemma KeySubstringSensitive(k: string)
    requires Strings.Contains(Strings.AsciiLower(k), "key")
    ensures IsSensitive(k)
  {
    assert SensitiveFields[7] == "key";
  }

  /** A GET request never has its body logged, and neither does a write
      with an empty body. */
  lemma BodyLoggingFilter(httpMethod: string, body: Payload)
    ensures httpMethod == "GET" ==> !ShouldLogBody(httpMethod, body)
    ensures body == JUndefined || body == JNull || body == JStr("") ==> !ShouldLogBody(httpMethod, body)
    ensures httpMethod in ["POST", "PUT", "PATCH"] && IsObject(body) ==> ShouldLogBody(httpMethod, body)
  {
  }
}

=== FILE: migrations.dfy ===
/** The migration file-name prefix (`kysely.config.ts`): the count of
    existing files plus one, zero-padded to three digits, then `_`. */
module MigrationPrefix {
  import Strings

  /** `${(files.length + 1).toString().padStart(3, "0")}_` */
  function Prefix(fileCount: nat): (p: string)
    ensures |p| >= 4 && p[|p| - 1] == '_'
    ensures forall i :: 0 <= i < |p| - 1 ==> '0' <= p[i] <= '9'
  {
    Strings.PadStart(Strings.NatToString(fileCount + 1), 3, '0') + "_"
  }

  /** The digits before `_` parse back to the next migration's number. */
  lemma PrefixParses(fileCount: nat)
    ensures var p := Prefix(fileCount);
            Strings.ParseDecimal(p[..|p| - 1]) == fileCount + 1
  {
    var s := Strings.NatToString(fileCount + 1);
    var padded := Strings.PadStart(s, 3, '0');
    assert Prefix(fileCount)[..|Prefix(fileCount)| - 1] == padded;
    var z := padded[..|padded| - |s|];
    assert padded == z + s;
    Strings.ParseLeadingZeros(z, s);
    Strings.ParseNatToString(fileCount + 1);
  }

  /** Up to 998 existing files the prefix is exactly four characters. */
  lemma PrefixWidth(fileCount: nat)
    ensures fileCount <= 998 <==> |Prefix(fileCount)| == 4
  {
    Strings.NatToStringLength(fileCount + 1);
  }

  /** Padding never truncates: from 999 files on, the number has more than
      three digits and all of them are kept. */
  lemma PrefixNeverTruncates(fileCount: nat)
    requires fileCount >= 999
    ensures var p := Prefix(fileCount);
            |p| > 4 && p[..|p| - 1] == Strings.NatToString(fileCount + 1)
  {
    Strings.NatToStringLength(fileCount + 1);
  }
}

=== FILE: numbers.dfy ===
/** JavaScript number limits the model refers to. */
module Numbers {

  /** `Number.MAX_SAFE_INTEGER`, 2^53 - 1: the largest integer an IEEE
      double represents together with all smaller ones. */
  const MaxSafeInteger: nat := 0x1F_FFFF_FFFF_FFFF
}

=== FILE: pagination.dfy ===
/** The pagination block the listing endpoints return
    (`controllers/url.controller.ts`): `totalPages` is the ceiling of
    `total / limit`, and `hasNext`/`hasPrev` compare the page against it. */
module Pagination {
  import opened Wrappers
  import R = UrlRepository

  datatype PageMeta = PageMeta(
    page: int, limit: int, total: nat, totalPages: nat,
    hasNext: bool, hasPrev: bool, sortBy: string, sortOrder: string)

  /** `Math.ceil(total / limit)` for a positive integer `limit`. */
  function CeilDiv(total: nat, limit: int): (n: nat)
    requires limit >= 1
    ensures n * limit >= total
    ensures n > 0 ==> (n - 1) * limit < total
    ensures n == 0 <==> total == 0
  {
    (total + limit - 1) / limit
  }

  /** The `pagination` object of a listing response. */
  function Paginate(page: int, limit: int, total: nat, sortBy: string, sortOrder: string): (m: PageMeta)
    requires limit >= 1
    ensures m.page == page && m.limit == limit && m.total == total
    ensures m.sortBy == sortBy && m.sortOrder == sortOrder
    ensures m.hasNext <==> page * limit < total
    ensures m.hasPrev <==> page > 1
    ensures total == 0 ==> m.totalPages == 0 && (page >= 0 ==> !m.hasNext)
  {
    var totalPages := CeilDiv(total, limit);
    PageNextIff(page, limit, total);
    PageMeta(page, limit, total, totalPages, page < totalPages, page > 1, sortBy, sortOrder)
  }

  /** `page < ceil(total / limit)` holds exactly when rows remain past the
      end of `page`. */
  lemma PageNextIff(page: int, limit: int, total: nat)
    requires limit >= 1
    ensures page < CeilDiv(total, limit) <==> page * limit < total
  {
  }

  /** The generated listing: `hasNext` is true exactly when the next page of
      the same query returns at least one row. */
  lemma GeneratedHasNextIffNextPage(st: R.Store, q: R.UrlQuery, userId: int, sortBy: string, sortOrder: string)
    requires q.page >= 1 && q.limit >= 1
    ensures var m := Paginate(q.page, q.limit, R.CountGeneratedUrlsByUserId(st, q.search, userId), sortBy, sortOrder);
            m.hasNext <==> |R.FindAllGeneratedUrlsByUserId(st, q.(page := q.page + 1), userId)| > 0
  {
  }

  /** The same for the custom listing. */
  lemma CustomHasNextIffNextPage(st: R.Store, q: R.UrlQuery, userId: int, sortBy: string, sortOrder: string)
    requires q.page >= 1 && q.limit >= 1
    ensures var m := Paginate(q.page, q.limit, R.CountCustomUrlsByUserId(st, q.search, userId), sortBy, sortOrder);
            m.hasNext <==> |R.FindAllCustomUrlsByUserId(st, q.(page := q.page + 1), userId)| > 0
  {
  }
}

=== FILE: rate_limit.dfy ===
/** Per-user rate limiting (`plugins/rate-limit.plugin.ts`): the request
    limit per window as a function of the request, and the bucket key. */
module RateLimit {
  import opened Wrappers
  import Strings
  import Numbers

  /** `timeWindow`: one minute, in milliseconds. */
  const TimeWindowMs: int := 1000 * 60

  const ApiKeyMax: int := 5000
  const AccessTokenMax: int := 2500
  const DefaultMax: int := 1000

  /** The authenticated caller, as the auth plugin decorates the request. */
  datatype RequestUser = RequestUser(id: int, isServiceAccount: bool, authenticatedWith: Option<string>)

  datatype Request = Request(url: string, user: Option<RequestUser>, ip: string)

  /** `max`: the root path and the service account are unlimited
      (`Number.MAX_SAFE_INTEGER`); otherwise the limit follows how the user
      authenticated. */
  function Max(req: Request): (n: int)
    ensures req.url == "/" ==> n == Numbers.MaxSafeInteger
    ensures req.url != "/" && req.user.Some? && req.user.value.isServiceAccount ==> n == Numbers.MaxSafeInteger
    ensures req.url != "/" && (req.user.None? || !req.user.value.isServiceAccount) ==>
              n == (if req.user.Some? && req.user.value.authenticatedWith == Some("apiKey") then ApiKeyMax
                    else if req.user.Some? && req.user.value.authenticatedWith == Some("accessToken") then AccessTokenMax
                    else DefaultMax)
  {
    if req.url == "/" then Numbers.MaxSafeInteger
    else if req.user.Some? && req.user.value.isServiceAccount then Numbers.MaxSafeInteger
    else match req.user
      case Some(u) =>
        if u.authenticatedWith == Some("apiKey") then ApiKeyMax
        else if u.authenticatedWith == Some("accessToken") then AccessTokenMax
        else DefaultMax
      case None => DefaultMax
  }

  /** Every limit is one of the four values, and an anonymous request off the
      root path gets the smallest. */
  lemma MaxRange(req: Request)
    ensures Max(req) in {Numbers.MaxSafeInteger, ApiKeyMax, AccessTokenMax, DefaultMax}
    ensures req.url != "/" && req.user.None? ==> Max(req) == DefaultMax
    ensures Max(req) >= DefaultMax
  {
  }

  /** `keyGenerator`: one bucket per user, otherwise one per IP address. */
  function Key(req: Request): (k: string)
    ensures req.user.Some? ==> k == "user-" + Strings.IntToString(req.user.value.id)
    ensures req.user.None? ==> k == req.ip
  {
    match req.user
    case Some(u) => "user-" + Strings.IntToString(u.id)
    case None => req.ip
  }

  /** The request as the limiter sees it. The plugin runs on the
      `onRequest` hook, before the `preHandler` that authenticates the caller
      and sets `user`, so no request carries a user at that point. */
  function OnRequest(url: string, ip: string): (req: Request)
    ensures req.url == url && req.ip == ip && req.user.None?
  {
    Request(url, None, ip)
  }

  /** As the plugin is wired, every request off the root path gets the
      default limit in the bucket of its IP address, whoever sends it and
      however it authenticates. */
  lemma AsWired(url: string, ip: string)
    ensures Max(OnRequest(url, ip)) == (if url == "/" then Numbers.MaxSafeInteger else DefaultMax)
    ensures Key(OnRequest(url, ip)) == ip
  {
  }

  /** The rendering starts with a minus sign exactly for negative numbers. */
  lemma IntToStringSign(i: int)
    ensures |Strings.IntToString(i)| > 0
    ensures Strings.IntToString(i)[0] == '-' <==> i < 0
  {
  }

  lemma NatToStringInjective(x: nat, y: nat)
    requires Strings.NatToString(x) == Strings.NatToString(y)
    ensures x == y
  {
    Strings.ParseNatToString(x);
    Strings.ParseNatToString(y);
  }

  /** Decimal rendering is injective. */
  lemma IntToStringInjective(a: int, b: int)
    requires Strings.IntToString(a) == Strings.IntToString(b)
    ensures a == b
  {
    IntToStringSign(a);
    IntToStringSign(b);
    if a < 0 {
      assert Strings.IntToString(a)[1..] == Strings.NatToString(-a);
      assert Strings.IntToString(b)[1..] == Strings.NatToString(-b);
      NatToStringInjective(-a, -b);
    } else {
      NatToStringInjective(a, b);
    }
  }

  /** Two users share a bucket only if they are the same user id. */
  lemma UserKeysDistinct(r1: Request, r2: Request)
    requires r1.user.Some? && r2.user.Some?
    requires Key(r1) == Key(r2)
    ensures r1.user.value.id == r2.user.value.id
  {
    var p := "user-";
    assert Key(r1)[|p|..] == Strings.IntToString(r1.user.value.id);
    assert Key(r2)[|p|..] == Strings.IntToString(r2.user.value.id);
    IntToStringInjective(r1.user.value.id, r2.user.value.id);
  }
}

/** The older global rate limiter (`plugins/rateLimit.ts`): 100 requests a
    minute, keyed by bearer token or IP address. */
module GlobalRateLimit {
  import opened Wrappers
  import Strings

  const GlobalMax: int := 100

  const TimeWindowMs: int := 1000 * 60

  const BearerPrefix: string := "Bearer "

  /** `keyGenerator`: the token after `"Bearer "`, else the IP address. */
  function Key(authorization: Option<string>, ip: string): (k: string)
    ensures authorization.Some? && Strings.IsPrefix(BearerPrefix, authorization.value) ==>
              k == authorization.value[7..]
    ensures authorization.None? || !Strings.IsPrefix(BearerPrefix, authorization.value) ==> k == ip
  {
    if authorization.Some? && Strings.IsPrefix(BearerPrefix, authorization.value) then
      authorization.value[7..]
    else ip
  }

  /** A bearer header's bucket is exactly its token. */
  lemma BearerKeyIsToken(token: string, ip: string)
    ensures Key(Some(BearerPrefix + token), ip) == token
  {
  }

  /** The prefix is case-sensitive and needs its space: other schemes and
      spellings fall back to the IP address. */
  lemma NonBearerUsesIp(header: string, ip: string)
    requires |header| >= 7 && (header[..7] == "bearer " || header[..7] == "Bearer:" || header[..6] == "Basic ")
    ensures Key(Some(header), ip) == ip
  {
    if header[..7] == "bearer " {
      assert header[0] == 'b';
    } else if header[..7] == "Bearer:" {
      assert header[6] == ':';
    } else {
      assert header[1] == 'a';
    }
  }
}

=== FILE: repository.dfy ===
/** The two URL tables and `UrlRepository`'s queries over them.

    `shortn.urls` holds generated URLs: an always-generated identity `id`
    that restarts at 10000, a non-null `url`, a non-null `created_at`
    defaulting to the insert time, and (migration 006) a non-null `user_id`
    that cascades on user deletion. `shortn.custom_urls` holds custom URLs:
    an always-generated identity `id`, a non-null cascading `user_id`, a
    non-null `url`, a non-null `custom_code` unique across all rows, and
    `created_at`/`updated_at`, the latter refreshed by a trigger on every
    update.

    Each table is a sequence in insertion order; identities are handed out
    from a counter that only grows, so an id is never reused. Queries
    without `ORDER BY` return rows in that order. `NOT NULL` columns are
    non-optional fields. */
module UrlRepository {
  import opened Wrappers
  import opened Seqs
  import opened ShortnErrors
  import Strings

  /** The identity restart value of `shortn.urls`. */
  const GeneratedIdStart: int := 10000

  /** The default first value of an identity column. */
  const CustomIdStart: int := 1

  datatype GeneratedUrl = GeneratedUrl(id: int, url: string, userId: int, createdAt: int)

  datatype CustomUrl = CustomUrl(
    id: int, userId: int, url: string, customCode: string, createdAt: int, updatedAt: int)

  /** Both tables and the next value of each identity sequence. */
  datatype Store = Store(
    urls: seq<GeneratedUrl>,
    customUrls: seq<CustomUrl>,
    nextUrlId: int,
    nextCustomUrlId: int)

  /** The fields `updateCustomUrl` may set; absent fields keep their value. */
  datatype CustomUrlPatch = CustomUrlPatch(url: Option<string>, customCode: Option<string>)

  /** The result of an `INSERT ... RETURNING id`. */
  datatype Inserted = Inserted(id: int, store: Store)

  /** The result of a `DELETE`: the number of rows removed. */
  datatype Deleted = Deleted(count: nat, store: Store)

  /** The result of an `UPDATE ... RETURNING *`. */
  datatype Updated = Updated(row: CustomUrl, store: Store)

  /** `page`, `limit` and `search` of a listing query. */
  datatype UrlQuery = UrlQuery(page: int, limit: int, search: Option<string>)

  function GeneratedId(r: GeneratedUrl): int { r.id }

  function CustomId(r: CustomUrl): int { r.id }

  /** The `UNIQUE` constraint on `custom_code`. */
  predicate CodesUnique(rows: seq<CustomUrl>) {
    forall a, b | a in rows && b in rows && a.customCode == b.customCode :: a == b
  }

  /** What the schema guarantees of every reachable database state. */
  predicate Valid(st: Store) {
    && GeneratedIdStart <= st.nextUrlId
    && (forall r | r in st.urls :: GeneratedIdStart <= r.id < st.nextUrlId)
    && Increasing(st.urls, GeneratedId)
    && CustomIdStart <= st.nextCustomUrlId
    && (forall r | r in st.customUrls :: CustomIdStart <= r.id < st.nextCustomUrlId)
    && Increasing(st.customUrls, CustomId)
    && CodesUnique(st.customUrls)
  }

  /** The freshly migrated database. */
  function EmptyStore(): (st: Store)
    ensures Valid(st)
    ensures st.urls == [] && st.customUrls == []
  {
    Store([], [], GeneratedIdStart, CustomIdStart)
  }

  // ------------------------------------------------------------------
  // Row predicates, one named function per `WHERE` clause.

  function HasGeneratedId(id: int): GeneratedUrl -> bool {
    (r: GeneratedUrl) => r.id == id
  }

  function GeneratedUrlOf(url: string, userId: int): GeneratedUrl -> bool {
    (r: GeneratedUrl) => r.url == url && r.userId == userId
  }

  function KeepGenerated(id: int, userId: int): GeneratedUrl -> bool {
    (r: GeneratedUrl) => !(r.id == id && r.userId == userId)
  }

  function OwnedCustom(id: int, userId: int): CustomUrl -> bool {
    (r: CustomUrl) => r.id == id && r.userId == userId
  }

  function KeepCustom(id: int, userId: int): CustomUrl -> bool {
    (r: CustomUrl) => !(r.id == id && r.userId == userId)
  }

  function HasCodeBesides(customCode: string, row: CustomUrl): CustomUrl -> bool {
    (r: CustomUrl) => r.customCode == customCode && r != row
  }

  function HasCode(customCode: string): CustomUrl -> bool {
    (r: CustomUrl) => r.customCode == customCode
  }

  /** `if (search)`: only a present, non-empty search string filters. */
  predicate SearchActive(search: Option<string>) {
    search.Some? && search.value != ""
  }

  /** `field ILIKE '%search%'`, as a case-insensitive substring test. */
  predicate ILike(field: string, search: string) {
    Strings.Contains(Strings.AsciiLower(field), Strings.AsciiLower(search))
  }

  /** The `WHERE` of the generated listing and its count. */
  predicate GeneratedListed(r: GeneratedUrl, userId: int, search: Option<string>) {
    r.userId == userId && (SearchActive(search) ==> ILike(r.url, search.value))
  }

  /** The `WHERE` of the custom listing and its count. */
  predicate CustomListed(r: CustomUrl, userId: int, search: Option<string>) {
    r.userId == userId
    && (SearchActive(search) ==> ILike(r.url, search.value) || ILike(r.customCode, search.value))
  }

  function GeneratedListedBy(userId: int, search: Option<string>): GeneratedUrl -> bool {
    (r: GeneratedUrl) => GeneratedListed(r, userId, search)
  }

  function CustomListedBy(userId: int, search: Option<string>): CustomUrl -> bool {
    (r: CustomUrl) => CustomListed(r, userId, search)
  }

  // ------------------------------------------------------------------
  // Generated URLs.

  /** `insertGeneratedUrl`: the database assigns the next identity value. */
  function InsertGeneratedUrl(st: Store, url: string, userId: int, now: int): (r: Inserted)
    ensures r.store.urls == st.urls + [GeneratedUrl(r.id, url, userId, now)]
    ensures r.store.customUrls == st.customUrls
    ensures r.store.nextCustomUrlId == st.nextCustomUrlId
    ensures r.store.nextUrlId > r.id
    ensures Valid(st) ==> Valid(r.store) && r.id >= GeneratedIdStart
    ensures Valid(st) ==> forall x | x in st.urls :: x.id != r.id
  {
    var id := st.nextUrlId;
    var row := GeneratedUrl(id, url, userId, now);
    Inserted(id, st.(urls := st.urls + [row], nextUrlId := id + 1))
  }

  /** `deleteGeneratedUrl`: removes the rows matching both `id` and `userId`. */
  function DeleteGeneratedUrl(st: Store, id: int, userId: int): (r: Deleted)
    ensures forall x | x in r.store.urls :: x in st.urls && !(x.id == id && x.userId == userId)
    ensures forall x | x in st.urls && !(x.id == id && x.userId == userId) :: x in r.store.urls
    ensures r.store.customUrls == st.customUrls
    ensures r.store.nextUrlId == st.nextUrlId && r.store.nextCustomUrlId == st.nextCustomUrlId
    ensures r.count == |st.urls| - |r.store.urls|
    ensures Valid(st) ==> Valid(r.store)
  {
    var rows := Filter(st.urls, KeepGenerated(id, userId));
    FilterIncreasing(st.urls, KeepGenerated(id, userId), GeneratedId);
    Deleted(|st.urls| - |rows|, st.(urls := rows))
  }

  /** `findGeneratedUrlById` */
  function FindGeneratedUrlById(st: Store, id: int): (r: Option<GeneratedUrl>)
    ensures r.Some? ==> r.value in st.urls && r.value.id == id
    ensures r.None? <==> forall x | x in st.urls :: x.id != id
  {
    FindFirst(st.urls, HasGeneratedId(id))
  }

  /** `findGeneratedUrlByUrl`: a row with both the given url and owner. */
  function FindGeneratedUrlByUrl(st: Store, url: string, userId: int): (r: Option<GeneratedUrl>)
    ensures r.Some? ==> r.value in st.urls && r.value.url == url && r.value.userId == userId
    ensures r.None? <==> forall x | x in st.urls :: !(x.url == url && x.userId == userId)
  {
    FindFirst(st.urls, GeneratedUrlOf(url, userId))
  }

  /** The rows the generated listing and its count select, in table order. */
  function GeneratedMatching(st: Store, userId: int, search: Option<string>): seq<GeneratedUrl>
  {
    Filter(st.urls, GeneratedListedBy(userId, search))
  }

  /** `findAllGeneratedUrlsByUserId` without its `ORDER BY`: the matching
      rows from position `(page-1)*limit`, at most `limit` of them. */
  function FindAllGeneratedUrlsByUserId(st: Store, q: UrlQuery, userId: int): (r: seq<GeneratedUrl>)
    requires q.page >= 1 && q.limit >= 0
    ensures |r| <= q.limit
    ensures forall x | x in r :: x in st.urls && GeneratedListed(x, userId, q.search)
    ensures forall i | 0 <= i < |r| ::
              && 0 <= (q.page - 1) * q.limit + i < |GeneratedMatching(st, userId, q.search)|
              && r[i] == GeneratedMatching(st, userId, q.search)[(q.page - 1) * q.limit + i]
  {
    Window(GeneratedMatching(st, userId, q.search), (q.page - 1) * q.limit, q.limit)
  }

  /** `countGeneratedUrlsByUserId` */
  function CountGeneratedUrlsByUserId(st: Store, search: Option<string>, userId: int): (n: nat)
    ensures n <= |st.urls|
    ensures n == 0 <==> forall x | x in st.urls :: !GeneratedListed(x, userId, search)
  {
    FilterEmptyIff(st.urls, GeneratedListedBy(userId, search));
    |Filter(st.urls, GeneratedListedBy(userId, search))|
  }

  // ------------------------------------------------------------------
  // Custom URLs.

  /** `insertCustomUrl`: rejected by the unique constraint when the code is
      taken by any row, whoever owns it. */
  function InsertCustomUrl(st: Store, url: string, customCode: string, userId: int, now: int)
    : (r: Result<Inserted, DbError>)
    ensures r.Err? <==> exists x | x in st.customUrls :: x.customCode == customCode
    ensures r.Err? ==> r.error == UniqueViolation
    ensures r.Ok? ==> r.value.store.customUrls
                      == st.customUrls + [CustomUrl(r.value.id, userId, url, customCode, now, now)]
    ensures r.Ok? ==> r.value.store.urls == st.urls && r.value.store.nextUrlId == st.nextUrlId
    ensures r.Ok? ==> r.value.store.nextCustomUrlId > r.value.id
    ensures r.Ok? && Valid(st) ==> Valid(r.value.store) && r.value.id >= CustomIdStart
    ensures r.Ok? && Valid(st) ==> forall x | x in st.customUrls :: x.id != r.value.id
  {
    if FindFirst(st.customUrls, HasCode(customCode)).Some? then
      Err(UniqueViolation)
    else
      var id := st.nextCustomUrlId;
      var row := CustomUrl(id, userId, url, customCode, now, now);
      Ok(Inserted(id, st.(customUrls := st.customUrls + [row], nextCustomUrlId := id + 1)))
  }

  /** The store after a rejected `insertCustomUrl`. Postgres evaluates the
      identity default before the unique check, so the failed insert has
      still drawn one value from the identity sequence; no row is added. */
  function RejectCustomInsert(st: Store): (r: Store)
    ensures r.urls == st.urls && r.customUrls == st.customUrls && r.nextUrlId == st.nextUrlId
    ensures r.nextCustomUrlId == st.nextCustomUrlId + 1
    ensures Valid(st) ==> Valid(r)
  {
    st.(nextCustomUrlId := st.nextCustomUrlId + 1)
  }

  /** A row with the supplied fields set and `updated_at` refreshed. */
  function ApplyPatch(row: CustomUrl, patch: CustomUrlPatch, now: int): CustomUrl {
    row.(url := patch.url.GetOr(row.url),
         customCode := patch.customCode.GetOr(row.customCode),
         updatedAt := now)
  }

  function ApplyPatchTo(patch: CustomUrlPatch, now: int): CustomUrl -> CustomUrl {
    (r: CustomUrl) => ApplyPatch(r, patch, now)
  }

  /** `updateCustomUrl`: sets the supplied fields on the row matching both
      `id` and `userId`; `executeTakeFirstOrThrow` fails when none matches,
      and a new code already held by another row violates the constraint. */
  function UpdateCustomUrl(st: Store, id: int, userId: int, patch: CustomUrlPatch, now: int)
    : (r: Result<Updated, DbError>)
    ensures r.Err? && r.error == NoResult <==> forall x | x in st.customUrls :: !(x.id == id && x.userId == userId)
    ensures r.Ok? ==> exists x | x in st.customUrls :: x.id == id && x.userId == userId && r.value.row == ApplyPatch(x, patch, now)
    ensures r.Ok? ==> |r.value.store.customUrls| == |st.customUrls|
    ensures r.Ok? ==> forall i | 0 <= i < |st.customUrls| && !(st.customUrls[i].id == id && st.customUrls[i].userId == userId) ::
                        r.value.store.customUrls[i] == st.customUrls[i]
    ensures r.Ok? ==> forall i | 0 <= i < |st.customUrls| && st.customUrls[i].id == id && st.customUrls[i].userId == userId ::
                        r.value.store.customUrls[i] == ApplyPatch(st.customUrls[i], patch, now)
    ensures r.Ok? ==> r.value.row in r.value.store.customUrls
    ensures r.Ok? ==> r.value.store.urls == st.urls
    ensures r.Ok? ==> r.value.store.nextUrlId == st.nextUrlId && r.value.store.nextCustomUrlId == st.nextCustomUrlId
    ensures r.Ok? && Valid(st) ==> Valid(r.value.store)
  {
    match FindFirst(st.customUrls, OwnedCustom(id, userId))
    case None => Err(NoResult)
    case Some(prev) =>
      var row := ApplyPatch(prev, patch, now);
      if patch.customCode.Some? && FindFirst(st.customUrls, HasCodeBesides(row.customCode, prev)).Some? then
        Err(UniqueViolation)
      else
        var rows := MapWhere(st.customUrls, OwnedCustom(id, userId), ApplyPatchTo(patch, now));
        var st' := st.(customUrls := rows);
        UpdatePreservesValid(st, id, userId, patch, now, prev, rows);
        assert row in rows by {
          var k :| 0 <= k < |st.customUrls| && st.customUrls[k] == prev;
          assert rows[k] == row;
        }
        Ok(Updated(row, st'))
  }

  /** The rewritten table still satisfies the schema when the update did not
      violate the code constraint. */
  lemma UpdatePreservesValid(st: Store, id: int, userId: int, patch: CustomUrlPatch, now: int,
                             prev: CustomUrl, rows: seq<CustomUrl>)
    requires prev in st.customUrls && prev.id == id && prev.userId == userId
    requires rows == MapWhere(st.customUrls, OwnedCustom(id, userId), ApplyPatchTo(patch, now))
    requires patch.customCode.Some? ==>
               forall x | x in st.customUrls && x.customCode == patch.customCode.value :: x == prev
    ensures Valid(st) ==> Valid(st.(customUrls := rows))
  {
  }

  /** Ids identify generated rows. */
  lemma GeneratedIdsUnique(st: Store, x: GeneratedUrl, y: GeneratedUrl)
    requires Valid(st) && x in st.urls && y in st.urls && x.id == y.id
    ensures x == y
  {
  }

  /** Ids identify custom rows. */
  lemma CustomIdsUnique(st: Store, x: CustomUrl, y: CustomUrl)
    requires Valid(st) && x in st.customUrls && y in st.customUrls && x.id == y.id
    ensures x == y
  {
  }

  /** Overwriting one row with a row of the same id whose code no other row
      holds keeps the schema's guarantees. */
  lemma ReplacePreservesValid(st: Store, k: int, row: CustomUrl)
    requires Valid(st)
    requires 0 <= k < |st.customUrls| && row.id == st.customUrls[k].id
    requires forall x | x in st.customUrls && x.customCode == row.customCode :: x == st.customUrls[k]
    ensures Valid(st.(customUrls := st.customUrls[k := row]))
  {
  }

  /** `deleteCustomUrl`: removes the rows matching both `id` and `userId`. */
  function DeleteCustomUrl(st: Store, id: int, userId: int): (r: Deleted)
    ensures forall x | x in r.store.customUrls :: x in st.customUrls && !(x.id == id && x.userId == userId)
    ensures forall x | x in st.customUrls && !(x.id == id && x.userId == userId) :: x in r.store.customUrls
    ensures r.store.urls == st.urls
    ensures r.store.nextUrlId == st.nextUrlId && r.store.nextCustomUrlId == st.nextCustomUrlId
    ensures r.count == |st.customUrls| - |r.store.customUrls|
    ensures Valid(st) ==> Valid(r.store)
  {
    var rows := Filter(st.customUrls, KeepCustom(id, userId));
    FilterIncreasing(st.customUrls, KeepCustom(id, userId), CustomId);
    Deleted(|st.customUrls| - |rows|, st.(customUrls := rows))
  }

  /** `findCustomUrlById`: scoped to the owner. */
  function FindCustomUrlById(st: Store, id: int, userId: int): (r: Option<CustomUrl>)
    ensures r.Some? ==> r.value in st.customUrls && r.value.id == id && r.value.userId == userId
    ensures r.None? <==> forall x | x in st.customUrls :: !(x.id == id && x.userId == userId)
  {
    FindFirst(st.customUrls, OwnedCustom(id, userId))
  }

  /** `findCustomUrlByCustomCode`: any owner; selects only `url`. */
  function FindCustomUrlByCustomCode(st: Store, customCode: string): (r: Option<string>)
    ensures r.Some? ==> exists x | x in st.customUrls :: x.customCode == customCode && x.url == r.value
    ensures r.None? <==> forall x | x in st.customUrls :: x.customCode != customCode
  {
    match FindFirst(st.customUrls, HasCode(customCode))
    case Some(row) => Some(row.url)
    case None => None
  }

  /** The rows the custom listing and its count select, in table order. */
  function CustomMatching(st: Store, userId: int, search: Option<string>): seq<CustomUrl>
  {
    Filter(st.customUrls, CustomListedBy(userId, search))
  }

  /** `findAllCustomUrlsByUserId` without its `ORDER BY`: the matching rows
      from position `(page-1)*limit`, at most `limit` of them. */
  function FindAllCustomUrlsByUserId(st: Store, q: UrlQuery, userId: int): (r: seq<CustomUrl>)
    requires q.page >= 1 && q.limit >= 0
    ensures |r| <= q.limit
    ensures forall x | x in r :: x in st.customUrls && CustomListed(x, userId, q.search)
    ensures forall i | 0 <= i < |r| ::
              && 0 <= (q.page - 1) * q.limit + i < |CustomMatching(st, userId, q.search)|
              && r[i] == CustomMatching(st, userId, q.search)[(q.page - 1) * q.limit + i]
  {
    Window(CustomMatching(st, userId, q.search), (q.page - 1) * q.limit, q.limit)
  }

  /** `countCustomUrlsByUserId` */
  function CountCustomUrlsByUserId(st: Store, search: Option<string>, userId: int): (n: nat)
    ensures n <= |st.customUrls|
    ensures n == 0 <==> forall x | x in st.customUrls :: !CustomListed(x, userId, search)
  {
    FilterEmptyIff(st.customUrls, CustomListedBy(userId, search));
    |Filter(st.customUrls, CustomListedBy(userId, search))|
  }

  // ------------------------------------------------------------------
  // Properties relating several queries.

  /** A listing page holds exactly the rows of the count's filter at
      positions `(page-1)*limit` onward, at most `limit` of them. */
  lemma GeneratedListingMatchesCount(st: Store, q: UrlQuery, userId: int)
    requires q.page >= 1 && q.limit >= 0
    ensures var page := FindAllGeneratedUrlsByUserId(st, q, userId);
            var total := CountGeneratedUrlsByUserId(st, q.search, userId);
            var offset := (q.page - 1) * q.limit;
            |page| == (if offset >= total then 0 else if q.limit < total - offset then q.limit else total - offset)
  {
  }

  /** The custom listing and count agree the same way, with the search over
      `url` or `customCode`. */
  lemma CustomListingMatchesCount(st: Store, q: UrlQuery, userId: int)
    requires q.page >= 1 && q.limit >= 0
    ensures var page := FindAllCustomUrlsByUserId(st, q, userId);
            var total := CountCustomUrlsByUserId(st, q.search, userId);
            var offset := (q.page - 1) * q.limit;
            |page| == (if offset >= total then 0 else if q.limit < total - offset then q.limit else total - offset)
  {
  }

  /** Every matching generated row is listed on some page. */
  lemma GeneratedEveryMatchListed(st: Store, q: UrlQuery, userId: int, x: GeneratedUrl)
    requires q.limit >= 1
    requires x in st.urls && GeneratedListed(x, userId, q.search)
    ensures exists p | p >= 1 :: x in FindAllGeneratedUrlsByUserId(st, q.(page := p), userId)
  {
    var m := GeneratedMatching(st, userId, q.search);
    var k :| 0 <= k < |m| && m[k] == x;
    var p := WindowPageOf(m, q.limit, k);
    assert FindAllGeneratedUrlsByUserId(st, q.(page := p), userId) == Window(m, (p - 1) * q.limit, q.limit);
  }

  /** No generated row is listed on two different pages. */
  lemma GeneratedPagesDisjoint(st: Store, q: UrlQuery, userId: int, page2: int)
    requires Valid(st) && q.page >= 1 && q.limit >= 0 && page2 >= 1 && page2 != q.page
    ensures var r1 := FindAllGeneratedUrlsByUserId(st, q, userId);
            var r2 := FindAllGeneratedUrlsByUserId(st, q.(page := page2), userId);
            forall i, j | 0 <= i < |r1| && 0 <= j < |r2| :: r1[i] != r2[j]
  {
    var m := GeneratedMatching(st, userId, q.search);
    FilterIncreasing(st.urls, GeneratedListedBy(userId, q.search), GeneratedId);
    WindowPagesDisjoint(m, GeneratedId, q.page, page2, q.limit);
    assert FindAllGeneratedUrlsByUserId(st, q, userId) == Window(m, (q.page - 1) * q.limit, q.limit);
    assert FindAllGeneratedUrlsByUserId(st, q.(page := page2), userId) == Window(m, (page2 - 1) * q.limit, q.limit);
  }

  /** Every matching custom row is listed on some page. */
  lemma CustomEveryMatchListed(st: Store, q: UrlQuery, userId: int, x: CustomUrl)
    requires q.limit >= 1
    requires x in st.customUrls && CustomListed(x, userId, q.search)
    ensures exists p | p >= 1 :: x in FindAllCustomUrlsByUserId(st, q.(page := p), userId)
  {
    var m := CustomMatching(st, userId, q.search);
    var k :| 0 <= k < |m| && m[k] == x;
    var p := WindowPageOf(m, q.limit, k);
    assert FindAllCustomUrlsByUserId(st, q.(page := p), userId) == Window(m, (p - 1) * q.limit, q.limit);
  }

  /** No custom row is listed on two different pages. */
  lemma CustomPagesDisjoint(st: Store, q: UrlQuery, userId: int, page2: int)
    requires Valid(st) && q.page >= 1 && q.limit >= 0 && page2 >= 1 && page2 != q.page
    ensures var r1 := FindAllCustomUrlsByUserId(st, q, userId);
            var r2 := FindAllCustomUrlsByUserId(st, q.(page := page2), userId);
            forall i, j | 0 <= i < |r1| && 0 <= j < |r2| :: r1[i] != r2[j]
  {
    var m := CustomMatching(st, userId, q.search);
    FilterIncreasing(st.customUrls, CustomListedBy(userId, q.search), CustomId);
    WindowPagesDisjoint(m, CustomId, q.page, page2, q.limit);
    assert FindAllCustomUrlsByUserId(st, q, userId) == Window(m, (q.page - 1) * q.limit, q.limit);
    assert FindAllCustomUrlsByUserId(st, q.(page := page2), userId) == Window(m, (page2 - 1) * q.limit, q.limit);
  }

  /** Deleting a user cascades to both tables (`ON DELETE CASCADE` on
      `user_id` in migrations 005 and 006). */
  function CascadeDeleteUser(st: Store, userId: int): (r: Store)
    ensures forall x | x in r.urls :: x in st.urls && x.userId != userId
    ensures forall x | x in st.urls && x.userId != userId :: x in r.urls
    ensures forall x | x in r.customUrls :: x in st.customUrls && x.userId != userId
    ensures forall x | x in st.customUrls && x.userId != userId :: x in r.customUrls
    ensures Valid(st) ==> Valid(r)
  {
    FilterIncreasing(st.urls, NotOwnedGenerated(userId), GeneratedId);
    FilterIncreasing(st.customUrls, NotOwnedCustom(userId), CustomId);
    st.(urls := Filter(st.urls, NotOwnedGenerated(userId)),
        customUrls := Filter(st.customUrls, NotOwnedCustom(userId)))
  }

  function NotOwnedGenerated(userId: int): GeneratedUrl -> bool {
    (r: GeneratedUrl) => r.userId != userId
  }

  function NotOwnedCustom(userId: int): CustomUrl -> bool {
    (r: CustomUrl) => r.userId != userId
  }
}

=== FILE: seqs.dfy ===
/** Sequence helpers for the in-memory tables: SQL `WHERE` as a filter,
    `executeTakeFirst` as a search, `LIMIT`/`OFFSET` as a window. */
module Seqs {
  import opened Wrappers

  /** The elements of `s` that satisfy `p`. They keep their original order:
      `FilterSnoc` shows that filtering distributes over appending one
      element, and `FilterIncreasing` that a sorted input stays sorted. */
  function Filter<T>(s: seq<T>, p: T -> bool): (r: seq<T>)
    ensures |r| <= |s|
    ensures forall x | x in r :: x in s && p(x)
    ensures forall x | x in s && p(x) :: x in r
    decreases |s|
  {
    if |s| == 0 then []
    else (if p(s[0]) then [s[0]] else []) + Filter(s[1..], p)
  }

  /** A filter comes out empty exactly when nothing passes. */
  lemma FilterEmptyIff<T>(s: seq<T>, p: T -> bool)
    ensures |Filter(s, p)| == 0 <==> forall x | x in s :: !p(x)
  {
  }

  /** `key` strictly increases along `s`. */
  predicate Increasing<T>(s: seq<T>, key: T -> int) {
    forall i, j :: 0 <= i < j < |s| ==> key(s[i]) < key(s[j])
  }

  /** Filtering keeps a strictly increasing key strictly increasing. */
  lemma {:induction false} FilterIncreasing<T>(s: seq<T>, p: T -> bool, key: T -> int)
    ensures Increasing(s, key) ==> Increasing(Filter(s, p), key)
    decreases |s|
  {
    if |s| > 0 && Increasing(s, key) {
      FilterIncreasing(s[1..], p, key);
      var rest := Filter(s[1..], p);
      forall j | 0 <= j < |rest| ensures key(s[0]) < key(rest[j]) {
        assert rest[j] in s[1..];
        var k :| 0 <= k < |s[1..]| && s[1..][k] == rest[j];
        assert s[k + 1] == rest[j];
      }
    }
  }

  /** Filtering distributes over appending one element at the end. */
  lemma {:induction false} FilterSnoc<T>(s: seq<T>, x: T, p: T -> bool)
    ensures Filter(s + [x], p) == Filter(s, p) + (if p(x) then [x] else [])
    decreases |s|
  {
    if |s| > 0 {
      assert (s + [x])[1..] == s[1..] + [x];
      FilterSnoc(s[1..], x, p);
    }
  }

  /** Filtering keeps a sequence whose every element passes unchanged. */
  lemma {:induction false} FilterKeepsAll<T>(s: seq<T>, p: T -> bool)
    requires forall i | 0 <= i < |s| :: p(s[i])
    ensures Filter(s, p) == s
    decreases |s|
  {
    if |s| > 0 {
      FilterKeepsAll(s[1..], p);
    }
  }

  /** No two positions of `s` share a key. */
  predicate KeysDistinct<T, K(==)>(s: seq<T>, key: T -> K) {
    forall i, j | 0 <= i < |s| && 0 <= j < |s| && i != j :: key(s[i]) != key(s[j])
  }

  /** Filtering keeps distinct keys distinct. */
  lemma {:induction false} FilterKeysDistinct<T, K>(s: seq<T>, p: T -> bool, key: T -> K)
    ensures KeysDistinct(s, key) ==> KeysDistinct(Filter(s, p), key)
    decreases |s|
  {
    if |s| > 0 && KeysDistinct(s, key) {
      assert KeysDistinct(s[1..], key) by {
        forall i, j | 0 <= i < |s[1..]| && 0 <= j < |s[1..]| && i != j
          ensures key(s[1..][i]) != key(s[1..][j])
        {
          assert s[1..][i] == s[i + 1] && s[1..][j] == s[j + 1];
        }
      }
      FilterKeysDistinct(s[1..], p, key);
      var rest := Filter(s[1..], p);
      forall j | 0 <= j < |rest| ensures key(s[0]) != key(rest[j]) {
        assert rest[j] in s[1..];
        var k :| 0 <= k < |s[1..]| && s[1..][k] == rest[j];
        assert s[k + 1] == rest[j];
      }
    }
  }

  /** The first element of `s` satisfying `p`, if any. */
  function FindFirst<T>(s: seq<T>, p: T -> bool): (r: Option<T>)
    ensures r.Some? ==> r.value in s && p(r.value)
    ensures r.None? ==> forall x | x in s :: !p(x)
    ensures (exists x | x in s :: p(x)) ==> r.Some?
    decreases |s|
  {
    if |s| == 0 then None
    else if p(s[0]) then Some(s[0])
    else FindFirst(s[1..], p)
  }

  /** SQL `LIMIT limit OFFSET offset` over rows already in result order. */
  function Window<T>(s: seq<T>, offset: nat, limit: nat): (r: seq<T>)
    ensures |r| == if offset >= |s| then 0
                   else if limit < |s| - offset then limit else |s| - offset
    ensures forall i :: 0 <= i < |r| ==> r[i] == s[offset + i]
  {
    if offset >= |s| then []
    else if limit < |s| - offset then s[offset..offset + limit]
    else s[offset..]
  }

  /** Along a strictly increasing key, distinct positions hold distinct
      elements. */
  lemma IncreasingDistinct<T>(s: seq<T>, key: T -> int, i: int, j: int)
    requires Increasing(s, key)
    requires 0 <= i < |s| && 0 <= j < |s| && i != j
    ensures s[i] != s[j]
  {
    if i < j {
      assert key(s[i]) < key(s[j]);
    } else {
      assert key(s[j]) < key(s[i]);
    }
  }

  /** Every position of `s` lies on a page: position `k` is entry
      `k % limit` of the window at offset `(k / limit) * limit`. */
  lemma WindowCovers<T>(s: seq<T>, limit: nat, k: int)
    requires limit >= 1 && 0 <= k < |s|
    ensures var o := (k / limit) * limit;
            && 0 <= o <= k && k % limit < |Window(s, o, limit)|
            && Window(s, o, limit)[k % limit] == s[k]
  {
    var o := (k / limit) * limit;
    assert o + k % limit == k;
    assert 0 <= k / limit;
    assert 0 <= o by { MulNonNegative(k / limit, limit); }
  }

  lemma MulNonNegative(a: int, b: int)
    requires a >= 0 && b >= 0
    ensures a * b >= 0
  {
  }

  /** Entries of two different pages sit at different positions. */
  lemma PagePositionsDistinct(p1: int, p2: int, limit: int, i: int, j: int)
    requires p1 >= 1 && p2 >= 1 && p1 != p2
    requires 0 <= i < limit && 0 <= j < limit
    ensures (p1 - 1) * limit + i != (p2 - 1) * limit + j
  {
    if p1 < p2 {
      assert (p2 - 1) * limit - (p1 - 1) * limit == (p2 - p1) * limit;
      assert (p2 - p1) * limit >= limit by { MulNonNegative(p2 - p1 - 1, limit); }
    } else {
      assert (p1 - 1) * limit - (p2 - 1) * limit == (p1 - p2) * limit;
      assert (p1 - p2) * limit >= limit by { MulNonNegative(p1 - p2 - 1, limit); }
    }
  }

  /** The page, counted from 1, whose window holds position `k`. */
  lemma WindowPageOf<T>(s: seq<T>, limit: nat, k: int) returns (p: int)
    requires limit >= 1 && 0 <= k < |s|
    ensures p >= 1 && (p - 1) * limit >= 0
    ensures s[k] in Window(s, (p - 1) * limit, limit)
  {
    p := k / limit + 1;
    WindowCovers(s, limit, k);
    assert (p - 1) * limit == (k / limit) * limit;
  }

  /** Along a strictly increasing key, the windows of two different pages
      share no element. */
  lemma WindowPagesDisjoint<T>(s: seq<T>, key: T -> int, p1: int, p2: int, limit: nat)
    requires Increasing(s, key) && p1 >= 1 && p2 >= 1 && p1 != p2
    ensures (p1 - 1) * limit >= 0 && (p2 - 1) * limit >= 0
    ensures var w1 := Window(s, (p1 - 1) * limit, limit);
            var w2 := Window(s, (p2 - 1) * limit, limit);
            forall i, j | 0 <= i < |w1| && 0 <= j < |w2| :: w1[i] != w2[j]
  {
    MulNonNegative(p1 - 1, limit);
    MulNonNegative(p2 - 1, limit);
    var w1 := Window(s, (p1 - 1) * limit, limit);
    var w2 := Window(s, (p2 - 1) * limit, limit);
    forall i, j | 0 <= i < |w1| && 0 <= j < |w2| ensures w1[i] != w2[j] {
      PagePositionsDistinct(p1, p2, limit, i, j);
      IncreasingDistinct(s, key, (p1 - 1) * limit + i, (p2 - 1) * limit + j);
    }
  }

  /** `s` with each element satisfying `p` replaced by `f` of it. */
  function MapWhere<T>(s: seq<T>, p: T -> bool, f: T -> T): (r: seq<T>)
    ensures |r| == |s|
    ensures forall i :: 0 <= i < |s| ==> r[i] == if p(s[i]) then f(s[i]) else s[i]
  {
    seq(|s|, i requires 0 <= i < |s| => if p(s[i]) then f(s[i]) else s[i])
  }
}

=== FILE: server_cache.dfy ===
/** The API's Redis cache (`services/cache.service.ts`): composite keys
    `kind:key`, string values with an optional expiry, and every client
    failure rethrown as `CacheServiceError`.

    Redis is a map from composite key to entry. Time is a parameter in
    seconds; an entry whose expiry has been reached is treated as absent,
    which is how Redis reports it. Whether the connection works is a
    boolean parameter `up`. */
module ServerCache {
  import opened Wrappers
  import opened ShortnErrors
  import Strings

  /** `CacheKind` */
  datatype CacheKind = Refresh | GeneratedUrl | CustomUrl

  function KindName(k: CacheKind): (s: string)
    ensures |s| > 0
  {
    match k
    case Refresh => "refresh"
    case GeneratedUrl => "generated_url"
    case CustomUrl => "custom_url"
  }

  /** A stored string and the second at which it expires, if any. */
  datatype Entry = Entry(value: string, expiresAt: Option<int>)

  type Redis = map<string, Entry>

  /** A value handed to `set`. `Json` is an object already rendered by
      `JSON.stringify`, which this model does not implement. */
  datatype CacheValue = Str(s: string) | Num(n: int) | Bool(b: bool) | Null | Undefined | Json(rendered: string)

  /** `typeof value === "object" ? JSON.stringify(value) : String(value)` */
  function Stringify(v: CacheValue): (s: string)
    ensures v.Str? ==> s == v.s
    ensures v.Json? ==> s == v.rendered
    ensures v.Null? ==> s == "null"
    ensures v.Undefined? ==> s == "undefined"
    ensures v.Bool? ==> s == (if v.b then "true" else "false")
    ensures v.Num? ==> s == Strings.IntToString(v.n)
  {
    match v
    case Str(s) => s
    case Num(n) => Strings.IntToString(n)
    case Bool(b) => if b then "true" else "false"
    case Null => "null"
    case Undefined => "undefined"
    case Json(r) => r
  }

  /** `generateKey` */
  function GenerateKey(kind: CacheKind, key: string): (k: string)
    ensures Strings.IsPrefix(KindName(kind) + ":", k)
    ensures |k| == |KindName(kind)| + 1 + |key|
    ensures k[|KindName(kind)| + 1..] == key
  {
    KindName(kind) + ":" + key
  }

  /** No kind name contains `':'`. */
  lemma KindNameNoColon(kind: CacheKind, i: int)
    requires 0 <= i < |KindName(kind)|
    ensures KindName(kind)[i] != ':'
  {
  }

  /** Composite keys never collide: distinct (kind, key) pairs give distinct
      Redis keys, because the first `':'` always ends the kind name. */
  lemma GenerateKeyInjective(k1: CacheKind, a: string, k2: CacheKind, b: string)
    requires GenerateKey(k1, a) == GenerateKey(k2, b)
    ensures k1 == k2 && a == b
  {
    var s := GenerateKey(k1, a);
    var n1, n2 := KindName(k1), KindName(k2);
    if |n1| < |n2| {
      assert s[|n1|] == ':';
      assert s[|n1|] == n2[|n1|];
      KindNameNoColon(k2, |n1|);
    } else if |n2| < |n1| {
      assert s[|n2|] == ':';
      assert s[|n2|] == n1[|n2|];
      KindNameNoColon(k1, |n2|);
    } else {
      assert n1 == s[..|n1|] == n2;
    }
  }

  /** Redis holds `k` and it has not expired at `now`. */
  predicate Live(r: Redis, k: string, now: int) {
    k in r && (r[k].expiresAt.None? || now < r[k].expiresAt.value)
  }

  /** `get`: the live value, or a `CacheServiceError` when the client
      cannot reach Redis. */
  function Get(r: Redis, kind: CacheKind, key: string, up: bool, now: int)
    : (res: Result<Option<string>, CacheError>)
    ensures !up <==> res.Err?
    ensures res.Err? ==> res.error == CacheServiceError
    ensures res.Ok? ==> (res.value.Some? <==> Live(r, GenerateKey(kind, key), now))
    ensures res.Ok? && res.value.Some? ==> res.value.value == r[GenerateKey(kind, key)].value
  {
    if !up then Err(CacheServiceError)
    else
      var k := GenerateKey(kind, key);
      if Live(r, k, now) then Ok(Some(r[k].value)) else Ok(None)
  }

  /** `set` with an optional `EX` expiration in seconds. Redis rejects a
      non-positive expiry, which surfaces as `CacheServiceError` too. */
  function Set(r: Redis, kind: CacheKind, key: string, v: CacheValue, ex: Option<int>, up: bool, now: int)
    : (res: Result<Redis, CacheError>)
    ensures res.Err? <==> !up || (ex.Some? && ex.value <= 0)
    ensures res.Err? ==> res.error == CacheServiceError
    ensures res.Ok? ==> GenerateKey(kind, key) in res.value
                        && res.value[GenerateKey(kind, key)].value == Stringify(v)
    ensures res.Ok? ==> forall k | k != GenerateKey(kind, key) ::
                          (k in res.value <==> k in r) && (k in r ==> res.value[k] == r[k])
  {
    if !up || (ex.Some? && ex.value <= 0) then Err(CacheServiceError)
    else
      var expiresAt := if ex.Some? then Some(now + ex.value) else None;
      Ok(r[GenerateKey(kind, key) := Entry(Stringify(v), expiresAt)])
  }

  /** The result of `del`: how many live keys it removed. */
  datatype Removed = Removed(count: nat, redis: Redis)

  /** `del`: removes exactly the one composite key. */
  function Del(r: Redis, kind: CacheKind, key: string, up: bool, now: int)
    : (res: Result<Removed, CacheError>)
    ensures !up <==> res.Err?
    ensures res.Err? ==> res.error == CacheServiceError
    ensures res.Ok? ==> GenerateKey(kind, key) !in res.value.redis
    ensures res.Ok? ==> forall k | k != GenerateKey(kind, key) ::
                          (k in res.value.redis <==> k in r) && (k in r ==> res.value.redis[k] == r[k])
    ensures res.Ok? ==> (res.value.count == 1 <==> Live(r, GenerateKey(kind, key), now))
    ensures res.Ok? ==> res.value.count <= 1
  {
    if !up then Err(CacheServiceError)
    else
      var k := GenerateKey(kind, key);
      Ok(Removed(if Live(r, k, now) then 1 else 0, r - {k}))
  }

  /** A `set` is read back by a `get` of the same kind and key before its
      expiry. */
  lemma SetThenGet(r: Redis, kind: CacheKind, key: string, v: CacheValue, ex: Option<int>, now: int, later: int)
    requires Set(r, kind, key, v, ex, true, now).Ok?
    requires now <= later && (ex.Some? ==> later < now + ex.value)
    ensures Get(Set(r, kind, key, v, ex, true, now).value, kind, key, true, later) == Ok(Some(Stringify(v)))
  {
  }

  /** A `set` under one kind is invisible under every other (kind, key). */
  lemma SetLeavesOthers(r: Redis, kind: CacheKind, key: string, v: CacheValue, ex: Option<int>, now: int,
                        kind2: CacheKind, key2: string, later: int)
    requires Set(r, kind, key, v, ex, true, now).Ok?
    requires kind2 != kind || key2 != key
    ensures Get(Set(r, kind, key, v, ex, true, now).value, kind2, key2, true, later) == Get(r, kind2, key2, true, later)
  {
    if GenerateKey(kind2, key2) == GenerateKey(kind, key) {
      GenerateKeyInjective(kind2, key2, kind, key);
    }
  }

  /** After `del`, a `get` of the same kind and key misses. */
  lemma DelThenGet(r: Redis, kind: CacheKind, key: string, now: int, later: int)
    requires Del(r, kind, key, true, now).Ok?
    ensures Get(Del(r, kind, key, true, now).value.redis, kind, key, true, later) == Ok(None)
  {
  }

  /** A `del` leaves every other (kind, key) as it was. */
  lemma DelLeavesOthers(r: Redis, kind: CacheKind, key: string, now: int, kind2: CacheKind, key2: string, later: int)
    requires Del(r, kind, key, true, now).Ok?
    requires kind2 != kind || key2 != key
    ensures Get(Del(r, kind, key, true, now).value.redis, kind2, key2, true, later) == Get(r, kind2, key2, true, later)
  {
    if GenerateKey(kind2, key2) == GenerateKey(kind, key) {
      GenerateKeyInjective(kind2, key2, kind, key);
    }
  }
}

=== FILE: strings.dfy ===
/** String helpers shared by several parts of the model: prefix and
    substring tests, `Array.prototype.join`, decimal rendering and parsing,
    `String.prototype.padStart`, ASCII lower-casing and `trim`. */
module Strings {

  /** `s.startsWith(p)` */
  predicate IsPrefix(p: string, s: string) {
    |p| <= |s| && s[..|p|] == p
  }

  /** `s.includes(sub)`: `sub` occurs at some offset of `s`. */
  predicate Contains(s: string, sub: string)
    decreases |s|
  {
    IsPrefix(sub, s) || (|s| > 0 && Contains(s[1..], sub))
  }

  /** A string that contains `sub` is at least as long as `sub`. */
  lemma {:induction false} ContainsLength(s: string, sub: string)
    requires Contains(s, sub)
    ensures |sub| <= |s|
    decreases |s|
  {
    if !IsPrefix(sub, s) {
      ContainsLength(s[1..], sub);
    }
  }

  /** `parts.join(sep)` */
  function Join(parts: seq<string>, sep: string): string
    decreases |parts|
  {
    if |parts| == 0 then ""
    else if |parts| == 1 then parts[0]
    else parts[0] + sep + Join(parts[1..], sep)
  }

  /** Appending one part to a non-empty list adds exactly one separator and
      that part at the end of the joined string. */
  lemma {:induction false} JoinSnoc(parts: seq<string>, p: string, sep: string)
    requires |parts| > 0
    ensures Join(parts + [p], sep) == Join(parts, sep) + sep + p
    decreases |parts|
  {
    if |parts| == 1 {
      assert (parts + [p])[1..] == [p];
    } else {
      assert (parts + [p])[1..] == parts[1..] + [p];
      JoinSnoc(parts[1..], p, sep);
    }
  }

  /** A joined non-empty list starts with its first part and ends with its
      last part: there is no leading or trailing separator. */
  lemma {:induction false} JoinEnds(parts: seq<string>, sep: string)
    requires |parts| > 0
    ensures IsPrefix(parts[0], Join(parts, sep))
    ensures var j := Join(parts, sep); var l := parts[|parts| - 1];
            |l| <= |j| && j[|j| - |l|..] == l
    decreases |parts|
  {
    if |parts| > 1 {
      JoinEnds(parts[1..], sep);
      var j := Join(parts, sep);
      var t := Join(parts[1..], sep);
      var l := parts[|parts| - 1];
      assert j == parts[0] + sep + t;
      assert j[|j| - |l|..] == t[|t| - |l|..];
    }
  }

  /** The character of decimal digit `d`. */
  function DecimalDigit(d: nat): char
    requires d < 10
  {
    (d + '0' as int) as char
  }

  /** `String(n)` for a non-negative integer: its decimal digits without
      leading zeros. */
  function NatToString(n: nat): (s: string)
    ensures |s| >= 1
    ensures forall i :: 0 <= i < |s| ==> '0' <= s[i] <= '9'
    ensures n > 0 ==> s[0] != '0'
    decreases n
  {
    if n < 10 then [DecimalDigit(n)]
    else NatToString(n / 10) + [DecimalDigit(n % 10)]
  }

  /** `String(i)` for any integer: a minus sign before the digits of `-i`. */
  function IntToString(i: int): string {
    if i < 0 then "-" + NatToString(-i) else NatToString(i)
  }

  /** The value of a string of decimal digits, leading zeros ignored
      (`parseInt(s, 10)` on digit strings). */
  function ParseDecimal(s: string): nat
    requires forall i :: 0 <= i < |s| ==> '0' <= s[i] <= '9'
    decreases |s|
  {
    if |s| == 0 then 0
    else ParseDecimal(s[..|s| - 1]) * 10 + (s[|s| - 1] as int - '0' as int)
  }

  /** Decimal rendering and parsing are inverse. */
  lemma {:induction false} ParseNatToString(n: nat)
    ensures ParseDecimal(NatToString(n)) == n
    decreases n
  {
    if n >= 10 {
      var s := NatToString(n);
      assert s[..|s| - 1] == NatToString(n / 10);
      ParseNatToString(n / 10);
    }
  }

  /** Leading zeros do not change the parsed value. */
  lemma {:induction false} ParseLeadingZeros(z: string, s: string)
    requires forall i :: 0 <= i < |z| ==> z[i] == '0'
    requires forall i :: 0 <= i < |s| ==> '0' <= s[i] <= '9'
    ensures ParseDecimal(z + s) == ParseDecimal(s)
    decreases |s|
  {
    if |s| == 0 {
      assert z + s == z;
      ParseZeros(z);
    } else {
      assert (z + s)[..|z + s| - 1] == z + s[..|s| - 1];
      ParseLeadingZeros(z, s[..|s| - 1]);
    }
  }

  /** A string of zeros parses to zero. */
  lemma {:induction false} ParseZeros(z: string)
    requires forall i :: 0 <= i < |z| ==> z[i] == '0'
    ensures ParseDecimal(z) == 0
    decreases |z|
  {
    if |z| > 0 {
      ParseZeros(z[..|z| - 1]);
    }
  }

  /** The decimal rendering has at most three digits exactly when the value
      is at most 999. */
  lemma {:induction false} NatToStringLength(n: nat)
    ensures |NatToString(n)| <= 3 <==> n <= 999
    decreases n
  {
    if n >= 10 {
      NatToStringLength(n / 10);
      if n >= 100 {
        NatToStringLength(n / 100);
      }
    }
  }

  /** `c` repeated `k` times. */
  function Repeat(c: char, k: nat): (s: string)
    ensures |s| == k
    ensures forall i :: 0 <= i < k ==> s[i] == c
  {
    seq(k, _ => c)
  }

  /** `s.padStart(width, fill)` with a one-character fill string. */
  function PadStart(s: string, width: nat, fill: char): (r: string)
    ensures |r| == if |s| >= width then |s| else width
    ensures r[|r| - |s|..] == s
    ensures forall i :: 0 <= i < |r| - |s| ==> r[i] == fill
  {
    if |s| >= width then s else Repeat(fill, width - |s|) + s
  }

  /** One character lower-cased; only ASCII letters change. */
  function AsciiLowerChar(c: char): char {
    if 'A' <= c <= 'Z' then (c as int - 'A' as int + 'a' as int) as char else c
  }

  /** `s.toLowerCase()` restricted to ASCII letters. */
  function AsciiLower(s: string): (r: string)
    ensures |r| == |s|
    ensures forall i :: 0 <= i < |s| ==> r[i] == AsciiLowerChar(s[i])
  {
    seq(|s|, i requires 0 <= i < |s| => AsciiLowerChar(s[i]))
  }

  /** The characters `String.prototype.trim` removes: the ECMAScript
      WhiteSpace and LineTerminator code points. */
  predicate IsJsWhitespace(c: char) {
    var k := c as int;
    k == 0x09 || k == 0x0A || k == 0x0B || k == 0x0C || k == 0x0D || k == 0x20
    || k == 0xA0 || k == 0x1680 || (0x2000 <= k <= 0x200A)
    || k == 0x2028 || k == 0x2029 || k == 0x202F || k == 0x205F
    || k == 0x3000 || k == 0xFEFF
  }

  /** The characters the regular-expression `.` does not match. */
  predicate IsLineTerminator(c: char) {
    var k := c as int;
    k == 0x0A || k == 0x0D || k == 0x2028 || k == 0x2029
  }

  /** `s.trimStart()` */
  function TrimStart(s: string): (r: string)
    ensures |r| <= |s| && r == s[|s| - |r|..]
    ensures |r| > 0 ==> !IsJsWhitespace(r[0])
    ensures forall i :: 0 <= i < |s| - |r| ==> IsJsWhitespace(s[i])
    decreases |s|
  {
    if |s| > 0 && IsJsWhitespace(s[0]) then TrimStart(s[1..]) else s
  }

  /** `s.trimEnd()` */
  function TrimEnd(s: string): (r: string)
    ensures |r| <= |s| && r == s[..|r|]
    ensures |r| > 0 ==> !IsJsWhitespace(r[|r| - 1])
    ensures forall i :: |r| <= i < |s| ==> IsJsWhitespace(s[i])
    decreases |s|
  {
    if |s| > 0 && IsJsWhitespace(s[|s| - 1]) then TrimEnd(s[..|s| - 1]) else s
  }

  /** `s.trim()` */
  function Trim(s: string): string {
    TrimEnd(TrimStart(s))
  }

  /** A string trims to `""` exactly when every character is whitespace. */
  lemma TrimEmptyIffBlank(s: string)
    ensures Trim(s) == "" <==> forall i :: 0 <= i < |s| ==> IsJsWhitespace(s[i])
  {
  }
}

=== FILE: validators.dfy ===
/** Request validation on the API and redirect servers: the custom-code
    schema (`schemas/url.schema.ts`), the target-URL rule of `UrlHelper`
    (`helpers/url.helper.ts`) and of the redirect server
    (`helpers/isValidURL.ts`), and the shorten body's `customCode` field
    (`controllers/url.controller.ts`).

    WHATWG URL parsing is not modelled: a URL arrives already parsed into
    its protocol and hostname, or marked unparseable. */
module Validators {
  import opened Wrappers
  import Strings

  /** The longest custom code `CustomCodeSchema` accepts. */
  const MaxCustomCodeLength: nat := 30

  /** The message of the schema's regex check. */
  const CustomCodeRegexMessage: string :=
    "Custom code can only contain letters, numbers, underscores, and hyphens."

  /** A member of the class `[a-zA-Z0-9_-]`. */
  predicate IsCodeChar(c: char) {
    ('a' <= c <= 'z') || ('A' <= c <= 'Z') || ('0' <= c <= '9') || c == '_' || c == '-'
  }

  /** The regex `^[a-zA-Z0-9_-]+$` read as a matcher: one class character,
      then either the end of input or another match of the same pattern. */
  predicate MatchesCodeRegex(s: string)
    decreases |s|
  {
    |s| > 0 && IsCodeChar(s[0]) && (|s| == 1 || MatchesCodeRegex(s[1..]))
  }

  /** `CustomCodeSchema`: `.max(30)` and the regex must both pass. */
  predicate CustomCodeValid(s: string) {
    |s| <= MaxCustomCodeLength && MatchesCodeRegex(s)
  }

  /** The regex accepts exactly the non-empty strings of class characters. */
  lemma {:induction false} MatchesCodeRegexIff(s: string)
    ensures MatchesCodeRegex(s) <==> |s| > 0 && forall i :: 0 <= i < |s| ==> IsCodeChar(s[i])
    decreases |s|
  {
    if |s| > 1 {
      MatchesCodeRegexIff(s[1..]);
      assert forall i :: 1 <= i < |s| ==> s[i] == s[1..][i - 1];
    }
  }

  /** The schema accepts a code iff it has 1 to 30 characters, all from the
      class. */
  lemma CustomCodeValidIff(s: string)
    ensures CustomCodeValid(s) <==> 1 <= |s| <= MaxCustomCodeLength && forall i :: 0 <= i < |s| ==> IsCodeChar(s[i])
  {
    MatchesCodeRegexIff(s);
  }

  /** The empty code and every code longer than 30 characters are rejected. */
  lemma CustomCodeLengthRejected(s: string)
    requires s == "" || |s| > MaxCustomCodeLength
    ensures !CustomCodeValid(s)
  {
  }

  /** A code holding a dot, a slash, a space or any non-ASCII character is
      rejected. */
  lemma CustomCodeCharRejected(s: string, i: int)
    requires 0 <= i < |s|
    requires s[i] == '.' || s[i] == '/' || s[i] == ' ' || s[i] as int > 0x7F
    ensures !CustomCodeValid(s)
  {
    CustomCodeValidIff(s);
    assert !IsCodeChar(s[i]);
  }

  /** The `customCode` field of the shorten body: absent, `""`, or a code
      the schema accepts. */
  predicate ShortenCustomCodeAccepted(customCode: Option<string>) {
    customCode.None? || customCode.value == "" || CustomCodeValid(customCode.value)
  }

  /** A body the controller accepted carries, whenever the engine takes its
      custom path (a non-empty code), a code the schema accepts. */
  lemma AcceptedTruthyCodeIsValid(customCode: Option<string>)
    requires ShortenCustomCodeAccepted(customCode)
    requires customCode.Some? && customCode.value != ""
    ensures CustomCodeValid(customCode.value)
    ensures 1 <= |customCode.value| <= MaxCustomCodeLength
  {
  }

  /** The outcome of `new URL(url)`. */
  datatype ParsedUrl = Unparseable | Parsed(protocol: string, hostname: string)

  /** `UrlHelper.isUrlValid`: any parsed URL in local mode, otherwise an
      `https:` URL whose hostname is non-empty and contains a dot. */
  predicate IsUrlValid(p: ParsedUrl, isLocal: bool) {
    match p
    case Unparseable => false
    case Parsed(protocol, hostname) =>
      isLocal || (protocol == "https:" && |hostname| > 0 && Strings.Contains(hostname, "."))
  }

  /** `UrlHelper.isShortenedUrlValid`: a valid URL whose text contains the
      client URL. */
  predicate IsShortenedUrlValid(url: string, p: ParsedUrl, isLocal: bool, clientUrl: string) {
    IsUrlValid(p, isLocal) && Strings.Contains(url, clientUrl)
  }

  /** The redirect server's `isValidUrl`. */
  predicate ServerIsValidUrl(p: ParsedUrl) {
    match p
    case Unparseable => false
    case Parsed(protocol, hostname) =>
      protocol == "https:" && hostname != "" && Strings.Contains(hostname, ".")
  }

  /** `isUrlValid`, case by case. */
  lemma IsUrlValidCases(p: ParsedUrl, isLocal: bool)
    ensures p.Unparseable? ==> !IsUrlValid(p, isLocal)
    ensures p.Parsed? && isLocal ==> IsUrlValid(p, isLocal)
    ensures p.Parsed? && !isLocal ==>
              (IsUrlValid(p, isLocal) <==> p.protocol == "https:" && Strings.Contains(p.hostname, "."))
  {
  }

  /** The redirect server applies the API's rule with no local-mode bypass. */
  lemma ServerRuleIsStrictRule(p: ParsedUrl)
    ensures ServerIsValidUrl(p) <==> IsUrlValid(p, false)
  {
  }

  /** A shortened URL is valid exactly when the general rule holds and the
      client URL occurs in it; in particular the local bypass does not skip
      the client-URL check. */
  lemma ShortenedUrlNeedsClientUrl(url: string, p: ParsedUrl, isLocal: bool, clientUrl: string)
    requires IsShortenedUrlValid(url, p, isLocal, clientUrl)
    ensures IsUrlValid(p, isLocal) && |clientUrl| <= |url|
  {
    Strings.ContainsLength(url, clientUrl);
  }
}

=== FILE: wrappers.dfy ===
/** Option and Result types used throughout the model in place of the
    source's `undefined`/`null` returns and thrown exceptions. */
module Wrappers {

  /** A value that may be absent (`undefined` or `null` in the source). */
  datatype Option<+T> = None | Some(value: T) {

    /** Returns the wrapped value, or `default` when absent. */
    function GetOr(default: T): T {
      match this
      case Some(v) => v
      case None => default
    }
  }

  /** The outcome of an operation that either returns a value or throws. */
  datatype Result<+T, +E> = Ok(value: T) | Err(error: E)
}
